=== FILE: README.md ===
# CrowdsourcedPiedmontese data-preparation core, in Dafny

This project models the pure data-preparation logic of the CrowdsourcedPiedmontese scripts and
proves properties of it. The scripts build and score the Italian–Piedmontese word-alignment
gold set and clean the crowdsourced survey data.

- **Gold-alignment builder** (`prepare_for_alignment.py`). Each annotated span is replaced by a
  ` §k ` placeholder. The text is cut into placeholder parts and plain parts, and every part and
  span is tokenised. The builder then counts token offsets and emits the product of token
  indices for each span matched across the sentence pair. Finally it rebuilds the tokenised
  sentence that those indices point into. Modules: `Text`, `Tokenizer`, `Placeholders`,
  `Parts`, `Alignment`, `Sample`, `Cases`, `Pairs`.
- **Alignment scorer** (`alignment_score.py`). `load_gold` parses gold lines into possible and
  sure link sets, and `calc_score` counts hits per predicted line (`GoldScore`).
- **Keyword classifier** (`extract_category` of `classification_task.py`), in `Classification`.
- **Survey cleaner** (`clean_raw_data.py`): the label tables, `inv_map`, and the record
  transformation of `clean_file` (`Dicts`, `Labels`, `Cleaning`).
- **Text normaliser and score table** (`clean_text` and `EVAL_DICT` of
  `prepare_raw_data.py`), in `RawText`.

Design choices:

- Python exceptions are values. A `Result` carries `ValueError`, `IndexError`, `KeyError`,
  `TypeError` or `AssertionError`, and the first exception raised ends a loop as it does in
  Python.
- Python's `\s`, `\w`, `str.lower` and `unicodedata.decimal` are the fields of an abstract
  `Text.CharClass`. `Text.Valid` lists the few facts the proofs need about them. `Text.Ascii`
  is a concrete instance that satisfies them: Python's `\s` and `\w` restricted to Latin-1,
  with ASCII digits only.
- `int()` follows Python's grammar for base 10: surrounding whitespace, an optional sign,
  Unicode decimal digits and single underscores between digits (`Parts.ParseInt`). Its
  whitespace is that of `str.strip()` without the information separators U+001C to U+001F,
  which `int()` does not skip (`Parts.IntSpaces`). A negative list index counts from the
  end, as in Python (`Results.PyIndex`).
- Python dicts are association lists in insertion order (`Dicts.Dict`), the order in which
  Python iterates them. Assigning to an existing key keeps its position, as in Python.
- JSON is a small datatype (`Cleaning.Json`). The label tables are a `Labels.Tables`
  parameter, and `Labels.Shipped` holds the tables the script defines.
- The regexes are hand-written scanners:
  - `[.,;:!?]` is `Tokenizer.RemovePunct`.
  - `\s*-\s*` is `Tokenizer.SpaceHyphens`.
  - `(\w)'` is `Tokenizer.SpaceApostrophes`.
  - `\s+` is `Tokenizer.CollapseSpaces`.
  - ` ?§[0-9]+ ?` with a capturing split is `Parts.Scan`.

The main theorem is `Sample.SampleAlignsSpans`. Take texts free of `§` and, on each side,
in-bounds, non-empty, pairwise disjoint spans. Then `process_sample` succeeds. Its two rebuilt
token streams hold every span's tokens as one contiguous block. Its alignment pairs are
exactly the pairs of a source token and a target token of the same span. The error paths are
characterised by `Sample.ProcessSampleFails` and `Sample.MatchedIffMarkers`. Concrete lemmas
in `Cases` show the edge behaviours of the placeholder rewrite:

- an empty span gets no placeholder;
- a span covered by a later one gets no placeholder;
- a span nested in an earlier one splits it into two placeholders;
- `last` is not reset on unmasked characters.

## Model

| member | source | states |
|---|---|---|
| Text.LowerIdempotent | prepare_for_alignment.py:85 | lower-casing twice is lower-casing once, and it keeps every `-`, `§` and whitespace character in place and creates none |
| Text.Strip | prepare_for_alignment.py:70 | `strip()` returns a contiguous slice of its input; everything removed before and after it is whitespace, and the slice neither starts nor ends with whitespace |
| Text.StripIdempotent | prepare_for_alignment.py:90 | stripping twice gives the same string as stripping once |
| Text.DropEmpty | prepare_for_alignment.py:94 | the filtered list is the input's non-empty members with their multiplicities, and a list without empty strings is unchanged |
| Text.DropEmptyConcat | prepare_for_alignment.py:94 | filtering distributes over concatenation, so the surviving members keep their order |
| Text.Split | prepare_for_alignment.py:92 | `split(sep)` never returns an empty list and no piece contains the separator |
| Text.SplitJoin | prepare_for_alignment.py:92 | splitting a joined list of separator-free strings gives the list back |
| Text.JoinSplit | alignment_score.py:37 | joining the pieces of a split gives the original string back |
| Text.Words | alignment_score.py:17 | `split()` without an argument yields non-empty, whitespace-free words |
| Text.WordsCut | alignment_score.py:17 | a whitespace character cuts the string: the words are those before it followed by those after it, in order |
| Text.WordsOfRun | alignment_score.py:17 | a non-empty run without whitespace is one word, and an all-whitespace string has none |
| Text.WordsJoin | alignment_score.py:17 | `split()` undoes a single-space join of non-empty, whitespace-free words |
| Text.ParseNatToString | prepare_for_alignment.py:76 | `int(str(n)) == n` for every natural number |
| Text.ContainsIff | classification_task.py:22 | Python's substring test holds exactly when the keyword occurs at some position |
| Tokenizer.RemovePunct | prepare_for_alignment.py:81 | no `. , ; : ! ?` survives, every other character keeps its number of occurrences, and a text without them is unchanged |
| Tokenizer.RemovePunctConcat | prepare_for_alignment.py:81 | removal distributes over concatenation, so the kept characters stay in order |
| Tokenizer.SpaceHyphensIsolate | prepare_for_alignment.py:83 | after the hyphen pass every `-` has whitespace or a string end on both sides |
| Tokenizer.SpaceApostrophesClose | prepare_for_alignment.py:87 | after the apostrophe pass every apostrophe that follows a word character is followed by whitespace or the end |
| Tokenizer.CollapseBlanks | prepare_for_alignment.py:89 | after collapsing, the only whitespace character left is the plain space |
| Tokenizer.CollapseIsolated | prepare_for_alignment.py:89 | collapsing whitespace keeps every `-` surrounded by whitespace |
| Tokenizer.SpacedFacts | prepare_for_alignment.py:78-89 | the normalised part has no punctuation of the removed class, is lower-case outside whitespace, uses only plain spaces, isolates hyphens, closes apostrophes, and holds no `§` when the input had none |
| Tokenizer.TokenIsSlice | prepare_for_alignment.py:90-94 | every token is a space-free contiguous piece of the normalised part |
| Tokenizer.TokenizeTokens | prepare_for_alignment.py:78-95 | every token of `tokenize` is non-empty, has no whitespace, none of `. , ; : ! ?`, is lower-case, is exactly `-` if it holds a `-`, has an apostrophe after a word character only as its last character, and has no `§` when the part had none |
| Placeholders.Mask | prepare_for_alignment.py:48-54 | a mask cell is -1 exactly when no span covers it; otherwise it holds a span covering it and no later span in the list covers it (the later span wins on overlaps) |
| Placeholders.ReplaceTokens | prepare_for_alignment.py:43-64 | one span string per input span, equal to `text[start:end]`: the characters from `start` up to `end`, or `""` for a reversed span |
| Placeholders.RewriteKeepsUnmasked | prepare_for_alignment.py:55-63 | deleting the placeholders from the rewrite leaves exactly the unmasked characters, verbatim and in order |
| Placeholders.RewriteMarkersInRange | prepare_for_alignment.py:57-62 | every placeholder the rewrite emits names a span of the list |
| Placeholders.MaskIsOwner | prepare_for_alignment.py:48-54 | with disjoint spans each mask cell is the unique span covering that position |
| Placeholders.RewriteIsRef | prepare_for_alignment.py:55-63 | for disjoint spans the `last`-tracking walk equals a position-by-position description: an uncovered character is copied, a span's first character becomes its placeholder, other covered characters vanish |
| Placeholders.OnePlaceholderPerSpan | prepare_for_alignment.py:55-63 | for in-bounds, non-empty, disjoint spans the rewritten text holds exactly one placeholder per span, in increasing order of span start |
| Parts.MatchLenSound | prepare_for_alignment.py:68 | what the scanner finds at a position is a match of ` ?§[0-9]+ ?` and the longest one there |
| Parts.ScanSpells | prepare_for_alignment.py:69 | the pieces of `re.split` with a capturing group concatenate back to the input: no character is lost |
| Parts.ToParts | prepare_for_alignment.py:66-72 | every part is non-empty and has no whitespace at either end |
| Parts.CleanIsStripThenDrop | prepare_for_alignment.py:70-71 | the single-pass cleaning equals the two comprehensions, strip then drop empties |
| Parts.StripStartsLikeLStrip | prepare_for_alignment.py:105 | the placeholder tests `lstrip().startswith('§')` and `strip().startswith('§')` agree |
| Parts.ParseIntLiteral | prepare_for_alignment.py:76 | `int` reads whitespace other than U+001C to U+001F, then an optional `+` or `-`, then decimal digits with single underscores only between digits, then such whitespace, as the digits' value, negated after `-` |
| Parts.ParseIntOkIsLiteral | prepare_for_alignment.py:76 | `int` succeeds exactly on strings of that shape, and raises `ValueError` on every other string, including a literal padded with U+001C to U+001F |
| Parts.ParseIntSeparators | prepare_for_alignment.py:74-76 | `strip()` removes a leading U+001C but `int` refuses `"\x1c0"`; `int` skips a leading U+00A0 and reads `"\xa00"` as 0 |
| Parts.ParseIntDecimal | prepare_for_alignment.py:76 | a run of ASCII digits parses to its decimal value, and `str(n)`, `'+'+str(n)` and `'-'+str(n)` parse to `n`, `n` and `-n` |
| Parts.ParseIntAccepts | prepare_for_alignment.py:74-76 | `"+0"`, `"-1"`, `"1_0"` and `" 7 "` parse to 0, -1, 10 and 7 |
| Parts.ParseIntRefuses | prepare_for_alignment.py:74-76 | `"_1"`, `"1_"`, `"1__0"`, `"- 1"`, `""` and `"+"` raise `ValueError` |
| Parts.SpecialToIndexSlot | prepare_for_alignment.py:74-76 | `special_to_index` recovers `k` from `§k`, with or without the placeholder's spaces |
| Parts.PlaceholderParts | prepare_for_alignment.py:55-72 | for a `§`-free text, the placeholder parts of the split are exactly `§m0, §m1, …` for the placeholders the rewrite emitted, in order, and every other part is free of `§` |
| Alignment.Chain | prepare_for_alignment.py:133-142 | the flattened list exists exactly when every part's look-up succeeds; otherwise the error is the first failing part's |
| Alignment.OffsetIsPrefixLength | prepare_for_alignment.py:97-111 | offset `k` is the length of everything the parts before `k` contribute |
| Alignment.TokenOffsetStep | prepare_for_alignment.py:97-111 | the first offset is 0 and each next offset adds what the part stands for: its own tokens, its span's tokens for a placeholder part, none for an empty part |
| Alignment.FlattenOk | prepare_for_alignment.py:97-142 | `token_offset` succeeds exactly when the flattening does, with one offset per part |
| Alignment.Lockstep | prepare_for_alignment.py:97-142 | token `j` of what part `k` stands for sits in the flattened stream at the part's offset plus `j` |
| Alignment.CombineTokens | prepare_for_alignment.py:131-145 | `combine_tokens` fails exactly when, and with the error with which, `token_offset` fails |
| Alignment.RebuiltSplits | prepare_for_alignment.py:143-145 | the rebuilt line splits on `' '` into exactly the flattened tokens |
| Alignment.RebuiltWords | prepare_for_alignment.py:143-145 | reading the rebuilt line back with `split()` gives exactly the flattened tokens |
| Alignment.ProductAt | prepare_for_alignment.py:126-128 | pair number `i*m + j` of the product is `(a+i, b+j)`: row-major order |
| Alignment.ProductMembers | prepare_for_alignment.py:126-128 | the product holds exactly the pairs of the rectangle `[a, a+n) × [b, b+m)` |
| Alignment.AlignSpan | prepare_for_alignment.py:119-128 | a matched pair succeeds exactly when both look-ups resolve, and then emits `len(src_span) * len(trg_span)` pairs, so a span with no tokens contributes none |
| Alignment.MakeAlignmentsMembers | prepare_for_alignment.py:113-129 | `make_alignments` fails exactly when some matched pair's look-ups fail; otherwise a pair is emitted exactly when it lies in some matched pair's product |
| Sample.ListIndex | prepare_for_alignment.py:161 | `list.index` returns the first position holding the value, or raises `ValueError` when there is none |
| Sample.PlaceholderIndices | prepare_for_alignment.py:159-160 | the positions of exactly the placeholder parts, in increasing order |
| Sample.AlignFrom | prepare_for_alignment.py:158-162 | the part pairing succeeds exactly when every source placeholder part occurs among the target parts, raising `ValueError` otherwise; each pair joins a source placeholder to the first identical target part |
| Sample.SampleAlignsSpans | prepare_for_alignment.py:147-181 | for `§`-free texts with in-bounds, non-empty, disjoint spans on each side, `process_sample` succeeds; both rebuilt token streams hold every span's tokens as one block, and the alignment pairs are exactly the pairs of a source and a target token of the same span |
| Sample.MatchedIffMarkers | prepare_for_alignment.py:158-162 | every source placeholder part finds an identical target part exactly when every span with a source placeholder also has a target placeholder |
| Sample.ProcessSampleFails | prepare_for_alignment.py:161-163 | a span with a source placeholder but no target placeholder makes `process_sample` raise `ValueError`; otherwise a placeholder count different from the number of spans fails the "Missing aligned tokens" assertion |
| Cases.NestedSpanSplitsOuter | prepare_for_alignment.py:57-62 | a span nested inside an earlier one splits it: the outer index is emitted again after the inner one |
| Cases.GapKeepsLast | prepare_for_alignment.py:56-62 | because `last` survives unmasked characters, two runs of one index separated by an unmasked character give a single placeholder |
| Cases.EmptySpanRejected | prepare_for_alignment.py:163 | a sample with an empty span fails the final assertion |
| Cases.ReversedSpanHasNoMarker | prepare_for_alignment.py:50-54 | a reversed span slices to `""` and paints no mask cell, so it gets no placeholder and nothing raises |
| Cases.ReversedSpanRejected | prepare_for_alignment.py:163 | a sample with a reversed span fails the final assertion |
| Cases.CoveredSpanRejected | prepare_for_alignment.py:163 | a span swallowed by a later overlapping span leaves too few placeholders and fails the final assertion |
| Cases.OneSidedSpanRejected | prepare_for_alignment.py:161 | a span empty on the target side only leaves a source placeholder without a partner, and `trg_parts.index` raises `ValueError` |
| Pairs.ItemOutcome | prepare_for_alignment.py:195-204 | an item missing a text key raises `KeyError`; with a filter, an item without `split` raises `KeyError('split')`; an item is skipped exactly when its split differs from the filter; otherwise the outcome is the sample's |
| Pairs.ChosenMembers | prepare_for_alignment.py:199-200 | the chosen items are exactly those that have their keys and pass the filter |
| Pairs.ProcessPairs | prepare_for_alignment.py:190-205 | `process_pairs` succeeds exactly when no item raises, else fails with the first item's exception; on success the three lists have one entry per chosen item, in input order, each the sample's output |
| Pairs.ProcessPairsNoFilter | prepare_for_alignment.py:190-205 | without a filter, a run that raises nothing keeps every item, in order |
| Pairs.ChosenAll | prepare_for_alignment.py:199 | every item is chosen exactly when every item has its keys and passes the filter |
| Pairs.ChosenIdempotent | prepare_for_alignment.py:199 | filtering twice by the same split changes nothing |
| Pairs.ChosenConcat | prepare_for_alignment.py:195-200 | filtering distributes over concatenation of item lists |
| Pairs.LinkRoundTrip | prepare_for_alignment.py:221 | a link splits on `-` into the decimal forms of its indices, which parse back to the indices |
| Pairs.LinkTextInjective | prepare_for_alignment.py:221 | distinct pairs give distinct link strings |
| Pairs.AlignmentLineWords | prepare_for_alignment.py:221 | reading a written alignment line back with `split()` gives its links, in order |
| GoldScore.ReplaceP | alignment_score.py:19 | `replace("p", "-")` keeps the length, turns every `p` into `-`, and changes nothing else |
| GoldScore.ParseGoldLine | alignment_score.py:17-20 | the sure links of a gold line are a subset of its possible links, and no possible link contains `p` |
| GoldScore.ParseGoldLineMembers | alignment_score.py:19-20 | the sure links are exactly the tokens without `p`; the possible links are exactly the tokens with `p` read as `-`; a line without `p` has equal possible and sure sets |
| GoldScore.LoadGold | alignment_score.py:9-25 | one possible set and one sure set per line, each the parse of that line, and `surs_count` is the sum of the sizes of the sure sets, so duplicates on a line count once |
| GoldScore.GoldSureIsPossible | alignment_score.py:19-20 | across the whole gold file every sure link is possible and no possible link contains `p` |
| GoldScore.Truncate | alignment_score.py:37 | the cut link is a prefix of the original whose `-` fields are the original's first two, ending just before the second `-`; a link with at most two fields is unchanged |
| GoldScore.NormaliseTokens | alignment_score.py:34-37 | an empty line raises `IndexError`; otherwise every token is kept as a prefix of itself, all are cut to their first two `-` fields exactly when the first token has more than two, tokens with at most two fields are kept, and the line is unchanged exactly when the first token has at most two |
| GoldScore.LineHits | alignment_score.py:39-41 | per line, both hit counts are at most the number of distinct predicted links, and the sure hits are at most the possible hits when every sure link is possible |
| GoldScore.ScoreLine | alignment_score.py:33-41 | one predicted line succeeds exactly when it has a token and a gold line of its number; an empty line raises `IndexError` and a non-empty line without gold sets raises `KeyError`; its hits are at most its distinct links, and its sure hits at most its possible hits when its sure links are possible |
| GoldScore.HitsFromOk | alignment_score.py:33-42 | the loop over the lines succeeds exactly when every line does |
| GoldScore.HitsFromErr | alignment_score.py:33-42 | a failing loop raises the exception of its first failing line, every earlier line having succeeded |
| GoldScore.HitsFromConsistent | alignment_score.py:39-41 | adding up per-line counters that keep the bounds gives totals that keep them |
| GoldScore.CalcHitsSucceeds | alignment_score.py:27-42 | scoring succeeds exactly when every predicted line has a token and a gold line of the same number |
| GoldScore.CalcHitsErrors | alignment_score.py:33-39 | scoring raises only `IndexError` or `KeyError`; `IndexError` only when some predicted line has no token, and `KeyError` only with more predicted lines than gold lines |
| GoldScore.CalcHitsConsistent | alignment_score.py:39-41 | the totals keep the hits at most the number of distinct predicted links, and the sure hits at most the possible hits when every sure link is possible |
| GoldScore.SelfScorePerfect | alignment_score.py:9-42 | a gold file of plain lines scored against itself hits every link as possible and as sure, and all three totals equal `surs_count` |
| GoldScore.AlignmentLineIsGold | alignment_score.py:17-20 | a non-empty line written by the builder parses to equal possible and sure sets: only sure links |
| GoldScore.EmptyAlignmentLineRejected | alignment_score.py:36 | a sample with no links is written as an empty line, and scoring it as a prediction raises `IndexError` |
| Classification.ExtractCategory | classification_task.py:20-24 | the result is a category of the map or `"unknown"`; it is `"unknown"` when no keyword occurs in the lower-cased prediction; otherwise it is the category of the first keyword, in map order, that occurs |
| Classification.UnknownIffNoKeyword | classification_task.py:21-24 | for a map with no `"unknown"` category, the answer is `"unknown"` exactly when no keyword occurs in the lower-cased prediction |
| Classification.ExtractIgnoresCase | classification_task.py:22 | classifying the lower-cased prediction gives the same answer |
| Classification.KeywordsMapValues | classification_task.py:8-18 | every category of the keyword map is one of `CATEGORIES` and none is `"unknown"` |
| Classification.KeywordsGiveCategories | classification_task.py:8-24 | with the shipped map every answer is one of `CATEGORIES` or `"unknown"` |
| Classification.HealthAndSport | classification_task.py:9-23 | the first keyword in map order wins wherever it occurs: "health and sport" is classified as sports |
| Classification.PluralsMatch | classification_task.py:13-14 | an answer mentioning "sports" or "politics" is never classified as unknown |
| Dicts.GetOr | clean_raw_data.py:85-93 | `d.get(k, fallback)` returns the fallback for a missing key and the stored value otherwise |
| Dicts.Put | clean_raw_data.py:85-93 | assignment keeps an existing key in place and appends a new one; the key then holds the new value and no key is duplicated |
| Dicts.InvMap | clean_raw_data.py:77-78 | the inverse has no repeated key and is no longer than the dict |
| Dicts.InvMapKeys | clean_raw_data.py:77-78 | the keys of the inverse are exactly the values of the dict |
| Dicts.InvMapLastWins | clean_raw_data.py:77-78 | a value shared by several keys maps back to the last of them |
| Dicts.InvMapInjective | clean_raw_data.py:77-78 | without shared values, inverting exchanges keys and values item by item |
| Dicts.InvMapTwice | clean_raw_data.py:77-78 | a dict with distinct values is recovered by inverting it twice |
| Labels.InvertibleRoundTrip | clean_raw_data.py:77-78 | for an injective table `inv_map(d)[d[k]] == k` for every key, and inverting twice gives the table back |
| Labels.ShippedTablesRoundTrip | clean_raw_data.py:127-133 | every shipped table survives the round trip through its inverse |
| Labels.ScoredAnswersAreTranslated | clean_raw_data.py:58-75 | the score table grades the same answers, in the same order, as the evaluation translation table |
| Labels.ScoresInRange | clean_raw_data.py:68-75 | every score in the table lies in [-1, 4] |
| Cleaning.Get | clean_raw_data.py:84-94 | subscripting succeeds exactly when the key is present, and raises `KeyError(key)` otherwise |
| Cleaning.Delete | clean_raw_data.py:83-84 | `del` raises `KeyError` for a missing key; otherwise the key is gone and every other key keeps its value |
| Cleaning.Relabel | clean_raw_data.py:85-93 | `M.get(x, x)` replaces a string that is a key of the table by its entry, leaves every other hashable value unchanged, and raises `TypeError` for a list or object |
| Cleaning.Score | clean_raw_data.py:92 | a graded answer gets its grade, any other hashable value gets -1, and a list or object raises `TypeError` |
| Cleaning.Apply | clean_raw_data.py:85-93 | one assignment raises `KeyError` for a missing source field; on success the target field holds the computed value and every other field is unchanged |
| Cleaning.Run | clean_raw_data.py:85-93 | a run of assignments leaves fields it does not assign unchanged and gives every assigned field a value |
| Cleaning.RunField | clean_raw_data.py:85-93 | after a run, a field assigned once from a field no earlier step assigns holds what its step computes from the original record |
| Cleaning.StepsIndependent | clean_raw_data.py:85-93 | every assignment of the script is independent: each field is assigned once, and the score reads the evaluation before line 93 overwrites it |
| Cleaning.CleanData | clean_raw_data.py:84-93 | a missing `feedback` raises `KeyError('feedback')`; on success `feedback` is gone, every field the script does not name is unchanged, and every named field is present |
| Cleaning.CleanDataField | clean_raw_data.py:85-93 | each answer field of the cleaned object holds what its assignment computes from the answers as submitted |
| Cleaning.LanguageSourceMapped | clean_raw_data.py:89 | `language-source` is translated item by item: same length, same order, each item relabelled |
| Cleaning.ScoreFromOriginal | clean_raw_data.py:92-93 | the score is graded from the Italian evaluation as submitted, and the evaluation itself is then translated |
| Cleaning.ShippedRecordScore | clean_raw_data.py:92 | in a record cleaned with the shipped tables, the score is a number in [-1, 4] |
| Cleaning.Basename | clean_raw_data.py:94 | the base name is the suffix of the path after its last `/` and holds no `/` |
| Cleaning.CleanReview | clean_raw_data.py:94 | `selected_path` becomes its base name and every other review field is unchanged |
| Cleaning.CleanTop | clean_raw_data.py:83-93 | a missing `group` raises `KeyError('group')`; on success `group` is gone and every field other than `data` is unchanged |
| Cleaning.CleanTopData | clean_raw_data.py:84-93 | after cleaning, `data` holds the cleaned version of the original `data` object |
| Cleaning.CleanRecord | clean_raw_data.py:83-94 | the whole record transformation raises `KeyError('group')` without `group`; on success `group` is gone and every field other than `data` and `review_data` is unchanged |
| Cleaning.SelectedPathIsBasename | clean_raw_data.py:94 | in a cleaned record `review_data.selected_path` is the base name of the submitted path: a string holding no `/` |
| Cleaning.MissingFeedbackRejected | clean_raw_data.py:84 | a record whose `data` has no `feedback` is rejected with `KeyError('feedback')` |
| RawText.Straighten | prepare_raw_data.py:31-32 | the two replacements keep the length, turn both curly single quotes into `'`, and leave every other character alone |
| RawText.CleanText | prepare_raw_data.py:30-33 | the result has no whitespace at either end, is no longer than the input, and is the straightened input's characters, in order, from the first non-whitespace one |
| RawText.CleanTextNoCurlyQuotes | prepare_raw_data.py:31-32 | no U+2018 or U+2019 survives cleaning |
| RawText.CleanTextDropsOnlySpace | prepare_raw_data.py:33 | every character trimmed away was whitespace once the quotes were straightened |
| RawText.CleanTextFixpoint | prepare_raw_data.py:30-33 | cleaning leaves a string unchanged exactly when it has no curly quotes and no whitespace at either end |
| RawText.CleanTextIdempotent | prepare_raw_data.py:30-33 | cleaning a cleaned string changes nothing |
| RawText.EvalDictScores | prepare_raw_data.py:15-22 | every score of the table lies in [-1, 4], and the table equals the cleaning script's score table |

## Left out

- Argument parsing, file reading and writing, and printing: every `__main__` block, the `open` calls of `load_gold` and `calc_score`, and `print_aligned`. The scorer is modelled over in-memory lines and the cleaner over a decoded JSON value.
- `span_argsort` (prepare_for_alignment.py:39-41): nothing calls it.
- The floating-point metrics of `calc_score` (precision, recall, F1, AER with `round`): the model stops at the integer hit counts. `all_count` and `surs_count` are floats in the source and natural numbers here.
- Network and external-model wrappers: closed_models.py, simalign_task.py, train_sp.py, the translation scripts and the `__main__` of classification_task.py, which builds prompts and calls models.
- The pandas and dataset handling of prepare_raw_data.py's `__main__`, and the scoring scripts (translation_score.py, classification_score.py, the parity scripts).
- Unicode tables: `\s`, `\w`, `lower()` and the decimal-digit table are abstract. The proofs hold for any tables that meet `Text.Valid`; `Text.Ascii` is one instance, with Python's `\s` and `\w` on Latin-1 and ASCII digits only.
- Text.Lower: lower-cases one character to one character. Python's `lower()` maps `İ` to two code points and lower-cases a final `Σ` by context; `Text.Valid` holds of the tables only where they map one character to one.
- The assertion at prepare_for_alignment.py:151 is not modelled as a failure path. Both lists have one entry per span (`Placeholders.ReplaceTokens`), so it cannot fail.
- Span ends outside `[0, len(text)]`: `Placeholders.InBounds` excludes them, and `Sample.ProcessSample` requires every span end to lie in that range. Python reads a negative start or end from the end of the text, both in `text[start:end]` and in `mask[j]`. A non-empty range that runs past the text raises `IndexError` at prepare_for_alignment.py:54, and a reversed one past the text raises nothing. Reversed spans inside the text are modelled: they slice to `""` and paint nothing.
- Sample.SampleAlignsSpans: it requires texts free of `§`, because the code does no escaping and a `§` in a text would be read as a placeholder. It also requires non-empty, disjoint spans whose ends lie in `[0, len(text)]`.
- Pairs.ProcessPairs: it requires the span ends of every item the filter keeps to lie in `[0, len(text)]`, as `ProcessSample` does. Skipped items, and items that raise `KeyError` first, are unconstrained.
- Duplicate keys in a decoded JSON object are not ruled out by the `Json` datatype. The lemmas that depend on it take `Dicts.UniqueKeys` as a hypothesis, as Python's dicts guarantee.
- Cleaning.Basename: splits on `/` only, as POSIX `os.path.basename` does. The Windows separator `\` is not modelled.
- Cleaning.CleanRecord: states nothing about `review_data` beyond `selected_path`. `Cleaning.CleanReview` and `Cleaning.SelectedPathIsBasename` state the rest.

=== FILE: alignment.dfy ===
/**
 * Token offsets, the rebuilt token stream and the token-level alignment pairs of the
 * alignment builder (`token_offset`, `combine_tokens`, `make_alignments`).
 *
 * A tokenized part is a list of strings: the tokens of a plain-text part, or the
 * one-element list holding a placeholder part `§k`.
 */
module Alignment {
  import opened Results
  import opened Text
  import opened Tokenizer
  import opened Parts

  /** `spans[special_to_index(special)]`. */
  function SpanTokens(cc: CharClass, special: string, spans: seq<seq<string>>): Result<seq<string>, PyError> {
    var k :- SpecialToIndex(cc, special);
    PyIndex(spans, k)
  }

  /** The tokens a tokenized part stands for in the rebuilt text: nothing for an empty part,
      its span's tokens for a placeholder part, its own tokens otherwise
      (prepare_for_alignment.py:103-110 and 134-142 make the same three-way choice). */
  function Contribution(cc: CharClass, part: seq<string>, spans: seq<seq<string>>): Result<seq<string>, PyError> {
    if |part| == 0 then Ok([])
    else if IsPlaceholderPart(cc, part[0]) then SpanTokens(cc, part[0], spans)
    else Ok(part)
  }

  /** Each part's contribution, in order: the list `token_offset` and `combine_tokens` walk. */
  function Contributions(cc: CharClass, parts: seq<seq<string>>, spans: seq<seq<string>>): (r: seq<Result<seq<string>, PyError>>)
    ensures |r| == |parts|
    decreases |parts|
  {
    if |parts| == 0 then [] else [Contribution(cc, parts[0], spans)] + Contributions(cc, parts[1..], spans)
  }

  lemma {:induction false} ContributionsAt(cc: CharClass, parts: seq<seq<string>>, spans: seq<seq<string>>, k: nat)
    requires k < |parts|
    ensures Contributions(cc, parts, spans)[k] == Contribution(cc, parts[k], spans)
    decreases k
  {
    if k > 0 {
      ContributionsAt(cc, parts[1..], spans, k - 1);
    }
  }

  // ---------------------------------------------------------------- loops over per-item results

  /** Every item of the list succeeded. */
  ghost predicate AllOk<T>(rs: seq<Result<seq<T>, PyError>>) {
    forall k :: 0 <= k < |rs| ==> rs[k].Ok?
  }

  /** Index of the first failed item, or `|rs|` when none failed: the item at which a Python
      loop over the list raises. */
  function FirstFailure<T>(rs: seq<Result<seq<T>, PyError>>): (k: nat)
    ensures k <= |rs|
    ensures forall j :: 0 <= j < k ==> rs[j].Ok?
    ensures k < |rs| ==> rs[k].Err?
    decreases |rs|
  {
    if |rs| == 0 || rs[0].Err? then 0 else 1 + FirstFailure(rs[1..])
  }

  /** The items' lists, one after another; the first failure stops the walk with its error. */
  function Chain<T>(rs: seq<Result<seq<T>, PyError>>): (r: Result<seq<T>, PyError>)
    ensures r.Ok? <==> AllOk(rs)
    ensures r.Err? ==> FirstFailure(rs) < |rs| && r.error == rs[FirstFailure(rs)].error
    decreases |rs|
  {
    if |rs| == 0 then Ok([])
    else if rs[0].Err? then Err(rs[0].error)
    else
      assert forall k :: 0 < k < |rs| ==> rs[k] == rs[1..][k - 1];
      var rest :- Chain(rs[1..]);
      Ok(rs[0].value + rest)
  }

  /** The running offsets of the items' lists, starting at `cur` (the loop of `token_offset`);
      the first failure stops the walk with its error. */
  function OffsetsFrom<T>(rs: seq<Result<seq<T>, PyError>>, cur: nat): (r: Result<seq<nat>, PyError>)
    ensures r.Ok? <==> AllOk(rs)
    ensures r.Err? ==> FirstFailure(rs) < |rs| && r.error == rs[FirstFailure(rs)].error
    ensures r.Ok? ==> |r.value| == |rs|
    decreases |rs|
  {
    if |rs| == 0 then Ok([])
    else if rs[0].Err? then Err(rs[0].error)
    else
      assert forall k :: 0 < k < |rs| ==> rs[k] == rs[1..][k - 1];
      var rest :- OffsetsFrom(rs[1..], cur + |rs[0].value|);
      Ok([cur] + rest)
  }

  lemma AllOkConcat<T>(a: seq<Result<seq<T>, PyError>>, b: seq<Result<seq<T>, PyError>>)
    ensures AllOk(a + b) <==> AllOk(a) && AllOk(b)
  {
    if AllOk(a) && AllOk(b) {
      forall k | 0 <= k < |a + b| ensures (a + b)[k].Ok? {
        if k >= |a| {
          assert (a + b)[k] == b[k - |a|];
        }
      }
    }
    if AllOk(a + b) {
      forall k | 0 <= k < |a| ensures a[k].Ok? {
        assert (a + b)[k] == a[k];
      }
      forall k | 0 <= k < |b| ensures b[k].Ok? {
        assert (a + b)[|a| + k] == b[k];
      }
    }
  }

  /** Chaining distributes over concatenation of the item lists. */
  lemma {:induction false} ChainConcat<T>(a: seq<Result<seq<T>, PyError>>, b: seq<Result<seq<T>, PyError>>)
    requires AllOk(a) && AllOk(b)
    ensures AllOk(a + b)
    ensures Chain(a + b).value == Chain(a).value + Chain(b).value
    decreases |a|
  {
    AllOkConcat(a, b);
    if |a| == 0 {
      assert a + b == b;
    } else {
      assert (a + b)[1..] == a[1..] + b;
      assert AllOk(a[1..]);
      ChainConcat(a[1..], b);
      assert (a + b)[0] == a[0];
    }
  }

  /** Offset `k` is the starting offset plus the length of everything chained before item `k`. */
  lemma {:induction false} OffsetIsPrefixLength<T>(rs: seq<Result<seq<T>, PyError>>, cur: nat, k: nat)
    requires AllOk(rs) && k < |rs|
    ensures OffsetsFrom(rs, cur).value[k] == cur + |Chain(rs[..k]).value|
    decreases k
  {
    var tail := rs[1..];
    assert AllOk(tail);
    assert rs[0].Ok?;
    assert OffsetsFrom(rs, cur).value == [cur] + OffsetsFrom(tail, cur + |rs[0].value|).value;
    if k == 0 {
      assert rs[..0] == [];
    } else {
      OffsetIsPrefixLength(tail, cur + |rs[0].value|, k - 1);
      assert rs[..k] == [rs[0]] + tail[..k - 1];
      ChainConcat([rs[0]], tail[..k - 1]);
      assert Chain([rs[0]]).value == rs[0].value + Chain([rs[0]][1..]).value;
      assert [rs[0]][1..] == [];
    }
  }

  /** The first offset is the starting offset, and each next offset adds the item's length. */
  lemma OffsetsStep<T>(rs: seq<Result<seq<T>, PyError>>, cur: nat, k: nat)
    requires AllOk(rs) && k + 1 < |rs|
    ensures OffsetsFrom(rs, cur).value[0] == cur
    ensures OffsetsFrom(rs, cur).value[k + 1] == OffsetsFrom(rs, cur).value[k] + |rs[k].value|
  {
    OffsetIsPrefixLength(rs, cur, 0);
    OffsetIsPrefixLength(rs, cur, k);
    OffsetIsPrefixLength(rs, cur, k + 1);
    assert rs[..0] == [];
    assert rs[..k + 1] == rs[..k] + [rs[k]];
    assert AllOk(rs[..k]) && AllOk([rs[k]]);
    ChainConcat(rs[..k], [rs[k]]);
    assert Chain([rs[k]]).value == rs[k].value + Chain([rs[k]][1..]).value;
    assert [rs[k]][1..] == [];
  }

  /** Offsets and chained list in step: element `j` of item `k` sits in the chained list at
      position `offs[k] + j`, and the chained list ends with the last item. */
  lemma LockstepAt<T>(rs: seq<Result<seq<T>, PyError>>, k: nat, j: nat)
    requires AllOk(rs)
    requires k < |rs| && j < |rs[k].value|
    ensures OffsetsFrom(rs, 0).value[k] + j < |Chain(rs).value|
    ensures Chain(rs).value[OffsetsFrom(rs, 0).value[k] + j] == rs[k].value[j]
    ensures k == |rs| - 1 ==> |Chain(rs).value| == OffsetsFrom(rs, 0).value[k] + |rs[k].value|
  {
    OffsetIsPrefixLength(rs, 0, k);
    var pre := rs[..k];
    var post := rs[k + 1..];
    assert rs == pre + ([rs[k]] + post);
    assert AllOk(pre) && AllOk(post);
    assert Chain([rs[k]]).value == rs[k].value + Chain([rs[k]][1..]).value;
    assert [rs[k]][1..] == [];
    ChainConcat([rs[k]], post);
    ChainConcat(pre, [rs[k]] + post);
    if k == |rs| - 1 {
      assert post == [];
    }
  }

  /** The chained list holds item `k` as the block that starts at item `k`'s offset. */
  lemma ChainSlice<T>(rs: seq<Result<seq<T>, PyError>>, k: nat)
    requires AllOk(rs) && k < |rs|
    ensures OffsetsFrom(rs, 0).value[k] + |rs[k].value| <= |Chain(rs).value|
    ensures Chain(rs).value[OffsetsFrom(rs, 0).value[k]..OffsetsFrom(rs, 0).value[k] + |rs[k].value|] == rs[k].value
  {
    OffsetIsPrefixLength(rs, 0, k);
    var pre := rs[..k];
    var post := rs[k + 1..];
    assert rs == pre + ([rs[k]] + post);
    assert AllOk(pre) && AllOk(post);
    assert Chain([rs[k]]).value == rs[k].value + Chain([rs[k]][1..]).value;
    assert [rs[k]][1..] == [];
    ChainConcat([rs[k]], post);
    ChainConcat(pre, [rs[k]] + post);
    var a := Chain(pre).value;
    var b := rs[k].value;
    var c := Chain(post).value;
    assert Chain(rs).value == a + (b + c);
    assert OffsetsFrom(rs, 0).value[k] == |a|;
    assert (a + (b + c))[|a|..|a| + |b|] == b;
  }

  /** An element is in the chained list exactly when it is in one of the items' lists. */
  lemma {:induction false} ChainMembers<T>(rs: seq<Result<seq<T>, PyError>>, x: T)
    requires AllOk(rs)
    ensures x in Chain(rs).value <==> exists p :: 0 <= p < |rs| && x in rs[p].value
    decreases |rs|
  {
    if |rs| > 0 {
      var tail := rs[1..];
      assert AllOk(tail);
      assert Chain(rs).value == rs[0].value + Chain(tail).value;
      ChainMembers(tail, x);
      if exists p :: 0 <= p < |rs| && x in rs[p].value {
        var p :| 0 <= p < |rs| && x in rs[p].value;
        if p > 0 {
          assert rs[p] == tail[p - 1];
        }
      }
      if exists q :: 0 <= q < |tail| && x in tail[q].value {
        var q :| 0 <= q < |tail| && x in tail[q].value;
        assert tail[q] == rs[q + 1];
      }
    }
  }

  // ---------------------------------------------------------------- token_offset and combine_tokens

  /** `token_offset(parts, spans)` (prepare_for_alignment.py:97-111). */
  function TokenOffset(cc: CharClass, parts: seq<seq<string>>, spans: seq<seq<string>>): Result<seq<nat>, PyError> {
    OffsetsFrom(Contributions(cc, parts, spans), 0)
  }

  /** The token list `combine_tokens` builds before joining (prepare_for_alignment.py:133-142). */
  function Flatten(cc: CharClass, parts: seq<seq<string>>, spans: seq<seq<string>>): Result<seq<string>, PyError> {
    Chain(Contributions(cc, parts, spans))
  }

  /** `combine_tokens(parts, spans)` (prepare_for_alignment.py:131-145): join with spaces,
      collapse whitespace runs, strip; it fails exactly where `token_offset` fails. */
  function CombineTokens(cc: CharClass, parts: seq<seq<string>>, spans: seq<seq<string>>): (r: Result<string, PyError>)
    ensures r.Ok? <==> TokenOffset(cc, parts, spans).Ok?
    ensures r.Err? ==> r.error == TokenOffset(cc, parts, spans).error
  {
    var toks :- Flatten(cc, parts, spans);
    Ok(Strip(cc, CollapseSpaces(cc, Join(toks, ' '))))
  }

  /** `token_offset` starts at 0 and each next offset adds the number of tokens the part stands
      for: its own tokens, the span's tokens for a placeholder part, none for an empty part. */
  lemma TokenOffsetStep(cc: CharClass, parts: seq<seq<string>>, spans: seq<seq<string>>, k: nat)
    requires TokenOffset(cc, parts, spans).Ok? && k + 1 < |parts|
    ensures TokenOffset(cc, parts, spans).value[0] == 0
    ensures Contribution(cc, parts[k], spans).Ok?
    ensures TokenOffset(cc, parts, spans).value[k + 1] == TokenOffset(cc, parts, spans).value[k] + |Contribution(cc, parts[k], spans).value|
  {
    var rs := Contributions(cc, parts, spans);
    ContributionsAt(cc, parts, spans, k);
    OffsetsStep(rs, 0, k);
  }

  /** `token_offset` succeeds exactly when the flattening does, with one offset per part. */
  lemma FlattenOk(cc: CharClass, parts: seq<seq<string>>, spans: seq<seq<string>>)
    ensures TokenOffset(cc, parts, spans).Ok? <==> Flatten(cc, parts, spans).Ok?
    ensures TokenOffset(cc, parts, spans).Ok? ==> |TokenOffset(cc, parts, spans).value| == |parts|
  {
    var rs := Contributions(cc, parts, spans);
    assert TokenOffset(cc, parts, spans) == OffsetsFrom(rs, 0);
    assert Flatten(cc, parts, spans) == Chain(rs);
  }

  /** `token_offset` and `combine_tokens` in step: token `j` of what part `k` stands for sits
      in the flattened stream at the part's offset plus `j`. */
  lemma Lockstep(cc: CharClass, parts: seq<seq<string>>, spans: seq<seq<string>>, k: nat, j: nat)
    requires TokenOffset(cc, parts, spans).Ok?
    requires k < |parts| && j < |Contributions(cc, parts, spans)[k].value|
    ensures Flatten(cc, parts, spans).Ok? && |TokenOffset(cc, parts, spans).value| == |parts|
    ensures TokenOffset(cc, parts, spans).value[k] + j < |Flatten(cc, parts, spans).value|
    ensures Flatten(cc, parts, spans).value[TokenOffset(cc, parts, spans).value[k] + j] == Contributions(cc, parts, spans)[k].value[j]
  {
    LockstepAt(Contributions(cc, parts, spans), k, j);
  }

  // ---------------------------------------------------------------- the rebuilt text

  lemma {:induction false} CollapseSolid(cc: CharClass, t: string, rest: string)
    requires forall i :: 0 <= i < |t| ==> !cc.isSpace(t[i])
    ensures CollapseSpaces(cc, t + rest) == t + CollapseSpaces(cc, rest)
  {
    if |t| > 0 {
      assert (t + rest)[1..] == t[1..] + rest;
      CollapseSolid(cc, t[1..], rest);
      assert [t[0]] + (t[1..] + CollapseSpaces(cc, rest)) == t + CollapseSpaces(cc, rest);
    } else {
      assert t + rest == rest;
    }
  }

  /** Joining solid tokens with single spaces leaves nothing for `\s+` to collapse. */
  lemma {:induction false} CollapseJoined(cc: CharClass, toks: seq<string>)
    requires cc.isSpace(' ')
    requires forall k :: 0 <= k < |toks| ==> Solid(cc, toks[k])
    ensures CollapseSpaces(cc, Join(toks, ' ')) == Join(toks, ' ')
    ensures |toks| > 0 ==> |Join(toks, ' ')| > 0 && !cc.isSpace(Join(toks, ' ')[0])
    ensures |toks| > 0 ==> !cc.isSpace(Join(toks, ' ')[|Join(toks, ' ')| - 1])
  {
    if |toks| == 1 {
      CollapseSolid(cc, toks[0], "");
      assert toks[0] + "" == toks[0];
    } else if |toks| > 1 {
      var t := toks[0];
      var rest := Join(toks[1..], ' ');
      CollapseJoined(cc, toks[1..]);
      assert Join(toks, ' ') == t + (" " + rest);
      CollapseSolid(cc, t, " " + rest);
      assert SpaceLen(cc, " " + rest) == 1 by {
        assert (" " + rest)[1..] == rest;
      }
      assert (" " + rest)[1..] == rest;
      assert CollapseSpaces(cc, " " + rest) == " " + rest;
      assert Join(toks, ' ')[0] == t[0];
      assert Join(toks, ' ')[|Join(toks, ' ')| - 1] == rest[|rest| - 1];
    }
  }

  /** The rebuilt line splits on `' '` into exactly the flattened tokens. */
  lemma RebuiltSplits(cc: CharClass, toks: seq<string>)
    requires cc.isSpace(' ') && |toks| > 0
    requires forall k :: 0 <= k < |toks| ==> Solid(cc, toks[k])
    ensures Split(Strip(cc, CollapseSpaces(cc, Join(toks, ' '))), ' ') == toks
  {
    CollapseJoined(cc, toks);
    StripNoop(cc, Join(toks, ' '));
    assert forall k :: 0 <= k < |toks| ==> ' ' !in toks[k];
    SplitJoin(toks, ' ');
  }

  /** Python's `split()` of the rebuilt line gives back exactly the flattened tokens. */
  lemma RebuiltWords(cc: CharClass, toks: seq<string>)
    requires cc.isSpace(' ')
    requires forall k :: 0 <= k < |toks| ==> Solid(cc, toks[k])
    ensures Words(cc, Strip(cc, CollapseSpaces(cc, Join(toks, ' ')))) == toks
  {
    CollapseJoined(cc, toks);
    StripNoop(cc, Join(toks, ' '));
    WordsJoin(cc, toks);
  }

  /** An empty token stream rebuilds to the empty line. */
  lemma RebuiltEmpty(cc: CharClass)
    ensures Strip(cc, CollapseSpaces(cc, Join([], ' '))) == ""
  {
  }

  // ---------------------------------------------------------------- alignment pairs

  /** `itertools.product(range(n), range(m))`, each pair shifted by `(a, b)`: row-major. */
  function Product(a: nat, n: nat, b: nat, m: nat): (r: seq<(nat, nat)>)
    ensures |r| == n * m
    decreases n
  {
    if n == 0 then []
    else
      var row := seq(m, j requires 0 <= j < m => (a, b + j));
      var rest := Product(a + 1, n - 1, b, m);
      assert |row + rest| == m + (n - 1) * m == n * m;
      row + rest
  }

  /** Pair number `i * m + j` of the product is `(a + i, b + j)`. */
  lemma {:induction false} ProductAt(a: nat, n: nat, b: nat, m: nat, i: nat, j: nat)
    requires i < n && j < m
    ensures i * m + j < n * m
    ensures Product(a, n, b, m)[i * m + j] == (a + i, b + j)
    decreases n
  {
    assert i * m + j < i * m + m == (i + 1) * m <= n * m;
    if i > 0 {
      ProductAt(a + 1, n - 1, b, m, i - 1, j);
      assert i * m + j == m + ((i - 1) * m + j);
    }
  }

  /** The product holds exactly the pairs of the rectangle `[a, a+n) × [b, b+m)`. */
  lemma {:induction false} ProductMembers(a: nat, n: nat, b: nat, m: nat, x: nat, y: nat)
    ensures (x, y) in Product(a, n, b, m) <==> a <= x < a + n && b <= y < b + m
    decreases n
  {
    if n > 0 {
      ProductMembers(a + 1, n - 1, b, m, x, y);
      var row := seq(m, j requires 0 <= j < m => (a, b + j));
      assert Product(a, n, b, m) == row + Product(a + 1, n - 1, b, m);
      if x == a && b <= y < b + m {
        assert row[y - b] == (x, y);
      }
    }
  }

  /** One side of a sample as `make_alignments` sees it: the part offsets, the tokenized
      parts and the tokenized spans. */
  datatype Side = Side(offs: seq<nat>, parts: seq<seq<string>>, spans: seq<seq<string>>)

  /** The look-ups of one side for part `i`, as lines 120-125 perform them. */
  predicate Resolves(cc: CharClass, i: nat, side: Side) {
    && i < |side.offs| && i < |side.parts| && |side.parts[i]| > 0
    && SpanTokens(cc, side.parts[i][0], side.spans).Ok?
  }

  /** The pairs of one matched part pair (prepare_for_alignment.py:120-128), with the
      `IndexError`s of its look-ups in the order Python evaluates them. */
  function AlignSpan(cc: CharClass, pair: (nat, nat), src: Side, trg: Side): (r: Result<seq<(nat, nat)>, PyError>)
    ensures r.Ok? <==> Resolves(cc, pair.0, src) && Resolves(cc, pair.1, trg)
    ensures r.Ok? ==>
      |r.value| == |SpanTokens(cc, src.parts[pair.0][0], src.spans).value| * |SpanTokens(cc, trg.parts[pair.1][0], trg.spans).value|
  {
    var (si, ti) := pair;
    if si >= |src.offs| || ti >= |trg.offs| then Err(IndexError("list index out of range"))
    else if si >= |src.parts| || |src.parts[si]| == 0 then Err(IndexError("list index out of range"))
    else if ti >= |trg.parts| || |trg.parts[ti]| == 0 then Err(IndexError("list index out of range"))
    else
      var s :- SpanTokens(cc, src.parts[si][0], src.spans);
      var t :- SpanTokens(cc, trg.parts[ti][0], trg.spans);
      Ok(Product(src.offs[si], |s|, trg.offs[ti], |t|))
  }

  /** The products of the matched part pairs, in order. */
  function PairProducts(cc: CharClass, aligned: seq<(nat, nat)>, src: Side, trg: Side): (r: seq<Result<seq<(nat, nat)>, PyError>>)
    ensures |r| == |aligned|
    ensures forall p :: 0 <= p < |aligned| ==> r[p] == AlignSpan(cc, aligned[p], src, trg)
  {
    seq(|aligned|, p requires 0 <= p < |aligned| => AlignSpan(cc, aligned[p], src, trg))
  }

  /** `make_alignments(...)` (prepare_for_alignment.py:113-129): the matched part pairs'
      products, one after another; the first failing look-up raises. */
  function MakeAlignments(cc: CharClass, aligned: seq<(nat, nat)>, src: Side, trg: Side): Result<seq<(nat, nat)>, PyError> {
    Chain(PairProducts(cc, aligned, src, trg))
  }

  /** A pair is emitted exactly when it lies in the product of some matched part pair, and
      the call fails exactly when some matched pair's look-ups fail. */
  lemma MakeAlignmentsMembers(cc: CharClass, aligned: seq<(nat, nat)>, src: Side, trg: Side, x: nat, y: nat)
    ensures MakeAlignments(cc, aligned, src, trg).Ok? <==>
      forall p :: 0 <= p < |aligned| ==> Resolves(cc, aligned[p].0, src) && Resolves(cc, aligned[p].1, trg)
    ensures MakeAlignments(cc, aligned, src, trg).Ok? ==>
      ((x, y) in MakeAlignments(cc, aligned, src, trg).value <==>
       exists p :: 0 <= p < |aligned| && (x, y) in AlignSpan(cc, aligned[p], src, trg).value)
  {
    var rs := PairProducts(cc, aligned, src, trg);
    if MakeAlignments(cc, aligned, src, trg).Ok? {
      ChainMembers(rs, (x, y));
    }
  }
}

=== FILE: cases.dfy ===
/**
 * Concrete samples for `replace_tokens` and `process_sample`: what the placeholder rewrite
 * does with nested, overlapping and empty spans, and the two ways a sample is rejected.
 */
module Cases {
  import opened Results
  import opened Text
  import opened Placeholders
  import opened Sample

  /** A span nested inside another splits it: the outer index is emitted again after the
      inner one, so the outer span gets two placeholders. */
  lemma NestedSpanSplitsOuter()
    ensures ReplacePieces("abc", [Range(0, 3), Range(1, 2)]) == [Marker(0), Marker(1), Marker(0)]
  {
    assert Mask(3, [Range(0, 3), Range(1, 2)]) == [0, 1, 0] by {
      assert Mask(3, [Range(0, 3)]) == [0, 0, 0] by {
        assert Mask(3, []) == [-1, -1, -1];
      }
    }
  }

  /** `last` survives unmasked characters: two runs of one index separated by an unmasked
      character give a single placeholder, and the second run's characters vanish. */
  lemma GapKeepsLast()
    ensures Rewrite("aba", [0, -1, 0], 0, -1) == [Marker(0), Char('b')]
  {
    assert Rewrite("aba", [0, -1, 0], 2, 0) == [];
  }

  /** An empty span paints nothing and so gets no placeholder. */
  lemma EmptySpanHasNoMarker()
    ensures MarkersOf("ab", [SpanPair(Range(0, 0), Range(0, 0))], true) == []
  {
    var rs := SideRanges([SpanPair(Range(0, 0), Range(0, 0))], true);
    assert rs == [Range(0, 0)];
    assert Mask(2, rs) == [-1, -1] by {
      assert Mask(2, []) == [-1, -1];
    }
  }

  /** A sample with an empty span is rejected by the final assertion. */
  lemma EmptySpanRejected()
    ensures ProcessSample(Ascii, "ab", "ab", [SpanPair(Range(0, 0), Range(0, 0))]) ==
      Err(AssertionError("Missing aligned tokens"))
  {
    AsciiValid();
    EmptySpanHasNoMarker();
    ProcessSampleFails(Ascii, "ab", "ab", [SpanPair(Range(0, 0), Range(0, 0))]);
  }

  /** A reversed span (`start > end`) slices to `""` and paints nothing, as in Python. */
  lemma ReversedSpanHasNoMarker()
    ensures ReplaceTokens("ab", [SpanPair(Range(2, 1), Range(2, 1))], true).1 == [""]
    ensures MarkersOf("ab", [SpanPair(Range(2, 1), Range(2, 1))], true) == []
  {
    var rs := SideRanges([SpanPair(Range(2, 1), Range(2, 1))], true);
    assert rs == [Range(2, 1)];
    assert Mask(2, rs) == [-1, -1] by {
      assert Mask(2, []) == [-1, -1];
    }
  }

  /** A sample with a reversed span raises nothing until the final assertion rejects it. */
  lemma ReversedSpanRejected()
    ensures ProcessSample(Ascii, "ab", "ab", [SpanPair(Range(2, 1), Range(2, 1))]) ==
      Err(AssertionError("Missing aligned tokens"))
  {
    AsciiValid();
    ReversedSpanHasNoMarker();
    ProcessSampleFails(Ascii, "ab", "ab", [SpanPair(Range(2, 1), Range(2, 1))]);
  }

  /** A later span covering an earlier one swallows it: only the later index is emitted. */
  lemma CoveredSpanHasNoMarker()
    ensures MarkersOf("ab", [SpanPair(Range(0, 1), Range(0, 1)), SpanPair(Range(0, 2), Range(0, 2))], true) == [1]
  {
    var rs := SideRanges([SpanPair(Range(0, 1), Range(0, 1)), SpanPair(Range(0, 2), Range(0, 2))], true);
    assert rs == [Range(0, 1), Range(0, 2)];
    assert Mask(2, rs) == [1, 1] by {
      assert rs[..1] == [Range(0, 1)];
      assert Mask(2, [Range(0, 1)]) == [0, -1] by {
        assert Mask(2, []) == [-1, -1];
      }
    }
    assert Rewrite("ab", [1, 1], 1, 1) == [];
  }

  /** The same pair of spans on both sides still fails: one placeholder for two spans. */
  lemma CoveredSpanRejected()
    ensures ProcessSample(Ascii, "ab", "ab", [SpanPair(Range(0, 1), Range(0, 1)), SpanPair(Range(0, 2), Range(0, 2))]) ==
      Err(AssertionError("Missing aligned tokens"))
  {
    var pairs := [SpanPair(Range(0, 1), Range(0, 1)), SpanPair(Range(0, 2), Range(0, 2))];
    AsciiValid();
    CoveredSpanHasNoMarker();
    assert SideRanges(pairs, false) == SideRanges(pairs, true);
    ProcessSampleFails(Ascii, "ab", "ab", pairs);
  }

  /** A span that is non-empty on the source side but empty on the target side gets a
      placeholder only on the source side. */
  lemma OneSidedSpanMarkers()
    ensures MarkersOf("ab", [SpanPair(Range(0, 1), Range(0, 0))], true) == [0]
    ensures MarkersOf("ab", [SpanPair(Range(0, 1), Range(0, 0))], false) == []
  {
    var pairs := [SpanPair(Range(0, 1), Range(0, 0))];
    assert SideRanges(pairs, true) == [Range(0, 1)];
    assert SideRanges(pairs, false) == [Range(0, 0)];
    assert Mask(2, [Range(0, 1)]) == [0, -1] by {
      assert Mask(2, []) == [-1, -1];
    }
    assert Mask(2, [Range(0, 0)]) == [-1, -1] by {
      assert Mask(2, []) == [-1, -1];
    }
  }

  /** Such a source placeholder has no partner, and `trg_parts.index` raises `ValueError`. */
  lemma OneSidedSpanRejected()
    ensures ProcessSample(Ascii, "ab", "ab", [SpanPair(Range(0, 1), Range(0, 0))]).Err?
    ensures ProcessSample(Ascii, "ab", "ab", [SpanPair(Range(0, 1), Range(0, 0))]).error.ValueError?
  {
    var pairs := [SpanPair(Range(0, 1), Range(0, 0))];
    AsciiValid();
    OneSidedSpanMarkers();
    assert 0 in MarkersOf("ab", pairs, true) && 0 !in MarkersOf("ab", pairs, false);
    ProcessSampleFails(Ascii, "ab", "ab", pairs);
  }
}

=== FILE: classification.dfy ===
/**
 * The keyword classifier that turns a free-text model answer into one of the topic labels
 * (classification_task.py:8-24).
 */
module Classification {
  import opened Text

  /** A dict as the list of its items in insertion order. */
  type CategoryMap = seq<(string, string)>

  /** classification_task.py:8 */
  const Categories: seq<string> :=
    ["science/technology", "travel", "politics", "sports", "health", "entertainment", "geography"]

  /** classification_task.py:9-18; `politic` and `sport` are prefixes so that plurals match. */
  const KeywordsMap: CategoryMap := [
    ("science", "science/technology"),
    ("technology", "science/technology"),
    ("travel", "travel"),
    ("politic", "politics"),
    ("sport", "sports"),
    ("health", "health"),
    ("entertainment", "entertainment"),
    ("geography", "geography")
  ]

  const Unknown: string := "unknown"

  /** Item `j` is the first item from `i` on whose keyword occurs in `lowered`. */
  predicate FirstMatch(lowered: string, m: CategoryMap, i: nat, j: nat) {
    i <= j < |m| && Contains(lowered, m[j].0) && forall l :: i <= l < j ==> !Contains(lowered, m[l].0)
  }

  /** The loop of lines 21-23 from item `i` on, over the lower-cased prediction. */
  function ExtractFrom(lowered: string, m: CategoryMap, i: nat): (r: string)
    requires i <= |m|
    ensures r == Unknown || exists j :: i <= j < |m| && r == m[j].1
    ensures (forall j :: i <= j < |m| ==> !Contains(lowered, m[j].0)) ==> r == Unknown
    ensures forall j: nat :: FirstMatch(lowered, m, i, j) ==> r == m[j].1
    decreases |m| - i
  {
    if i == |m| then Unknown
    else if Contains(lowered, m[i].0) then m[i].1
    else ExtractFrom(lowered, m, i + 1)
  }

  /** `extract_category(prediction, category_map)`: the category of the first keyword, in
      map order, that occurs in the lower-cased prediction, or `"unknown"`. */
  function ExtractCategory(cc: CharClass, prediction: string, m: CategoryMap): (r: string)
    ensures r == Unknown || exists j :: 0 <= j < |m| && r == m[j].1
    ensures (forall j :: 0 <= j < |m| ==> !Contains(Lower(cc, prediction), m[j].0)) ==> r == Unknown
    ensures forall j: nat :: FirstMatch(Lower(cc, prediction), m, 0, j) ==> r == m[j].1
  {
    ExtractFrom(Lower(cc, prediction), m, 0)
  }

  /** For a map none of whose categories is `"unknown"`, the result is `"unknown"` exactly
      when no keyword occurs in the lower-cased prediction. */
  lemma UnknownIffNoKeyword(cc: CharClass, prediction: string, m: CategoryMap)
    requires forall j :: 0 <= j < |m| ==> m[j].1 != Unknown
    ensures ExtractCategory(cc, prediction, m) == Unknown <==>
      forall j :: 0 <= j < |m| ==> !Contains(Lower(cc, prediction), m[j].0)
  {
    var low := Lower(cc, prediction);
    if exists j :: 0 <= j < |m| && Contains(low, m[j].0) {
      var j := FirstKeyword(low, m);
      assert ExtractCategory(cc, prediction, m) == m[j].1;
    }
  }

  /** The position of the first keyword that occurs in `lowered`. */
  lemma FirstKeyword(lowered: string, m: CategoryMap) returns (j: nat)
    requires exists j :: 0 <= j < |m| && Contains(lowered, m[j].0)
    ensures FirstMatch(lowered, m, 0, j)
  {
    var k :| 0 <= k < |m| && Contains(lowered, m[k].0);
    j := 0;
    while !Contains(lowered, m[j].0)
      invariant j <= k
      invariant forall l :: 0 <= l < j ==> !Contains(lowered, m[l].0)
      decreases k - j
    {
      j := j + 1;
    }
  }

  /** Classifying an already lower-cased prediction gives the same category. */
  lemma ExtractIgnoresCase(cc: CharClass, prediction: string, m: CategoryMap)
    requires Valid(cc)
    ensures ExtractCategory(cc, Lower(cc, prediction), m) == ExtractCategory(cc, prediction, m)
  {
    assert Lower(cc, Lower(cc, prediction)) == Lower(cc, prediction);
  }

  /** Every category of the shipped map is one of `CATEGORIES`, and none is `"unknown"`. */
  lemma KeywordsMapValues()
    ensures forall j :: 0 <= j < |KeywordsMap| ==> KeywordsMap[j].1 in Categories && KeywordsMap[j].1 != Unknown
  {
  }

  /** Whatever a map's categories are drawn from, so is every answer besides `"unknown"`. */
  lemma ResultsAmong(cc: CharClass, prediction: string, m: CategoryMap, cats: seq<string>)
    requires forall j :: 0 <= j < |m| ==> m[j].1 in cats
    ensures ExtractCategory(cc, prediction, m) == Unknown || ExtractCategory(cc, prediction, m) in cats
  {
  }

  /** With the shipped map, every answer is one of the categories or `"unknown"`. */
  lemma KeywordsGiveCategories(cc: CharClass, prediction: string)
    ensures ExtractCategory(cc, prediction, KeywordsMap) == Unknown ||
            ExtractCategory(cc, prediction, KeywordsMap) in Categories
  {
    KeywordsMapValues();
    ResultsAmong(cc, prediction, KeywordsMap, Categories);
  }

  // ---------------------------------------------------------------- concrete answers

  /** A keyword with a character the text lacks does not occur in it. */
  lemma MissingChar(s: string, k: string, c: char)
    requires c in k && c !in s
    ensures !Contains(s, k)
  {
    ContainsIff(s, k);
  }

  /** A keyword that starts a longer occurring word occurs too. */
  lemma PrefixContained(s: string, k: string, ext: string)
    requires Contains(s, k + ext)
    ensures Contains(s, k)
  {
    ContainsIff(s, k + ext);
    var i :| OccursAt(s, k + ext, i);
    assert s[i..i + |k|] == (k + ext)[..|k|];
    ContainsIff(s, k);
  }

  /** The first keyword in map order wins, wherever it occurs: "health and sport" is about
      sports, because `sport` comes before `health` in the map. */
  lemma HealthAndSport()
    ensures ExtractCategory(Ascii, "health and sport", KeywordsMap) == "sports"
  {
    var s := "health and sport";
    HealthAndSportLower();
    HealthAndSportMatch(s);
    assert FirstMatch(Lower(Ascii, s), KeywordsMap, 0, 4);
  }

  lemma HealthAndSportLower()
    ensures Lower(Ascii, "health and sport") == "health and sport"
  {
    var s := "health and sport";
    assert forall i :: 0 <= i < |s| ==> !IsLatin1Upper(s[i]);
  }

  /** Of the keywords before `health`, only `sport` occurs in "health and sport". */
  lemma HealthAndSportMatch(s: string)
    requires s == "health and sport"
    ensures FirstMatch(s, KeywordsMap, 0, 4)
  {
    EarlyKeywordsMissing(s);
    SportOccurs(s);
  }

  lemma EarlyKeywordsMissing(s: string)
    requires s == "health and sport"
    ensures forall l :: 0 <= l < 4 ==> !Contains(s, KeywordsMap[l].0)
  {
    forall l | 0 <= l < 4
      ensures !Contains(s, KeywordsMap[l].0)
    {
      if l == 0 {
        MissingChar(s, "science", 'c');
      } else if l == 1 {
        MissingChar(s, "technology", 'c');
      } else if l == 2 {
        MissingChar(s, "travel", 'v');
      } else {
        MissingChar(s, "politic", 'i');
      }
    }
  }

  lemma SportOccurs(s: string)
    requires s == "health and sport"
    ensures Contains(s, KeywordsMap[4].0)
  {
    assert OccursAt(s, "sport", 11);
    ContainsIff(s, "sport");
  }

  /** Plural answers are recognised: an answer mentioning "sports" or "politics" is never
      classified as unknown. */
  lemma PluralsMatch(cc: CharClass, prediction: string)
    requires Contains(Lower(cc, prediction), "sports") || Contains(Lower(cc, prediction), "politics")
    ensures ExtractCategory(cc, prediction, KeywordsMap) != Unknown
  {
    var low := Lower(cc, prediction);
    KeywordsMapValues();
    UnknownIffNoKeyword(cc, prediction, KeywordsMap);
    assert "sport" + "s" == "sports" && "politic" + "s" == "politics";
    if Contains(low, "sports") {
      PrefixContained(low, "sport", "s");
      assert Contains(low, KeywordsMap[4].0);
    } else {
      PrefixContained(low, "politic", "s");
      assert Contains(low, KeywordsMap[3].0);
    }
  }
}

=== FILE: cleaning.dfy ===
/**
 * `clean_file`'s record transformation (clean_raw_data.py:83-94) as a pure function on a
 * decoded JSON value: it drops the private fields, translates the survey answers to English,
 * grades the translation evaluation and reduces the reviewed file's path to its base name.
 * The label tables are a parameter; `Labels.Shipped` holds the ones the script defines.
 */
module Cleaning {
  import opened Results
  import opened Dicts
  import opened Labels

  /** A decoded JSON value; objects keep their keys in file order. */
  datatype Json =
    | JNull
    | JBool(b: bool)
    | JNum(n: int)
    | JStr(s: string)
    | JList(items: seq<Json>)
    | JObj(fields: Dict<string, Json>)

  /** Lists and objects are unhashable in Python, so they cannot be looked up in a dict. */
  predicate Unhashable(x: Json) {
    x.JList? || x.JObj?
  }

  /** `obj[k]` on a value known to be an object. */
  function Get(obj: Dict<string, Json>, k: string): (r: Result<Json, PyError>)
    ensures r.Ok? <==> HasKey(obj, k)
    ensures r.Ok? ==> Find(obj, k) == Some(r.value)
    ensures r.Err? ==> r.error == KeyError(k)
  {
    if HasKey(obj, k) then Ok(obj[Slot(obj, k)].1) else Err(KeyError(k))
  }

  /** Subscripting anything but an object with a string key raises `TypeError`. */
  function AsObject(x: Json): (r: Result<Dict<string, Json>, PyError>)
    ensures r.Ok? <==> x.JObj?
    ensures r.Ok? ==> x == JObj(r.value)
    ensures r.Err? ==> r.error.TypeError?
  {
    if x.JObj? then Ok(x.fields) else Err(TypeError("object is not subscriptable by a string"))
  }

  /** `del obj[k]` */
  function Delete(obj: Dict<string, Json>, k: string): (r: Result<Dict<string, Json>, PyError>)
    ensures r.Ok? <==> HasKey(obj, k)
    ensures r.Err? ==> r.error == KeyError(k)
    ensures r.Ok? && UniqueKeys(obj) ==> !HasKey(r.value, k) && UniqueKeys(r.value)
    ensures r.Ok? ==> forall j :: j != k ==> Find(r.value, j) == Find(obj, j)
  {
    if HasKey(obj, k) then
      RemoveOthers(obj, k);
      Ok(Remove(obj, k))
    else
      Err(KeyError(k))
  }

  // ------------------------------------------------------------------ lookups

  /** `m.get(x, x)`: a string that is a key of the table is replaced by its entry; any other
      hashable value comes back unchanged. */
  function Relabel(m: Dict<string, string>, x: Json): (r: Result<Json, PyError>)
    ensures r.Err? <==> Unhashable(x)
    ensures r.Err? ==> r.error.TypeError?
    ensures x.JStr? && HasKey(m, x.s) ==> r == Ok(JStr(Find(m, x.s).value))
    ensures !(x.JStr? && HasKey(m, x.s)) && !Unhashable(x) ==> r == Ok(x)
  {
    match x
    case JStr(s) => Ok(JStr(GetOr(m, s, s)))
    case JList(_) => Err(TypeError("unhashable type: 'list'"))
    case JObj(_) => Err(TypeError("unhashable type: 'dict'"))
    case _ => Ok(x)
  }

  /** The items `for item in x` visits: a list's elements, a string's characters, an
      object's keys; anything else is not iterable. */
  function Items(x: Json): (r: Result<seq<Json>, PyError>)
    ensures r.Ok? <==> x.JList? || x.JStr? || x.JObj?
    ensures r.Err? ==> r.error.TypeError?
    ensures x.JList? ==> r == Ok(x.items)
    ensures x.JStr? ==> |r.value| == |x.s| && forall i :: 0 <= i < |x.s| ==> r.value[i] == JStr([x.s[i]])
    ensures x.JObj? ==> |r.value| == |x.fields| && forall i :: 0 <= i < |x.fields| ==> r.value[i] == JStr(x.fields[i].0)
  {
    match x
    case JList(items) => Ok(items)
    case JStr(s) => Ok(seq(|s|, i requires 0 <= i < |s| => JStr([s[i]])))
    case JObj(fields) => Ok(seq(|fields|, i requires 0 <= i < |fields| => JStr(fields[i].0)))
    case _ => Err(TypeError("object is not iterable"))
  }

  /** `[m.get(item, item) for item in items]`: the first unhashable item raises. */
  function RelabelAll(m: Dict<string, string>, items: seq<Json>): (r: Result<seq<Json>, PyError>)
    ensures r.Ok? <==> forall i :: 0 <= i < |items| ==> !Unhashable(items[i])
    ensures r.Ok? ==> |r.value| == |items|
    ensures r.Ok? ==> forall i :: 0 <= i < |items| ==> Relabel(m, items[i]) == Ok(r.value[i])
    ensures r.Err? ==> r.error.TypeError?
  {
    if |items| == 0 then Ok([])
    else
      var y :- Relabel(m, items[0]);
      var ys :- RelabelAll(m, items[1..]);
      Ok([y] + ys)
  }

  /** `scores.get(x, -1)`: a graded answer gets its grade, anything else hashable gets -1. */
  function Score(scores: Dict<string, int>, x: Json): (r: Result<int, PyError>)
    ensures r.Ok? <==> !Unhashable(x)
    ensures r.Err? ==> r.error.TypeError?
    ensures x.JStr? && HasKey(scores, x.s) ==> r == Ok(Find(scores, x.s).value)
    ensures !(x.JStr? && HasKey(scores, x.s)) && !Unhashable(x) ==> r == Ok(-1)
  {
    match x
    case JStr(s) => Ok(GetOr(scores, s, -1))
    case JList(_) => Err(TypeError("unhashable type: 'list'"))
    case JObj(_) => Err(TypeError("unhashable type: 'dict'"))
    case _ => Ok(-1)
  }

  // -------------------------------------------------------------- assignments

  /** One assignment among clean_raw_data.py:85-93. */
  datatype Step =
    | RelabelStep(field: string, table: Dict<string, string>)
    | EachStep(field: string, table: Dict<string, string>)
    | ScoreStep(scores: Dict<string, int>)

  const ScoreField := "translation-evaluation-score"
  const EvaluationField := "translation-evaluation"

  /** The field a step reads. */
  function Source(s: Step): string {
    if s.ScoreStep? then EvaluationField else s.field
  }

  /** The field a step assigns. */
  function Target(s: Step): string {
    if s.ScoreStep? then ScoreField else s.field
  }

  /** The value a step assigns, from the value it reads. */
  function Compute(s: Step, x: Json): Result<Json, PyError> {
    match s
    case RelabelStep(_, m) => Relabel(m, x)
    case EachStep(_, m) =>
      var items :- Items(x);
      var ys :- RelabelAll(m, items);
      Ok(JList(ys))
    case ScoreStep(scores) =>
      var n :- Score(scores, x);
      Ok(JNum(n))
  }

  /** `rec[Target(s)] = Compute(s, rec[Source(s)])` */
  function Apply(rec: Dict<string, Json>, s: Step): (r: Result<Dict<string, Json>, PyError>)
    ensures !HasKey(rec, Source(s)) ==> r == Err(KeyError(Source(s)))
    ensures r.Ok? <==> HasKey(rec, Source(s)) && Compute(s, Find(rec, Source(s)).value).Ok?
    ensures r.Ok? ==> Find(r.value, Target(s)) == Some(Compute(s, Find(rec, Source(s)).value).value)
    ensures r.Ok? ==> forall j :: j != Target(s) ==> Find(r.value, j) == Find(rec, j)
    ensures r.Ok? && UniqueKeys(rec) ==> UniqueKeys(r.value)
  {
    var x :- Get(rec, Source(s));
    var y :- Compute(s, x);
    PutOthers(rec, Target(s), y);
    Ok(Put(rec, Target(s), y))
  }

  /** The fields a sequence of steps assigns. */
  function Targets(steps: seq<Step>): set<string> {
    set i | 0 <= i < |steps| :: Target(steps[i])
  }

  lemma TargetsCons(steps: seq<Step>)
    requires |steps| > 0
    ensures Targets(steps) == {Target(steps[0])} + Targets(steps[1..])
  {
    forall k | k in Targets(steps)
      ensures k in {Target(steps[0])} + Targets(steps[1..])
    {
      var i :| 0 <= i < |steps| && Target(steps[i]) == k;
      if i > 0 {
        assert Target(steps[1..][i - 1]) == k;
      }
    }
    forall k | k in Targets(steps[1..])
      ensures k in Targets(steps)
    {
      var i :| 0 <= i < |steps| - 1 && Target(steps[1..][i]) == k;
      assert Target(steps[i + 1]) == k;
    }
  }

  /** The steps in order; the first one that raises ends the run. */
  function Run(rec: Dict<string, Json>, steps: seq<Step>): (r: Result<Dict<string, Json>, PyError>)
    decreases |steps|
    ensures r.Ok? ==> forall k :: k !in Targets(steps) ==> Find(r.value, k) == Find(rec, k)
    ensures r.Ok? ==> forall k :: k in Targets(steps) ==> HasKey(r.value, k)
    ensures r.Ok? && UniqueKeys(rec) ==> UniqueKeys(r.value)
  {
    if |steps| == 0 then Ok(rec)
    else
      var r1 :- Apply(rec, steps[0]);
      var r2 :- Run(r1, steps[1..]);
      TargetsCons(steps);
      Ok(r2)
  }

  /** Step `i` is the only one assigning its field, and no earlier step assigns the field it
      reads. */
  predicate Independent(steps: seq<Step>, i: nat)
    requires i < |steps|
  {
    && (forall j :: 0 <= j < |steps| && j != i ==> Target(steps[j]) != Target(steps[i]))
    && (forall j :: 0 <= j < i ==> Target(steps[j]) != Source(steps[i]))
  }

  /** After a run, an independent step's field holds what that step computes from the
      original record. */
  lemma {:induction false} RunField(rec: Dict<string, Json>, steps: seq<Step>, i: nat)
    requires i < |steps| && Independent(steps, i)
    requires Run(rec, steps).Ok?
    decreases |steps|
    ensures HasKey(rec, Source(steps[i]))
    ensures Compute(steps[i], Find(rec, Source(steps[i])).value).Ok?
    ensures Find(Run(rec, steps).value, Target(steps[i])) == Some(Compute(steps[i], Find(rec, Source(steps[i])).value).value)
  {
    RunCons(rec, steps);
    var r1 := Apply(rec, steps[0]).value;
    var rest := steps[1..];
    if i == 0 {
      HeadTargetFresh(steps);
      var t := Target(steps[0]);
      assert Find(Run(r1, rest).value, t) == Find(r1, t);
    } else {
      IndependentTail(steps, i);
      RunField(r1, rest, i - 1);
      assert rest[i - 1] == steps[i];
      var src := Source(steps[i]);
      assert Find(r1, src) == Find(rec, src);
    }
  }

  /** A successful run is its first step followed by the run of the rest. */
  lemma RunCons(rec: Dict<string, Json>, steps: seq<Step>)
    requires |steps| > 0 && Run(rec, steps).Ok?
    ensures Apply(rec, steps[0]).Ok?
    ensures Run(Apply(rec, steps[0]).value, steps[1..]) == Run(rec, steps)
  {
  }

  /** An independent first step's field is assigned by no later step. */
  lemma HeadTargetFresh(steps: seq<Step>)
    requires |steps| > 0 && Independent(steps, 0)
    ensures Target(steps[0]) !in Targets(steps[1..])
  {
    var rest := steps[1..];
    forall j | 0 <= j < |rest|
      ensures Target(rest[j]) != Target(steps[0])
    {
      assert rest[j] == steps[j + 1];
    }
  }

  /** Dropping the first step keeps a later step independent, and the first step does not
      assign the field that later step reads. */
  lemma IndependentTail(steps: seq<Step>, i: nat)
    requires 0 < i < |steps| && Independent(steps, i)
    ensures Independent(steps[1..], i - 1)
    ensures Target(steps[0]) != Source(steps[i])
  {
    var rest := steps[1..];
    forall j | 0 <= j < |rest| && j != i - 1
      ensures Target(rest[j]) != Target(rest[i - 1])
    {
      assert rest[j] == steps[j + 1];
    }
    forall j | 0 <= j < i - 1
      ensures Target(rest[j]) != Source(rest[i - 1])
    {
      assert rest[j] == steps[j + 1];
    }
  }

  /** The fields clean_raw_data.py:85-93 assign, in order. */
  const Fields: seq<string> := [
    "daily-language", "proficiency", "grammar", "use", "language-source",
    "other-language-source", "age-group", ScoreField, EvaluationField
  ]

  lemma FieldsDistinct()
    ensures forall a, b :: 0 <= a < b < |Fields| ==> Fields[a] != Fields[b]
  {
  }

  /** clean_raw_data.py:85-93, in the source's order. */
  function StepsOf(t: Tables): (r: seq<Step>)
    ensures |r| == |Fields|
    ensures forall k :: 0 <= k < |r| ==> Target(r[k]) == Fields[k]
  {
    [
      RelabelStep(Fields[0], t.lang),
      RelabelStep(Fields[1], t.proficiency),
      RelabelStep(Fields[2], t.agreement),
      RelabelStep(Fields[3], t.agreement),
      EachStep(Fields[4], t.languageSource),
      RelabelStep(Fields[5], t.languageSource),
      RelabelStep(Fields[6], t.age),
      ScoreStep(t.scores),
      RelabelStep(Fields[8], t.evaluation)
    ]
  }

  /** The fields of `data["data"]` the transformation touches. */
  function DataFields(): set<string> {
    {"feedback"} + set k | 0 <= k < |Fields| :: Fields[k]
  }

  lemma StepTargets(t: Tables)
    ensures Targets(StepsOf(t)) == DataFields() - {"feedback"}
    ensures "feedback" !in Targets(StepsOf(t))
  {
    assert "feedback" !in Fields;
  }

  /** Every step of the script is independent: each field is assigned once, and the score
      reads the Italian evaluation before line 93 overwrites it. */
  lemma StepsIndependent(t: Tables, i: nat)
    requires i < |Fields|
    ensures i < |StepsOf(t)| && Independent(StepsOf(t), i)
  {
    FieldsDistinct();
    assert Source(StepsOf(t)[i]) == Fields[if i == 7 then 8 else i];
  }

  // ------------------------------------------------------------------- record

  /** clean_raw_data.py:84-93 applied to the object `data["data"]`. */
  function CleanData(t: Tables, rec: Dict<string, Json>): (r: Result<Dict<string, Json>, PyError>)
    ensures !HasKey(rec, "feedback") ==> r == Err(KeyError("feedback"))
    ensures r.Ok? ==> forall k :: k !in DataFields() ==> Find(r.value, k) == Find(rec, k)
    ensures r.Ok? ==> forall k :: k in DataFields() - {"feedback"} ==> HasKey(r.value, k)
    ensures r.Ok? && UniqueKeys(rec) ==> UniqueKeys(r.value) && !HasKey(r.value, "feedback")
  {
    var r0 :- Delete(rec, "feedback");
    var r1 :- Run(r0, StepsOf(t));
    StepTargets(t);
    Ok(r1)
  }

  /** `os.path.basename`: what follows the last `/`. */
  function Basename(p: string): (r: string)
    ensures |r| <= |p| && r == p[|p| - |r|..]
    ensures '/' !in r
    ensures |r| < |p| ==> p[|p| - |r| - 1] == '/'
  {
    if |p| == 0 || p[|p| - 1] == '/' then ""
    else Basename(p[..|p| - 1]) + [p[|p| - 1]]
  }

  /** `review["selected_path"] = os.path.basename(review["selected_path"])` (clean_raw_data.py:94). */
  function CleanReview(review: Json): (r: Result<Json, PyError>)
    ensures r.Ok? ==> review.JObj? && r.value.JObj?
    ensures r.Ok? ==> HasKey(review.fields, "selected_path") && Find(review.fields, "selected_path").value.JStr?
    ensures r.Ok? ==> Find(r.value.fields, "selected_path") == Some(JStr(Basename(Find(review.fields, "selected_path").value.s)))
    ensures r.Ok? ==> forall j :: j != "selected_path" ==> Find(r.value.fields, j) == Find(review.fields, j)
  {
    var fields :- AsObject(review);
    var x :- Get(fields, "selected_path");
    if x.JStr? then
      PutOthers(fields, "selected_path", JStr(Basename(x.s)));
      Ok(JObj(Put(fields, "selected_path", JStr(Basename(x.s)))))
    else
      Err(TypeError("expected str, bytes or os.PathLike object"))
  }

  /** clean_raw_data.py:83-93 on the decoded object: `group` goes and `data` is cleaned. */
  function CleanTop(t: Tables, top: Dict<string, Json>): (r: Result<Dict<string, Json>, PyError>)
    ensures !HasKey(top, "group") ==> r == Err(KeyError("group"))
    ensures r.Ok? && UniqueKeys(top) ==> UniqueKeys(r.value) && !HasKey(r.value, "group")
    ensures r.Ok? ==> forall k :: k != "group" && k != "data" ==> Find(r.value, k) == Find(top, k)
  {
    var top1 :- Delete(top, "group");
    var inner :- Get(top1, "data");
    var rec :- AsObject(inner);
    var rec1 :- CleanData(t, rec);
    PutOthers(top1, "data", JObj(rec1));
    Ok(Put(top1, "data", JObj(rec1)))
  }

  /** After `CleanTop`, `data` holds the cleaned version of the original `data` object. */
  lemma CleanTopData(t: Tables, top: Dict<string, Json>)
    requires CleanTop(t, top).Ok?
    ensures HasKey(top, "data") && Find(top, "data").value.JObj?
    ensures CleanData(t, Find(top, "data").value.fields).Ok?
    ensures Find(CleanTop(t, top).value, "data") == Some(JObj(CleanData(t, Find(top, "data").value.fields).value))
  {
    var top1 := Delete(top, "group").value;
    assert Find(top1, "data") == Find(top, "data");
  }

  /** The whole of clean_raw_data.py:83-94 on a decoded file. */
  function CleanRecord(t: Tables, data: Json): (r: Result<Json, PyError>)
    ensures r.Ok? ==> data.JObj? && r.value.JObj?
    ensures data.JObj? && !HasKey(data.fields, "group") ==> r == Err(KeyError("group"))
    ensures r.Ok? && UniqueKeys(data.fields) ==> !HasKey(r.value.fields, "group")
    ensures r.Ok? ==> forall k :: k != "group" && k != "data" && k != "review_data" ==> Find(r.value.fields, k) == Find(data.fields, k)
  {
    var top :- AsObject(data);
    var top1 :- CleanTop(t, top);
    var review :- Get(top1, "review_data");
    var review1 :- CleanReview(review);
    PutOthers(top1, "review_data", review1);
    Ok(JObj(Put(top1, "review_data", review1)))
  }

  // ---------------------------------------------------------------- properties

  /** `RunField` for a run that starts after a deletion the step does not depend on. */
  lemma RunFieldAfterDelete(rec: Dict<string, Json>, steps: seq<Step>, i: nat, gone: string)
    requires i < |steps| && Independent(steps, i) && Source(steps[i]) != gone
    requires Delete(rec, gone).Ok? && Run(Delete(rec, gone).value, steps).Ok?
    ensures HasKey(rec, Source(steps[i]))
    ensures Compute(steps[i], Find(rec, Source(steps[i])).value).Ok?
    ensures Find(Run(Delete(rec, gone).value, steps).value, Target(steps[i])) == Some(Compute(steps[i], Find(rec, Source(steps[i])).value).value)
  {
    RunField(Delete(rec, gone).value, steps, i);
  }

  lemma CleanDataRuns(t: Tables, rec: Dict<string, Json>)
    requires CleanData(t, rec).Ok?
    ensures Delete(rec, "feedback").Ok? && Run(Delete(rec, "feedback").value, StepsOf(t)).Ok?
    ensures CleanData(t, rec).value == Run(Delete(rec, "feedback").value, StepsOf(t)).value
  {
  }

  /** No assignment reads `feedback`, which is already gone. */
  lemma SourceNotFeedback(t: Tables, i: nat)
    requires i < |Fields|
    ensures Source(StepsOf(t)[i]) != "feedback"
  {
    assert Source(StepsOf(t)[i]) == Fields[if i == 7 then 8 else i];
    assert "feedback" !in Fields;
  }

  /** Each answer field of the cleaned `data` object holds what its assignment computes from
      the original object: the translations and the score all read the answers as submitted. */
  lemma CleanDataField(t: Tables, rec: Dict<string, Json>, i: nat)
    requires i < |Fields| && CleanData(t, rec).Ok?
    ensures HasKey(rec, Source(StepsOf(t)[i]))
    ensures Compute(StepsOf(t)[i], Find(rec, Source(StepsOf(t)[i])).value).Ok?
    ensures Find(CleanData(t, rec).value, Fields[i]) == Some(Compute(StepsOf(t)[i], Find(rec, Source(StepsOf(t)[i])).value).value)
  {
    StepsIndependent(t, i);
    SourceNotFeedback(t, i);
    CleanDataRuns(t, rec);
    RunFieldAfterDelete(rec, StepsOf(t), i, "feedback");
  }

  /** What a list-translating step assigns for a list. */
  lemma ComputeEach(f: string, m: Dict<string, string>, xs: seq<Json>)
    requires Compute(EachStep(f, m), JList(xs)).Ok?
    ensures RelabelAll(m, xs).Ok?
    ensures Compute(EachStep(f, m), JList(xs)).value == JList(RelabelAll(m, xs).value)
  {
  }

  /** `language-source` is translated item by item: same length, same order (clean_raw_data.py:89). */
  lemma LanguageSourceMapped(t: Tables, rec: Dict<string, Json>, xs: seq<Json>)
    requires CleanData(t, rec).Ok?
    requires Find(rec, "language-source") == Some(JList(xs))
    ensures Find(CleanData(t, rec).value, "language-source").Some?
    ensures Find(CleanData(t, rec).value, "language-source").value.JList?
    ensures |Find(CleanData(t, rec).value, "language-source").value.items| == |xs|
    ensures forall k :: 0 <= k < |xs| ==>
      Relabel(t.languageSource, xs[k]) == Ok(Find(CleanData(t, rec).value, "language-source").value.items[k])
  {
    CleanDataField(t, rec, 4);
    assert StepsOf(t)[4] == EachStep("language-source", t.languageSource);
    ComputeEach("language-source", t.languageSource, xs);
  }

  /** The score is graded from the Italian answer as submitted, and the answer itself is then
      translated (clean_raw_data.py:92-93). */
  lemma ScoreFromOriginal(t: Tables, rec: Dict<string, Json>)
    requires CleanData(t, rec).Ok?
    ensures HasKey(rec, EvaluationField) && !Unhashable(Find(rec, EvaluationField).value)
    ensures Find(CleanData(t, rec).value, ScoreField) == Some(JNum(Score(t.scores, Find(rec, EvaluationField).value).value))
    ensures Find(CleanData(t, rec).value, EvaluationField) == Some(Relabel(t.evaluation, Find(rec, EvaluationField).value).value)
  {
    CleanDataField(t, rec, 7);
    CleanDataField(t, rec, 8);
  }

  /** With the shipped table every score lies in [-1, 4] (clean_raw_data.py:68-75, 92). */
  lemma ShippedScoreInRange(x: Json)
    requires Score(Shipped.scores, x).Ok?
    ensures -1 <= Score(Shipped.scores, x).value <= 4
  {
    ScoresInRange();
    if x.JStr? && HasKey(EvaluationToScore, x.s) {
      assert Score(Shipped.scores, x).value == EvaluationToScore[Slot(EvaluationToScore, x.s)].1;
    }
  }

  /** In a cleaned file made with the shipped tables, `data` carries a score in [-1, 4]. */
  lemma ShippedRecordScore(data: Json)
    requires CleanRecord(Shipped, data).Ok?
    ensures HasKey(CleanRecord(Shipped, data).value.fields, "data")
    ensures Find(CleanRecord(Shipped, data).value.fields, "data").value.JObj?
    ensures Find(Find(CleanRecord(Shipped, data).value.fields, "data").value.fields, ScoreField).Some?
    ensures Find(Find(CleanRecord(Shipped, data).value.fields, "data").value.fields, ScoreField).value.JNum?
    ensures -1 <= Find(Find(CleanRecord(Shipped, data).value.fields, "data").value.fields, ScoreField).value.n <= 4
  {
    var top := data.fields;
    var top1 := CleanTop(Shipped, top).value;
    CleanTopData(Shipped, top);
    var review1 := CleanReview(Find(top1, "review_data").value).value;
    PutOther(top1, "review_data", review1, "data");
    var rec := Find(top, "data").value.fields;
    ScoreFromOriginal(Shipped, rec);
    ShippedScoreInRange(Find(rec, EvaluationField).value);
  }

  /** In a cleaned file, `review_data.selected_path` is the base name of the path the raw
      file held there: the original `review_data` was an object whose `selected_path` was a
      string, and the cleaned one holds its part after the last `/`, which has no `/`. */
  lemma SelectedPathIsBasename(t: Tables, data: Json)
    requires CleanRecord(t, data).Ok?
    ensures HasKey(data.fields, "review_data") && Find(data.fields, "review_data").value.JObj?
    ensures Find(Find(data.fields, "review_data").value.fields, "selected_path").Some?
    ensures Find(Find(data.fields, "review_data").value.fields, "selected_path").value.JStr?
    ensures HasKey(CleanRecord(t, data).value.fields, "review_data")
    ensures Find(CleanRecord(t, data).value.fields, "review_data").value.JObj?
    ensures Find(Find(CleanRecord(t, data).value.fields, "review_data").value.fields, "selected_path") ==
      Some(JStr(Basename(Find(Find(data.fields, "review_data").value.fields, "selected_path").value.s)))
    ensures '/' !in Find(Find(CleanRecord(t, data).value.fields, "review_data").value.fields, "selected_path").value.s
  {
    var top1 := CleanTop(t, data.fields).value;
    assert Find(top1, "review_data") == Find(data.fields, "review_data");
  }

  /** A file without `data.feedback` is rejected with `KeyError` (clean_raw_data.py:84). */
  lemma MissingFeedbackRejected(t: Tables, data: Json, rec: Dict<string, Json>)
    requires data.JObj? && HasKey(data.fields, "group")
    requires Find(data.fields, "data") == Some(JObj(rec)) && !HasKey(rec, "feedback")
    ensures CleanRecord(t, data) == Err(KeyError("feedback"))
  {
    var top1 := Delete(data.fields, "group").value;
    assert Find(top1, "data") == Find(data.fields, "data");
  }
}

=== FILE: dicts.dfy ===
/**
 * Python dicts as association lists in insertion order, with the three operations the
 * cleaning script uses: lookup with a fallback (`d.get(k, x)`), assignment (`d[k] = v`,
 * which keeps an existing key in its place) and inversion (`{v: k for k, v in d.items()}`).
 */
module Dicts {
  import opened Results

  type Dict<K, V> = seq<(K, V)>

  /** No key occurs twice, as in every Python dict. */
  predicate UniqueKeys<K(==), V>(d: Dict<K, V>) {
    forall i, j :: 0 <= i < j < |d| ==> d[i].0 != d[j].0
  }

  /** No value occurs twice. */
  predicate Injective<K, V(==)>(d: Dict<K, V>) {
    forall i, j :: 0 <= i < j < |d| ==> d[i].1 != d[j].1
  }

  /** The position of key `k`, or `|d|` when it is absent. */
  function Slot<K(==), V>(d: Dict<K, V>, k: K): (i: nat)
    ensures i <= |d|
    ensures i < |d| ==> d[i].0 == k
    ensures forall j :: 0 <= j < i ==> d[j].0 != k
  {
    if |d| == 0 then 0
    else if d[0].0 == k then 0
    else 1 + Slot(d[1..], k)
  }

  /** `Slot` is the first position holding `k`. */
  lemma {:induction false} SlotIs<K, V>(d: Dict<K, V>, k: K, i: nat)
    requires i == |d| || (i < |d| && d[i].0 == k)
    requires forall j :: 0 <= j < i ==> d[j].0 != k
    ensures Slot(d, k) == i
  {
    if |d| > 0 && i > 0 {
      SlotIs(d[1..], k, i - 1);
    }
  }

  /** `k in d` */
  predicate HasKey<K(==), V>(d: Dict<K, V>, k: K) {
    Slot(d, k) < |d|
  }

  /** `d[k]` when present. */
  function Find<K(==), V>(d: Dict<K, V>, k: K): Option<V> {
    if HasKey(d, k) then Some(d[Slot(d, k)].1) else None
  }

  /** In a dict without repeated keys, the entry at position `i` is what `d[key]` finds. */
  lemma FindAt<K, V>(d: Dict<K, V>, i: nat)
    requires UniqueKeys(d) && i < |d|
    ensures Slot(d, d[i].0) == i
    ensures Find(d, d[i].0) == Some(d[i].1)
  {
  }

  /** `d.get(k, fallback)` */
  function GetOr<K(==), V>(d: Dict<K, V>, k: K, fallback: V): (r: V)
    ensures !HasKey(d, k) ==> r == fallback
    ensures HasKey(d, k) ==> Find(d, k) == Some(r)
  {
    match Find(d, k)
    case Some(v) => v
    case None => fallback
  }

  /** `d[k] = v`: an existing key keeps its place and takes the new value; a new key is
      appended. */
  function Put<K(==), V>(d: Dict<K, V>, k: K, v: V): (r: Dict<K, V>)
    ensures |r| == if HasKey(d, k) then |d| else |d| + 1
    ensures forall i :: 0 <= i < |d| ==> r[i].0 == d[i].0
    ensures forall i :: 0 <= i < |d| && d[i].0 != k ==> r[i] == d[i]
    ensures UniqueKeys(d) ==> UniqueKeys(r)
    ensures Find(r, k) == Some(v)
  {
    var i := Slot(d, k);
    if i < |d| then
      SlotIs(d[i := (k, v)], k, i);
      d[i := (k, v)]
    else
      SlotIs(d + [(k, v)], k, i);
      d + [(k, v)]
  }

  /** `d[k] = v` leaves the other keys' values alone. */
  lemma PutOther<K, V>(d: Dict<K, V>, k: K, v: V, j: K)
    requires j != k
    ensures Find(Put(d, k, v), j) == Find(d, j)
  {
    var r := Put(d, k, v);
    var a := Slot(d, j);
    assert forall l :: 0 <= l < a ==> r[l].0 != j;
    if a < |d| {
      SlotIs(r, j, a);
    } else {
      SlotIs(r, j, |r|);
    }
  }

  /** `d[k] = v` leaves every other key's value alone. */
  lemma PutOthers<K, V>(d: Dict<K, V>, k: K, v: V)
    ensures forall j :: j != k ==> Find(Put(d, k, v), j) == Find(d, j)
  {
    forall j | j != k
      ensures Find(Put(d, k, v), j) == Find(d, j)
    {
      PutOther(d, k, v, j);
    }
  }

  /** `del d[k]` when `k in d`; the other items keep their order. */
  function Remove<K(==), V>(d: Dict<K, V>, k: K): (r: Dict<K, V>)
    requires HasKey(d, k)
    ensures |r| == |d| - 1
    ensures UniqueKeys(d) ==> !HasKey(r, k) && UniqueKeys(r)
  {
    var i := Slot(d, k);
    assert forall l :: 0 <= l < |d| - 1 ==> (d[..i] + d[i + 1..])[l] == if l < i then d[l] else d[l + 1];
    d[..i] + d[i + 1..]
  }

  /** Deleting `k` leaves every other key's value alone. */
  lemma RemoveOther<K, V>(d: Dict<K, V>, k: K, j: K)
    requires HasKey(d, k) && j != k
    ensures Find(Remove(d, k), j) == Find(d, j)
  {
    var i := Slot(d, k);
    var r := Remove(d, k);
    assert forall l :: 0 <= l < |r| ==> r[l] == if l < i then d[l] else d[l + 1];
    var a := Slot(d, j);
    if a < i {
      SlotIs(r, j, a);
    } else if a < |d| {
      SlotIs(r, j, a - 1);
    } else {
      SlotIs(r, j, |r|);
    }
  }

  lemma RemoveOthers<K, V>(d: Dict<K, V>, k: K)
    requires HasKey(d, k)
    ensures forall j :: j != k ==> Find(Remove(d, k), j) == Find(d, j)
  {
    forall j | j != k
      ensures Find(Remove(d, k), j) == Find(d, j)
    {
      RemoveOther(d, k, j);
    }
  }

  // ---------------------------------------------------------------- inversion

  function KeySet<K, V>(d: Dict<K, V>): set<K> {
    set i | 0 <= i < |d| :: d[i].0
  }

  function ValueSet<K, V>(d: Dict<K, V>): set<V> {
    set i | 0 <= i < |d| :: d[i].1
  }

  /** Each item with key and value exchanged. */
  function Swap<K, V>(d: Dict<K, V>): (r: Dict<V, K>)
    ensures |r| == |d|
    ensures forall i :: 0 <= i < |d| ==> r[i] == (d[i].1, d[i].0)
  {
    seq(|d|, i requires 0 <= i < |d| => (d[i].1, d[i].0))
  }

  /** `inv_map(d)` (clean_raw_data.py:77-78): the items are inserted in order, so a value
      shared by several keys ends up mapped to the last of them, at the position where it
      first appeared. */
  function InvMap<K, V(==)>(d: Dict<K, V>): (r: Dict<V, K>)
    ensures UniqueKeys(r)
    ensures |r| <= |d|
  {
    if |d| == 0 then []
    else Put(InvMap(d[..|d| - 1]), d[|d| - 1].1, d[|d| - 1].0)
  }

  /** Putting a key adds it to the key set and nothing else. */
  lemma PutKeys<K, V>(d: Dict<K, V>, k: K, v: V)
    ensures KeySet(Put(d, k, v)) == KeySet(d) + {k}
  {
    var r := Put(d, k, v);
    forall x | x in KeySet(r)
      ensures x in KeySet(d) + {k}
    {
      var i :| 0 <= i < |r| && r[i].0 == x;
      if i < |d| {
        assert d[i].0 == x;
      }
    }
    forall x | x in KeySet(d) + {k}
      ensures x in KeySet(r)
    {
      if x == k {
        assert r[Slot(r, k)].0 == k;
      } else {
        var i :| 0 <= i < |d| && d[i].0 == x;
        assert r[i].0 == x;
      }
    }
  }

  lemma ValueSetSnoc<K, V>(d: Dict<K, V>)
    requires |d| > 0
    ensures ValueSet(d) == ValueSet(d[..|d| - 1]) + {d[|d| - 1].1}
  {
    var p := d[..|d| - 1];
    forall x | x in ValueSet(d)
      ensures x in ValueSet(p) + {d[|d| - 1].1}
    {
      var i :| 0 <= i < |d| && d[i].1 == x;
      if i < |p| {
        assert p[i].1 == x;
      }
    }
    forall x | x in ValueSet(p)
      ensures x in ValueSet(d)
    {
      var i :| 0 <= i < |p| && p[i].1 == x;
      assert d[i].1 == x;
    }
  }

  /** The keys of the inverse are exactly the values of the dict. */
  lemma {:induction false} InvMapKeys<K, V>(d: Dict<K, V>)
    ensures KeySet(InvMap(d)) == ValueSet(d)
  {
    if |d| > 0 {
      var p := d[..|d| - 1];
      InvMapKeys(p);
      PutKeys(InvMap(p), d[|d| - 1].1, d[|d| - 1].0);
      ValueSetSnoc(d);
    }
  }

  /** The later key wins: a value maps back to the last key that holds it. */
  lemma {:induction false} InvMapLastWins<K, V>(d: Dict<K, V>, i: nat)
    requires i < |d|
    requires forall j :: i < j < |d| ==> d[j].1 != d[i].1
    ensures Find(InvMap(d), d[i].1) == Some(d[i].0)
  {
    var n := |d| - 1;
    if i == n {
    } else {
      var p := d[..n];
      InvMapLastWins(p, i);
      PutOther(InvMap(p), d[n].1, d[n].0, d[i].1);
    }
  }

  /** Without shared values, inverting just exchanges keys and values item by item. */
  lemma {:induction false} InvMapInjective<K, V>(d: Dict<K, V>)
    requires Injective(d)
    ensures InvMap(d) == Swap(d)
  {
    if |d| > 0 {
      var n := |d| - 1;
      var p := d[..n];
      InvMapInjective(p);
      assert forall j :: 0 <= j < n ==> Swap(p)[j].0 != d[n].1;
      SlotIs(Swap(p), d[n].1, n);
      assert Swap(p) + [(d[n].1, d[n].0)] == Swap(d);
    }
  }

  /** A dict whose values are distinct is recovered by inverting it twice. */
  lemma InvMapTwice<K, V>(d: Dict<K, V>)
    requires UniqueKeys(d) && Injective(d)
    ensures InvMap(InvMap(d)) == d
  {
    InvMapInjective(d);
    assert Injective(Swap(d));
    InvMapInjective(Swap(d));
    assert Swap(Swap(d)) == d;
  }

  /** Without shared values, `inv_map(d)[d[k]] == k` for every key `k`. */
  lemma InvMapFindsKey<K, V>(d: Dict<K, V>, i: nat)
    requires Injective(d) && i < |d|
    ensures Find(InvMap(d), d[i].1) == Some(d[i].0)
  {
    InvMapLastWins(d, i);
  }
}

=== FILE: gold.dfy ===
/**
 * The integer part of the alignment scorer (alignment_score.py): reading gold lines into
 * possible and sure link sets, and counting the hits of predicted lines against them.
 * Links are the `i-j` strings of the word-alignment line format; a gold link written `ipj`
 * is a possible-only link.
 */
module GoldScore {
  import opened Results
  import opened Text
  import opened Pairs

  /** `x.replace("p", "-")` */
  function ReplaceP(x: string): (r: string)
    ensures |r| == |x|
    ensures 'p' !in r
    ensures 'p' !in x ==> r == x
    ensures forall i :: 0 <= i < |x| && x[i] != 'p' ==> r[i] == x[i]
    ensures forall i :: 0 <= i < |x| && x[i] == 'p' ==> r[i] == '-'
  {
    if |x| == 0 then ""
    else [if x[0] == 'p' then '-' else x[0]] + ReplaceP(x[1..])
  }

  /** `line.strip().split()` */
  function LineTokens(cc: CharClass, line: string): seq<string> {
    Words(cc, Strip(cc, line))
  }

  /** `set(line)` */
  function SetOf(t: seq<string>): (r: set<string>)
    ensures forall x :: x in r <==> x in t
  {
    set x | x in t
  }

  /** The possible links (`pros[n]`) and the sure links (`surs[n]`) of one gold line. */
  datatype GoldLine = GoldLine(pros: set<string>, surs: set<string>)

  /** Lines 17-20: every token is a possible link once its `p` is read as `-`; the tokens
      without `p` are also sure links. */
  function ParseGoldLine(cc: CharClass, line: string): (g: GoldLine)
    ensures g.surs <= g.pros
    ensures forall x :: x in g.pros ==> 'p' !in x
  {
    var toks := LineTokens(cc, line);
    var pros := set x | x in toks :: ReplaceP(x);
    var surs := set x | x in toks && 'p' !in x;
    assert forall x :: x in surs ==> ReplaceP(x) == x;
    GoldLine(pros, surs)
  }

  /** The sure links are the tokens without `p`; the possible links are the tokens with `p`
      read as `-`; a line without `p` has only sure links. */
  lemma ParseGoldLineMembers(cc: CharClass, line: string)
    ensures forall x :: x in ParseGoldLine(cc, line).surs <==> x in LineTokens(cc, line) && 'p' !in x
    ensures forall x :: x in LineTokens(cc, line) ==> ReplaceP(x) in ParseGoldLine(cc, line).pros
    ensures forall y :: y in ParseGoldLine(cc, line).pros ==> exists x :: x in LineTokens(cc, line) && ReplaceP(x) == y
    ensures (forall x :: x in LineTokens(cc, line) ==> 'p' !in x) ==>
      ParseGoldLine(cc, line).pros == ParseGoldLine(cc, line).surs
  {
  }

  /** The sum of the sizes of a list of sets. */
  function SumSizes(ss: seq<set<string>>): nat {
    if |ss| == 0 then 0 else SumSizes(ss[..|ss| - 1]) + |ss[|ss| - 1]|
  }

  /** The sizes of `ss[n..]` added up front to back. */
  function SumFrom(ss: seq<set<string>>, n: nat): nat
    decreases |ss| - n
  {
    if n >= |ss| then 0 else |ss[n]| + SumFrom(ss, n + 1)
  }

  /** What `load_gold` returns: `pros` and `surs` keyed by line number, and `surs_count`. */
  datatype Gold = Gold(pros: seq<set<string>>, surs: seq<set<string>>, sursCount: nat)

  /** The loop body of lines 19-23 run over already parsed lines: `pros` and `surs` gain one
      entry per line and `surs_count` grows by the number of distinct sure links. */
  function Accumulate(gls: seq<GoldLine>): (g: Gold)
    ensures |g.pros| == |gls| && |g.surs| == |gls|
    ensures forall n :: 0 <= n < |gls| ==> g.pros[n] == gls[n].pros
    ensures forall n :: 0 <= n < |gls| ==> g.surs[n] == gls[n].surs
    ensures g.sursCount == SumSizes(g.surs)
  {
    if |gls| == 0 then Gold([], [], 0)
    else
      var prev := Accumulate(gls[..|gls| - 1]);
      var line := gls[|gls| - 1];
      assert (prev.surs + [line.surs])[..|gls| - 1] == prev.surs;
      Gold(prev.pros + [line.pros], prev.surs + [line.surs], prev.sursCount + |line.surs|)
  }

  /** `load_gold` over the lines of the gold file (alignment_score.py:9-25). */
  function LoadGold(cc: CharClass, lines: seq<string>): (g: Gold)
    ensures |g.pros| == |lines| && |g.surs| == |lines|
    ensures forall n :: 0 <= n < |lines| ==> g.pros[n] == ParseGoldLine(cc, lines[n]).pros
    ensures forall n :: 0 <= n < |lines| ==> g.surs[n] == ParseGoldLine(cc, lines[n]).surs
    ensures g.sursCount == SumSizes(g.surs)
  {
    Accumulate(ParseAll(cc, lines))
  }

  /** Every line parsed. */
  function ParseAll(cc: CharClass, lines: seq<string>): (gls: seq<GoldLine>)
    ensures |gls| == |lines|
    ensures forall n :: 0 <= n < |lines| ==> gls[n] == ParseGoldLine(cc, lines[n])
  {
    seq(|lines|, n requires 0 <= n < |lines| => ParseGoldLine(cc, lines[n]))
  }

  /** Every sure link of the gold file is also possible, and no possible link contains `p`. */
  lemma GoldSureIsPossible(cc: CharClass, lines: seq<string>)
    ensures SureIsPossible(LoadGold(cc, lines))
    ensures forall n, x :: 0 <= n < |lines| && x in LoadGold(cc, lines).pros[n] ==> 'p' !in x
  {
  }

  // ---------------------------------------------------------------- hits of predicted lines

  /** `"-".join(x.split("-")[:2])` (line 37): the link cut after its second field. */
  function Truncate(x: string): (r: string)
    ensures |Split(r, '-')| <= 2
    ensures IsPrefix(r, x)
    ensures |Split(x, '-')| <= 2 ==> r == x
    ensures |Split(x, '-')| >= 2 ==> Split(r, '-') == Split(x, '-')[..2]
    ensures |Split(x, '-')| > 2 ==> |r| < |x| && x[|r|] == '-'
  {
    var fs := Split(x, '-');
    var m := if |fs| < 2 then |fs| else 2;
    SplitJoin(fs[..m], '-');
    JoinPrefix(fs, m, '-');
    JoinSplit(x, '-');
    assert fs[..|fs|] == fs;
    Join(fs[..m], '-')
  }

  /** Lines 36-37: an empty line raises `IndexError` at `line[0]`; every token is cut to
      two fields exactly when the first token has more than two. */
  function NormaliseTokens(toks: seq<string>): (r: Result<seq<string>, PyError>)
    ensures r.Err? <==> |toks| == 0
    ensures r.Err? ==> r.error.IndexError?
    ensures r.Ok? ==> |r.value| == |toks| && forall k :: 0 <= k < |toks| ==> IsPrefix(r.value[k], toks[k])
    ensures r.Ok? ==> (r.value == toks <==> |Split(toks[0], '-')| <= 2)
    ensures r.Ok? && |Split(toks[0], '-')| > 2 ==> forall k :: 0 <= k < |toks| ==> |Split(r.value[k], '-')| <= 2
    ensures r.Ok? && |Split(toks[0], '-')| > 2 ==>
      forall k :: 0 <= k < |toks| && |Split(toks[k], '-')| >= 2 ==> Split(r.value[k], '-') == Split(toks[k], '-')[..2]
    ensures r.Ok? ==> forall k :: 0 <= k < |toks| && |Split(toks[k], '-')| <= 2 ==> r.value[k] == toks[k]
  {
    if |toks| == 0 then Err(IndexError("list index out of range"))
    else if |Split(toks[0], '-')| > 2 then
      var r := seq(|toks|, k requires 0 <= k < |toks| => Truncate(toks[k]));
      assert r[0] != toks[0];
      Ok(r)
    else Ok(toks)
  }

  /** The three counters of `calc_score`. */
  datatype Hits = Hits(p: nat, s: nat, total: nat)

  /** `|x| <= |y|` for `x <= y`. */
  lemma SubsetCard(x: set<string>, y: set<string>)
    requires x <= y
    ensures |x| <= |y|
  {
    assert y == x + (y - x);
  }

  /** Lines 39-41 for one predicted line: the distinct predicted links that are possible,
      that are sure, and all of them. */
  function LineHits(t: seq<string>, pros: set<string>, surs: set<string>): (h: Hits)
    ensures h.p <= h.total && h.s <= h.total
    ensures surs <= pros ==> h.s <= h.p
    ensures SetOf(t) <= pros ==> h.p == h.total
    ensures SetOf(t) <= surs ==> h.s == h.total
  {
    var a := SetOf(t);
    IntersectionCards(a, pros, surs);
    Hits(|a * pros|, |a * surs|, |a|)
  }

  lemma IntersectionCards(a: set<string>, pros: set<string>, surs: set<string>)
    ensures |a * pros| <= |a| && |a * surs| <= |a|
    ensures surs <= pros ==> |a * surs| <= |a * pros|
    ensures a <= pros ==> |a * pros| == |a|
    ensures a <= surs ==> |a * surs| == |a|
  {
    SubsetCard(a * pros, a);
    SubsetCard(a * surs, a);
    if surs <= pros {
      SubsetCard(a * surs, a * pros);
    }
    if a <= pros {
      assert a * pros == a;
    }
    if a <= surs {
      assert a * surs == a;
    }
  }

  function AddHits(a: Hits, b: Hits): Hits {
    Hits(a.p + b.p, a.s + b.s, a.total + b.total)
  }

  /** Every sure link of a line is also a possible link of it. */
  predicate SureIsPossible(gold: Gold) {
    forall m :: 0 <= m < |gold.surs| && m < |gold.pros| ==> gold.surs[m] <= gold.pros[m]
  }

  /** `line.strip().split()` of every predicted line. */
  function TokenLines(cc: CharClass, lines: seq<string>): (ts: seq<seq<string>>)
    ensures |ts| == |lines|
    ensures forall m :: 0 <= m < |lines| ==> ts[m] == LineTokens(cc, lines[m])
  {
    seq(|lines|, m requires 0 <= m < |lines| => LineTokens(cc, lines[m]))
  }

  /** The hit counters keep the hits at most the number of distinct links, and, when `sure`
      holds, the sure hits at most the possible hits. */
  predicate Consistent(h: Hits, sure: bool) {
    h.p <= h.total && h.s <= h.total && (sure ==> h.s <= h.p)
  }

  /** One pass of the loop body of `calc_score` (alignment_score.py:33-41) on predicted line
      `m` with tokens `t`: an empty line raises `IndexError` at `line[0]`, a line number
      without gold sets raises `KeyError`, any other line yields its hits. */
  function ScoreLine(t: seq<string>, gold: Gold, m: nat): (r: Result<Hits, PyError>)
    ensures r.Ok? <==> |t| > 0 && m < |gold.pros| && m < |gold.surs|
    ensures r.Err? ==> (r.error.IndexError? <==> |t| == 0)
    ensures r.Err? ==> (r.error.KeyError? <==> |t| > 0)
    ensures r.Ok? ==> Consistent(r.value, gold.surs[m] <= gold.pros[m])
  {
    var u :- NormaliseTokens(t);
    if m >= |gold.pros| || m >= |gold.surs| then Err(KeyError(NatToString(m)))
    else Ok(LineHits(u, gold.pros[m], gold.surs[m]))
  }

  /** The result of every predicted line on its own. */
  function LineScores(ts: seq<seq<string>>, gold: Gold): (ls: seq<Result<Hits, PyError>>)
    ensures |ls| == |ts|
    ensures forall m :: 0 <= m < |ts| ==> ls[m] == ScoreLine(ts[m], gold, m)
  {
    seq(|ts|, m requires 0 <= m < |ts| => ScoreLine(ts[m], gold, m))
  }

  /** The loop of `calc_score` (alignment_score.py:27-42) over the line results `n..`: the
      first failing line ends it with that line's exception, otherwise the hits add up. */
  function HitsFrom(ls: seq<Result<Hits, PyError>>, n: nat): (r: Result<Hits, PyError>)
    requires n <= |ls|
    decreases |ls| - n
  {
    if n == |ls| then Ok(Hits(0, 0, 0))
    else
      var h :- ls[n];
      var rest :- HitsFrom(ls, n + 1);
      Ok(AddHits(h, rest))
  }

  /** `calc_score`: every predicted line is split into its links and scored, in order. */
  function CalcHits(cc: CharClass, lines: seq<string>, gold: Gold): Result<Hits, PyError> {
    HitsFrom(LineScores(TokenLines(cc, lines), gold), 0)
  }

  /** The loop succeeds exactly when every remaining line does. */
  lemma {:induction false} HitsFromOk(ls: seq<Result<Hits, PyError>>, n: nat)
    requires n <= |ls|
    ensures HitsFrom(ls, n).Ok? <==> forall m :: n <= m < |ls| ==> ls[m].Ok?
    decreases |ls| - n
  {
    if n < |ls| {
      HitsFromOk(ls, n + 1);
    }
  }

  /** A failing loop fails with the exception of the first remaining line that fails. */
  lemma {:induction false} HitsFromErr(ls: seq<Result<Hits, PyError>>, n: nat)
    requires n <= |ls|
    ensures HitsFrom(ls, n).Err? ==> exists m: int :: FirstErrAt(ls, n, m) && ls[m] == Err(HitsFrom(ls, n).error)
    decreases |ls| - n
  {
    if n < |ls| {
      if ls[n].Err? {
        assert FirstErrAt(ls, n, n);
      } else {
        HitsFromErr(ls, n + 1);
        if HitsFrom(ls, n).Err? {
          var m :| FirstErrAt(ls, n + 1, m) && ls[m] == Err(HitsFrom(ls, n + 1).error);
          assert FirstErrAt(ls, n, m);
        }
      }
    }
  }

  /** Line `m` is the first of the lines `n..` that fails. */
  predicate FirstErrAt(ls: seq<Result<Hits, PyError>>, n: nat, m: int) {
    n <= m < |ls| && ls[m].Err? && forall j :: n <= j < m ==> ls[j].Ok?
  }

  /** Adding up consistent line counters gives consistent totals. */
  lemma {:induction false} HitsFromConsistent(ls: seq<Result<Hits, PyError>>, n: nat, sure: bool)
    requires n <= |ls|
    requires forall m :: n <= m < |ls| && ls[m].Ok? ==> Consistent(ls[m].value, sure)
    ensures HitsFrom(ls, n).Ok? ==> Consistent(HitsFrom(ls, n).value, sure)
    decreases |ls| - n
  {
    if n < |ls| {
      HitsFromConsistent(ls, n + 1, sure);
    }
  }

  /** Predicted line `m` has a token and a gold line of its number. */
  predicate Scorable(cc: CharClass, lines: seq<string>, gold: Gold, m: int)
    requires 0 <= m < |lines|
  {
    |LineTokens(cc, lines[m])| > 0 && m < |gold.pros| && m < |gold.surs|
  }

  /** Scoring succeeds exactly when every predicted line has a token and a gold line of the
      same number. */
  lemma CalcHitsSucceeds(cc: CharClass, lines: seq<string>, gold: Gold)
    ensures CalcHits(cc, lines, gold).Ok? <==> forall m :: 0 <= m < |lines| ==> Scorable(cc, lines, gold, m)
  {
    if CalcHits(cc, lines, gold).Ok? {
      CalcHitsOkLines(cc, lines, gold);
    } else {
      var m := CalcHitsErrLine(cc, lines, gold);
      assert !Scorable(cc, lines, gold, m);
    }
  }

  lemma CalcHitsOkLines(cc: CharClass, lines: seq<string>, gold: Gold)
    requires CalcHits(cc, lines, gold).Ok?
    ensures forall m :: 0 <= m < |lines| ==> Scorable(cc, lines, gold, m)
  {
    var ts := TokenLines(cc, lines);
    var ls := LineScores(ts, gold);
    HitsFromOk(ls, 0);
    forall m | 0 <= m < |lines|
      ensures Scorable(cc, lines, gold, m)
    {
      assert ls[m].Ok?;
      LineScoreOk(ts, gold, ls, m);
      assert ts[m] == LineTokens(cc, lines[m]);
    }
  }

  lemma CalcHitsErrLine(cc: CharClass, lines: seq<string>, gold: Gold) returns (m: nat)
    requires CalcHits(cc, lines, gold).Err?
    ensures m < |lines| && !Scorable(cc, lines, gold, m)
  {
    var ts := TokenLines(cc, lines);
    var ls := LineScores(ts, gold);
    HitsFromOk(ls, 0);
    m :| 0 <= m < |ls| && !ls[m].Ok?;
    LineScoreOk(ts, gold, ls, m);
    assert ts[m] == LineTokens(cc, lines[m]);
  }

  /** Line `m`'s result is a success exactly when it has a token and a gold line. */
  lemma LineScoreOk(ts: seq<seq<string>>, gold: Gold, ls: seq<Result<Hits, PyError>>, m: nat)
    requires ls == LineScores(ts, gold) && m < |ts|
    ensures ls[m].Ok? <==> |ts[m]| > 0 && m < |gold.pros| && m < |gold.surs|
  {
    assert ls[m] == ScoreLine(ts[m], gold, m);
  }

  /** Scoring fails with `IndexError` exactly at a predicted line with no token, and with
      `KeyError` only at a non-empty line that has no gold line, so only when there are more
      predicted lines than gold lines; nothing else is raised. */
  lemma CalcHitsErrors(cc: CharClass, lines: seq<string>, gold: Gold)
    ensures CalcHits(cc, lines, gold).Err? ==>
      CalcHits(cc, lines, gold).error.IndexError? || CalcHits(cc, lines, gold).error.KeyError?
    ensures CalcHits(cc, lines, gold).Err? && CalcHits(cc, lines, gold).error.IndexError? ==>
      exists m :: 0 <= m < |lines| && |LineTokens(cc, lines[m])| == 0
    ensures CalcHits(cc, lines, gold).Err? && CalcHits(cc, lines, gold).error.KeyError? ==>
      |lines| > |gold.pros| || |lines| > |gold.surs|
  {
    var ts := TokenLines(cc, lines);
    var ls := LineScores(ts, gold);
    HitsFromErr(ls, 0);
    if CalcHits(cc, lines, gold).Err? {
      var m :| FirstErrAt(ls, 0, m) && ls[m] == Err(CalcHits(cc, lines, gold).error);
      assert ls[m] == ScoreLine(ts[m], gold, m);
      assert ts[m] == LineTokens(cc, lines[m]);
    }
  }

  /** The totals keep the hits at most the number of distinct predicted links, and the sure
      hits at most the possible hits when every sure link is possible. */
  lemma CalcHitsConsistent(cc: CharClass, lines: seq<string>, gold: Gold)
    ensures CalcHits(cc, lines, gold).Ok? ==> Consistent(CalcHits(cc, lines, gold).value, SureIsPossible(gold))
  {
    var ts := TokenLines(cc, lines);
    var ls := LineScores(ts, gold);
    forall m | 0 <= m < |ls| && ls[m].Ok?
      ensures Consistent(ls[m].value, SureIsPossible(gold))
    {
      assert ls[m] == ScoreLine(ts[m], gold, m);
    }
    HitsFromConsistent(ls, 0, SureIsPossible(gold));
  }

  // ---------------------------------------------------------------- scoring gold against itself

  /** A line the scorer reads unchanged and whose links are all sure: it has a token, its
      first token has at most two `-` fields, and no token holds `p`. */
  predicate PlainLine(cc: CharClass, line: string) {
    var toks := LineTokens(cc, line);
    |toks| > 0 && |Split(toks[0], '-')| <= 2 && forall k :: 0 <= k < |toks| ==> 'p' !in toks[k]
  }

  lemma {:induction false} SumSizesCons(ss: seq<set<string>>)
    requires |ss| > 0
    ensures SumSizes(ss) == |ss[0]| + SumSizes(ss[1..])
    decreases |ss|
  {
    if |ss| > 1 {
      SumSizesCons(ss[..|ss| - 1]);
      assert ss[..|ss| - 1][1..] == ss[1..][..|ss[1..]| - 1];
      assert ss[..|ss| - 1][0] == ss[0];
    } else {
      assert ss[..0] == [];
    }
  }

  /** A line whose tokens hold no `p` has the set of its tokens as both link sets. */
  lemma PlainGold(cc: CharClass, line: string)
    requires forall k :: 0 <= k < |LineTokens(cc, line)| ==> 'p' !in LineTokens(cc, line)[k]
    ensures ParseGoldLine(cc, line) == GoldLine(SetOf(LineTokens(cc, line)), SetOf(LineTokens(cc, line)))
  {
    var toks := LineTokens(cc, line);
    var g := ParseGoldLine(cc, line);
    ParseGoldLineMembers(cc, line);
    assert g.surs == SetOf(toks);
  }

  /** One plain line scored against its own gold sets. */
  lemma LineSelfHits(cc: CharClass, line: string)
    requires PlainLine(cc, line)
    ensures NormaliseTokens(LineTokens(cc, line)) == Ok(LineTokens(cc, line))
    ensures var g := ParseGoldLine(cc, line);
      LineHits(LineTokens(cc, line), g.pros, g.surs) == Hits(|g.surs|, |g.surs|, |g.surs|)
  {
    PlainGold(cc, line);
  }

  /** Line `m` succeeds with every link of its gold line hit, as a sure and as a possible
      link. */
  predicate SelfLine(ls: seq<Result<Hits, PyError>>, gold: Gold, m: nat)
    requires m < |ls| && m < |gold.surs|
  {
    ls[m] == Ok(Hits(|gold.surs[m]|, |gold.surs[m]|, |gold.surs[m]|))
  }

  /** The loop over lines `n..` succeeds with `x` hits of each kind out of `x` links. */
  predicate AllHit(ls: seq<Result<Hits, PyError>>, n: nat, x: nat)
    requires n <= |ls|
  {
    HitsFrom(ls, n) == Ok(Hits(x, x, x))
  }

  /** Lines `n..` that each hit all of their gold line's links, as sure and as possible
      links, hit the links of gold lines `n..` in total. */
  lemma {:induction false} SelfHits(ls: seq<Result<Hits, PyError>>, gold: Gold, n: nat)
    requires n <= |ls| == |gold.surs|
    requires forall m :: n <= m < |ls| ==> SelfLine(ls, gold, m)
    ensures AllHit(ls, n, SumFrom(gold.surs, n))
    decreases |ls| - n
  {
    if n < |ls| {
      SelfHits(ls, gold, n + 1);
      var k := |gold.surs[n]|;
      var rest := SumFrom(gold.surs, n + 1);
      assert SelfLine(ls, gold, n);
      assert HitsFrom(ls, n) == Ok(AddHits(Hits(k, k, k), Hits(rest, rest, rest)));
      AddSelfHits(Hits(k, k, k), Hits(rest, rest, rest), k, rest);
      assert SumFrom(gold.surs, n) == k + rest;
    }
  }

  /** Adding two all-hit counters gives the all-hit counter of the sum. */
  lemma AddSelfHits(a: Hits, b: Hits, x: nat, y: nat)
    requires a == Hits(x, x, x) && b == Hits(y, y, y)
    ensures AddHits(a, b) == Hits(x + y, x + y, x + y)
  {
  }

  /** Adding up front to back gives the same total as `SumSizes`. */
  lemma {:induction false} SumFromSlices(ss: seq<set<string>>, n: nat)
    requires n <= |ss|
    ensures SumFrom(ss, n) == SumSizes(ss[n..])
    decreases |ss| - n
  {
    if n < |ss| {
      SumFromSlices(ss, n + 1);
      SumSizesFrom(ss, n);
    } else {
      assert ss[n..] == [];
    }
  }

  lemma SumSizesFrom(ss: seq<set<string>>, n: nat)
    requires n < |ss|
    ensures SumSizes(ss[n..]) == |ss[n]| + SumSizes(ss[n + 1..])
  {
    SumSizesCons(ss[n..]);
    assert ss[n..][1..] == ss[n + 1..];
  }

  /** A gold file of plain lines scored against itself: every predicted link is a possible
      and a sure hit, and the hits equal `surs_count` (precision and recall 1, AER 0). */
  lemma SelfScorePerfect(cc: CharClass, lines: seq<string>)
    requires forall m :: 0 <= m < |lines| ==> PlainLine(cc, lines[m])
    ensures CalcHits(cc, lines, LoadGold(cc, lines)).Ok?
    ensures CalcHits(cc, lines, LoadGold(cc, lines)).value.p == LoadGold(cc, lines).sursCount
    ensures CalcHits(cc, lines, LoadGold(cc, lines)).value.s == LoadGold(cc, lines).sursCount
    ensures CalcHits(cc, lines, LoadGold(cc, lines)).value.total == LoadGold(cc, lines).sursCount
  {
    var gold := LoadGold(cc, lines);
    var ts := TokenLines(cc, lines);
    var ls := LineScores(ts, gold);
    forall m | 0 <= m < |ls|
      ensures SelfLine(ls, gold, m)
    {
      LineSelfHits(cc, lines[m]);
      assert ls[m] == ScoreLine(ts[m], gold, m);
    }
    SelfHits(ls, gold, 0);
    SumFromSlices(gold.surs, 0);
    assert gold.surs[0..] == gold.surs;
  }

  /** `strip().split()` of an alignment line gives back its links. */
  lemma AlignmentLineTokens(cc: CharClass, al: seq<(nat, nat)>)
    requires Valid(cc)
    ensures LineTokens(cc, AlignmentLine(al)) == Links(al)
    ensures forall k :: 0 <= k < |al| ==> 'p' !in Links(al)[k]
  {
    var ls := Links(al);
    forall k | 0 <= k < |al|
      ensures Solid(cc, ls[k]) && 'p' !in ls[k]
    {
      LinkSolid(cc, al[k]);
    }
    if |al| > 0 {
      JoinSolidEnds(cc, ls);
    }
    StripNoop(cc, AlignmentLine(al));
    AlignmentLineWords(cc, al);
  }

  /** A non-empty line written by prepare_for_alignment.py:221 reads back as its links, all
      of them sure, and is plain. */
  lemma AlignmentLineIsGold(cc: CharClass, al: seq<(nat, nat)>)
    requires Valid(cc) && |al| > 0
    ensures ParseGoldLine(cc, AlignmentLine(al)) == GoldLine(SetOf(Links(al)), SetOf(Links(al)))
    ensures PlainLine(cc, AlignmentLine(al))
  {
    AlignmentLineTokens(cc, al);
    PlainGold(cc, AlignmentLine(al));
    LinkRoundTrip(al[0]);
  }

  /** A sample with no links writes an empty line, which the scorer rejects when it reads it
      as a prediction. */
  lemma EmptyAlignmentLineRejected(cc: CharClass, gold: Gold)
    ensures AlignmentLine([]) == ""
    ensures CalcHits(cc, [AlignmentLine([])], gold).Err?
    ensures CalcHits(cc, [AlignmentLine([])], gold).error.IndexError?
  {
    assert Links([]) == [];
    assert LineTokens(cc, "") == [];
    assert TokenLines(cc, [""]) == [[]];
    assert LineScores([[]], gold) == [ScoreLine([], gold, 0)];
  }
}

=== FILE: labels.dfy ===
/**
 * The label tables of clean_raw_data.py: the survey's Italian answers and their English
 * renderings, and the score of each translation-evaluation answer.
 */
module Labels {
  import opened Results
  import opened Dicts

  const LangMap: Dict<string, string> := [
    ("Piemontese", "Piedmontese"),
    ("Italiano", "Italian"),
    ("Inglese", "English"),
    ("Altro", "Other"),
    ("Islandese,Inglese,Italiano", "Icelandic,English,Italian")
  ]

  const ProficiencyMap: Dict<string, string> := [
    ("Perfettamente o quasi, riesco a esprimere praticamente tutto", "Perfectly or almost"),
    ("Abbastanza, ma a volte lo mischio con l'italiano (o la lingua che uso principalmente)", "Fairly"),
    ("Poco, conosco alcune espressioni, ma faccio fatica a esprimere rasi nuove", "Little"),
    ("Niente o quasi, solo qualche parola", "Nothing or almost")
  ]

  const AgreementMap: Dict<string, string> := [
    ("D'accordo", "Agree"),
    ("In disaccordo", "Disagree"),
    ("Neutrale", "Neutral")
  ]

  const LanguageSourceMap: Dict<string, string> := [
    ("Genitori", "Parents"),
    ("Nonni", "Grandparents"),
    ("Parenti", "Relatives"),
    ("Amici o Colleghi", "Friends or Colleagues"),
    ("Altro", "Other"),
    ("Padrone di casa, marito, suoceri…", "Landlord, husband, parents-in-law…"),
    ("Lavoro", "Work"),
    ("Ciro", "Ciro"),
    ("Persone anziane con cui ho lavorato", "Elderly people I worked with"),
    ("Persone de paese dove vivo", "People from the village where I live"),
    ("Da solo, koiné ed astesano ", "Alone, koiné and local speech"),
    ("Compagnia teatrale dialettale", "Dialect theatre company"),
    ("Clienti ", "Clients"),
    ("Da autodidatta ", "Self-taught"),
    ("Sentendolo parlare in paese", "Hearing it spoken in town"),
    ("Lavorando nel sociale con gli anziani", "Working in social care with the elderly")
  ]

  const AgeMap: Dict<string, string> := [
    ("Tra 20 e 30", "20-30"),
    ("Tra 30 e 40", "30-40"),
    ("Tra 40 e 50", "40-50"),
    ("Tra 50 e 60", "50-60"),
    ("Meno di 20", "<20"),
    ("Più di 60", ">60")
  ]

  const EvaluationMap: Dict<string, string> := [
    ("Interamente corretta o quasi", "Entirely correct or almost"),
    ("Probabilmente corretta, l'avrei scritta in altro modo", "Probably correct"),
    ("Parzialmente corretta", "Partially correct"),
    ("Totalmente sbagliata o quasi", "Totally wrong or almost"),
    ("Risposta mancante, offensiva o non pertinente", "Missing, offensive or not relevant"),
    ("Non lo so", "I don't know")
  ]

  const EvaluationToScore: Dict<string, int> := [
    ("Interamente corretta o quasi", 4),
    ("Probabilmente corretta, l'avrei scritta in altro modo", 3),
    ("Parzialmente corretta", 2),
    ("Totalmente sbagliata o quasi", 1),
    ("Risposta mancante, offensiva o non pertinente", 0),
    ("Non lo so", -1)
  ]

  /** The tables `clean_file` consults, gathered so the transformation can be stated for any
      of them; `Shipped` holds the ones clean_raw_data.py:10-75 defines. */
  datatype Tables = Tables(
    lang: Dict<string, string>,
    proficiency: Dict<string, string>,
    agreement: Dict<string, string>,
    languageSource: Dict<string, string>,
    age: Dict<string, string>,
    evaluation: Dict<string, string>,
    scores: Dict<string, int>)

  const Shipped := Tables(LangMap, ProficiencyMap, AgreementMap, LanguageSourceMap, AgeMap, EvaluationMap, EvaluationToScore)

  /** A table that `inv_map` turns around without loss. */
  predicate Invertible<K(==), V(==)>(d: Dict<K, V>) {
    UniqueKeys(d) && Injective(d)
  }

  lemma LangMapInvertible()
    ensures Invertible(LangMap)
  {
  }

  lemma ProficiencyMapInvertible()
    ensures Invertible(ProficiencyMap)
  {
  }

  lemma AgreementMapInvertible()
    ensures Invertible(AgreementMap)
  {
  }

  lemma LanguageSourceMapInvertible()
    ensures Invertible(LanguageSourceMap)
  {
    LanguageSourceKeysUnique();
    LanguageSourceValuesUnique();
  }

  lemma LanguageSourceKeysUnique()
    ensures UniqueKeys(LanguageSourceMap)
  {
    KeysBySignature(LanguageSourceMap);
  }

  lemma LanguageSourceValuesUnique()
    ensures Injective(LanguageSourceMap)
  {
    ValuesBySignature(LanguageSourceMap);
  }

  /** Keys that differ in length or in first character are distinct. */
  lemma KeysBySignature<V>(d: Dict<string, V>)
    requires forall i :: 0 <= i < |d| ==> |d[i].0| > 0
    requires forall i, j :: 0 <= i < j < |d| ==> |d[i].0| != |d[j].0| || d[i].0[0] != d[j].0[0]
    ensures UniqueKeys(d)
  {
  }

  /** Values that differ in length or in first character are distinct. */
  lemma ValuesBySignature<K>(d: Dict<K, string>)
    requires forall i :: 0 <= i < |d| ==> |d[i].1| > 0
    requires forall i, j :: 0 <= i < j < |d| ==> |d[i].1| != |d[j].1| || d[i].1[0] != d[j].1[0]
    ensures Injective(d)
  {
  }

  lemma AgeMapInvertible()
    ensures Invertible(AgeMap)
  {
  }

  lemma EvaluationMapInvertible()
    ensures Invertible(EvaluationMap)
  {
  }

  lemma EvaluationToScoreInvertible()
    ensures Invertible(EvaluationToScore)
  {
  }

  /** What `inv_map` promises for an invertible table: `inv_map(d)[d[k]] == k` for every key,
      and inverting twice gives the table back. */
  lemma {:induction false} InvertibleRoundTrip<K, V>(d: Dict<K, V>)
    requires Invertible(d)
    ensures forall i :: 0 <= i < |d| ==> Find(InvMap(d), d[i].1) == Some(d[i].0)
    ensures InvMap(InvMap(d)) == d
  {
    forall i | 0 <= i < |d|
      ensures Find(InvMap(d), d[i].1) == Some(d[i].0)
    {
      InvMapFindsKey(d, i);
    }
    InvMapTwice(d);
  }

  /** Every shipped table survives the round trip through its inverse (clean_raw_data.py:127-133). */
  lemma ShippedTablesRoundTrip()
    ensures InvMap(InvMap(LangMap)) == LangMap
    ensures InvMap(InvMap(ProficiencyMap)) == ProficiencyMap
    ensures InvMap(InvMap(AgreementMap)) == AgreementMap
    ensures InvMap(InvMap(LanguageSourceMap)) == LanguageSourceMap
    ensures InvMap(InvMap(AgeMap)) == AgeMap
    ensures InvMap(InvMap(EvaluationMap)) == EvaluationMap
    ensures InvMap(InvMap(EvaluationToScore)) == EvaluationToScore
  {
    LangMapInvertible();
    InvertibleRoundTrip(LangMap);
    ProficiencyMapInvertible();
    InvertibleRoundTrip(ProficiencyMap);
    AgreementMapInvertible();
    InvertibleRoundTrip(AgreementMap);
    LanguageSourceMapInvertible();
    InvertibleRoundTrip(LanguageSourceMap);
    AgeMapInvertible();
    InvertibleRoundTrip(AgeMap);
    EvaluationMapInvertible();
    InvertibleRoundTrip(EvaluationMap);
    EvaluationToScoreInvertible();
    InvertibleRoundTrip(EvaluationToScore);
  }

  /** The score table grades the same answers, in the same order, as the translation table. */
  lemma ScoredAnswersAreTranslated()
    ensures |EvaluationToScore| == |EvaluationMap|
    ensures forall i :: 0 <= i < |EvaluationMap| ==> EvaluationToScore[i].0 == EvaluationMap[i].0
  {
  }

  /** Every score in the table lies in [-1, 4]. */
  lemma ScoresInRange()
    ensures forall i :: 0 <= i < |EvaluationToScore| ==> -1 <= EvaluationToScore[i].1 <= 4
  {
  }
}

=== FILE: pairs.dfy ===
/**
 * The loop over the span list (`process_pairs`) and the `i-j` alignment line it feeds to the
 * output file (prepare_for_alignment.py:190-205, 221).
 */
module Pairs {
  import opened Results
  import opened Text
  import opened Placeholders
  import opened Sample

  /** One JSON object of the span list; a key missing from the object is `None`. */
  datatype Item = Item(ita: Option<string>, pms: Option<string>, spans: Option<seq<SpanPair>>, split: Option<string>)

  /** The item has the three keys every iteration reads (lines 196-198). */
  predicate HasTexts(it: Item) {
    it.ita.Some? && it.pms.Some? && it.spans.Some?
  }

  /** An item the loop reaches `process_sample` with meets `Sample.SpansInBounds`; a skipped
      item's spans are never read. */
  predicate ItemInBounds(it: Item, split: Option<string>) {
    HasTexts(it) && Keeps(split, it) ==> SpansInBounds(it.ita.value, it.pms.value, it.spans.value)
  }

  /** The filter of line 199 lets the item through. */
  predicate Keeps(split: Option<string>, it: Item) {
    split.None? || (it.split.Some? && it.split.value == split.value)
  }

  /** One iteration of the loop: `None` for a skipped item, the sample's output otherwise,
      or the exception the iteration raises. */
  function ItemOutcome(cc: CharClass, it: Item, split: Option<string>): (r: Result<Option<SampleOut>, PyError>)
    requires ItemInBounds(it, split)
    ensures !HasTexts(it) ==> r.Err? && r.error.KeyError?
    ensures HasTexts(it) && split.Some? && it.split.None? ==> r == Err(KeyError("split"))
    ensures r == Ok(None) <==> HasTexts(it) && split.Some? && it.split.Some? && it.split.value != split.value
    ensures r.Ok? && r.value.Some? ==>
      HasTexts(it) && Keeps(split, it) && ProcessSample(cc, it.ita.value, it.pms.value, it.spans.value) == Ok(r.value.value)
    ensures HasTexts(it) && Keeps(split, it) ==>
      (r.Ok? <==> ProcessSample(cc, it.ita.value, it.pms.value, it.spans.value).Ok?)
  {
    if it.ita.None? then Err(KeyError("ita"))
    else if it.pms.None? then Err(KeyError("pms"))
    else if it.spans.None? then Err(KeyError("spans_index"))
    else if split.Some? && it.split.None? then Err(KeyError("split"))
    else if !Keeps(split, it) then Ok(None)
    else
      var out :- ProcessSample(cc, it.ita.value, it.pms.value, it.spans.value);
      Ok(Some(out))
  }

  /** The items the filter selects, in input order: the reference the loop's output follows. */
  function Chosen(items: seq<Item>, split: Option<string>): (r: seq<Item>)
    ensures |r| <= |items|
    ensures forall k :: 0 <= k < |r| ==> HasTexts(r[k]) && Keeps(split, r[k])
    ensures AllInBounds(items, split) ==> AllInBounds(r, split)
  {
    if |items| == 0 then []
    else if HasTexts(items[0]) && Keeps(split, items[0]) then [items[0]] + Chosen(items[1..], split)
    else Chosen(items[1..], split)
  }

  /** Exactly the items that have their keys and pass the filter are chosen. */
  lemma {:induction false} ChosenMembers(items: seq<Item>, split: Option<string>)
    ensures forall it :: it in Chosen(items, split) <==> it in items && HasTexts(it) && Keeps(split, it)
  {
    if |items| > 0 {
      ChosenMembers(items[1..], split);
      assert items == [items[0]] + items[1..];
    }
  }

  predicate AllInBounds(items: seq<Item>, split: Option<string>) {
    forall i :: 0 <= i < |items| ==> ItemInBounds(items[i], split)
  }

  /** The positions `i..` whose outcome is an output (not a skip and not an exception). */
  function Present<T>(os: seq<Result<Option<T>, PyError>>, i: nat): (r: seq<nat>)
    requires i <= |os|
    ensures forall k :: 0 <= k < |r| ==> i <= r[k] < |os| && os[r[k]].Ok? && os[r[k]].value.Some?
    ensures forall k, l :: 0 <= k < l < |r| ==> r[k] < r[l]
    ensures forall j :: i <= j < |os| && os[j].Ok? && os[j].value.Some? ==> j in r
    decreases |os| - i
  {
    if i == |os| then []
    else if os[i].Ok? && os[i].value.Some? then [i] + Present(os, i + 1)
    else Present(os, i + 1)
  }

  /** The loop of lines 195-204 over the items' outcomes `os[i..]`: the first exception ends
      it, and every output is appended in order. */
  function Collect<T>(os: seq<Result<Option<T>, PyError>>, i: nat): (r: Result<seq<T>, PyError>)
    requires i <= |os|
    ensures r.Ok? <==> forall j :: i <= j < |os| ==> os[j].Ok?
    ensures r.Err? ==> exists j :: i <= j < |os| && os[j] == Err(r.error) && forall l :: i <= l < j ==> os[l].Ok?
    decreases |os| - i
  {
    if i == |os| then Ok([])
    else if os[i].Err? then Err(os[i].error)
    else
      var rest := Collect(os, i + 1);
      if rest.Err? then Err(rest.error)
      else if os[i].value.Some? then Ok([os[i].value.value] + rest.value)
      else Ok(rest.value)
  }

  /** A successful loop appends the outputs of the present positions, in order. */
  lemma {:induction false} CollectOutputs<T>(os: seq<Result<Option<T>, PyError>>, i: nat)
    requires i <= |os| && Collect(os, i).Ok?
    ensures |Collect(os, i).value| == |Present(os, i)|
    ensures forall k :: 0 <= k < |Collect(os, i).value| ==> os[Present(os, i)[k]] == Ok(Some(Collect(os, i).value[k]))
    decreases |os| - i
  {
    if i < |os| {
      CollectOutputs(os, i + 1);
      var q, rest := Present(os, i + 1), Collect(os, i + 1).value;
      if os[i].value.Some? {
        assert Present(os, i) == [i] + q;
        assert Collect(os, i).value == [os[i].value.value] + rest;
        ConsOutputs(os, i, q, rest);
      } else {
        assert Present(os, i) == q;
        assert Collect(os, i).value == rest;
      }
    }
  }

  /** Prefixing a position and its output keeps positions and outputs aligned. */
  lemma ConsOutputs<T>(os: seq<Result<Option<T>, PyError>>, i: nat, p: seq<nat>, v: seq<T>)
    requires i < |os| && os[i].Ok? && os[i].value.Some? && |p| == |v|
    requires forall k :: 0 <= k < |p| ==> p[k] < |os| && os[p[k]] == Ok(Some(v[k]))
    ensures forall k :: 0 <= k < |p| + 1 ==> ([i] + p)[k] < |os| && os[([i] + p)[k]] == Ok(Some(([os[i].value.value] + v)[k]))
  {
  }

  type PairsOut = (seq<seq<(nat, nat)>>, seq<string>, seq<string>)

  /** The outcome of every item. */
  function Outcomes(cc: CharClass, items: seq<Item>, split: Option<string>): (r: seq<Result<Option<SampleOut>, PyError>>)
    requires AllInBounds(items, split)
    ensures |r| == |items|
    ensures forall i :: 0 <= i < |items| ==> r[i] == ItemOutcome(cc, items[i], split)
  {
    seq(|items|, i requires 0 <= i < |items| && AllInBounds(items, split) => ItemOutcome(cc, items[i], split))
  }

  /** Three lists out of one list of triples. */
  function Unzip(outs: seq<SampleOut>): (r: PairsOut)
    ensures |r.0| == |outs| && |r.1| == |outs| && |r.2| == |outs|
    ensures forall k :: 0 <= k < |outs| ==> outs[k] == (r.0[k], r.1[k], r.2[k])
  {
    (seq(|outs|, k requires 0 <= k < |outs| => outs[k].0),
     seq(|outs|, k requires 0 <= k < |outs| => outs[k].1),
     seq(|outs|, k requires 0 <= k < |outs| => outs[k].2))
  }

  /** Prefixing a position and the item at it keeps positions and items aligned. */
  lemma ConsAligned(items: seq<Item>, i: nat, p: seq<nat>, q: seq<Item>)
    requires i < |items| && |p| == |q|
    requires forall k :: 0 <= k < |p| ==> p[k] < |items| && items[p[k]] == q[k]
    ensures forall k :: 0 <= k < |p| + 1 ==> ([i] + p)[k] < |items| && items[([i] + p)[k]] == ([items[i]] + q)[k]
  {
  }

  /** An output at position `i` puts `i` in front of the later positions and the item in
      front of the later chosen items. */
  lemma PresentIsChosenKeep<T>(os: seq<Result<Option<T>, PyError>>, items: seq<Item>, split: Option<string>, i: nat, p: seq<nat>, q: seq<Item>)
    requires |os| == |items| && i < |os|
    requires os[i].Ok? && os[i].value.Some? && HasTexts(items[i]) && Keeps(split, items[i])
    requires p == Present(os, i + 1) && q == Chosen(items[i + 1..], split)
    requires |p| == |q| && forall k :: 0 <= k < |p| ==> items[p[k]] == q[k]
    ensures |Present(os, i)| == |Chosen(items[i..], split)|
    ensures forall k :: 0 <= k < |Present(os, i)| ==> items[Present(os, i)[k]] == Chosen(items[i..], split)[k]
  {
    assert items[i..] == [items[i]] + items[i + 1..];
    assert Present(os, i) == [i] + p;
    assert Chosen(items[i..], split) == [items[i]] + q;
    ConsAligned(items, i, p, q);
  }

  /** A skipped position changes neither list. */
  lemma PresentIsChosenSkip<T>(os: seq<Result<Option<T>, PyError>>, items: seq<Item>, split: Option<string>, i: nat, p: seq<nat>, q: seq<Item>)
    requires |os| == |items| && i < |os|
    requires os[i].Ok? && os[i].value.None? && !(HasTexts(items[i]) && Keeps(split, items[i]))
    requires p == Present(os, i + 1) && q == Chosen(items[i + 1..], split)
    requires |p| == |q| && forall k :: 0 <= k < |p| ==> items[p[k]] == q[k]
    ensures |Present(os, i)| == |Chosen(items[i..], split)|
    ensures forall k :: 0 <= k < |Present(os, i)| ==> items[Present(os, i)[k]] == Chosen(items[i..], split)[k]
  {
    assert items[i..] == [items[i]] + items[i + 1..];
    assert Present(os, i) == p;
    assert Chosen(items[i..], split) == q;
  }

  /** Once no item raises, the outputs are those of the chosen items. */
  lemma {:induction false} PresentIsChosen<T>(os: seq<Result<Option<T>, PyError>>, items: seq<Item>, split: Option<string>, i: nat)
    requires |os| == |items| && i <= |os|
    requires forall j :: 0 <= j < |os| ==> os[j].Ok?
    requires forall j :: 0 <= j < |os| ==> (os[j].value.Some? <==> HasTexts(items[j]) && Keeps(split, items[j]))
    ensures |Present(os, i)| == |Chosen(items[i..], split)|
    ensures forall k :: 0 <= k < |Present(os, i)| ==> items[Present(os, i)[k]] == Chosen(items[i..], split)[k]
    decreases |os| - i
  {
    if i < |os| {
      PresentIsChosen(os, items, split, i + 1);
      var p, q := Present(os, i + 1), Chosen(items[i + 1..], split);
      if os[i].value.Some? {
        PresentIsChosenKeep(os, items, split, i, p, q);
      } else {
        PresentIsChosenSkip(os, items, split, i, p, q);
      }
    }
  }

  /** `process_pairs(items, split)` (prepare_for_alignment.py:190-205): one entry in each of
      the three lists per item the filter chooses, in input order, or the exception of the
      first item that raises. */
  function ProcessPairs(cc: CharClass, items: seq<Item>, split: Option<string>): (r: Result<PairsOut, PyError>)
    requires AllInBounds(items, split)
    ensures r.Ok? <==> forall i :: 0 <= i < |items| ==> ItemOutcome(cc, items[i], split).Ok?
    ensures r.Err? ==> exists i :: 0 <= i < |items| && ItemOutcome(cc, items[i], split) == Err(r.error) &&
                                   forall j :: 0 <= j < i ==> ItemOutcome(cc, items[j], split).Ok?
    ensures r.Ok? ==> |r.value.0| == |Chosen(items, split)|
    ensures r.Ok? ==> |r.value.1| == |Chosen(items, split)| && |r.value.2| == |Chosen(items, split)|
    ensures r.Ok? ==> forall k :: 0 <= k < |Chosen(items, split)| ==>
      var it := Chosen(items, split)[k];
      ProcessSample(cc, it.ita.value, it.pms.value, it.spans.value) == Ok((r.value.0[k], r.value.1[k], r.value.2[k]))
  {
    var os := Outcomes(cc, items, split);
    var outs :- Collect(os, 0);
    CollectOutputs(os, 0);
    PresentIsChosen(os, items, split, 0);
    assert items[0..] == items;
    Ok(Unzip(outs))
  }

  /** Every item has its keys and passes the filter exactly when all of them are chosen;
      in particular, without a filter every item with its keys is kept. */
  lemma {:induction false} ChosenAll(items: seq<Item>, split: Option<string>)
    ensures Chosen(items, split) == items <==> forall i :: 0 <= i < |items| ==> HasTexts(items[i]) && Keeps(split, items[i])
  {
    if |items| > 0 {
      ChosenAll(items[1..], split);
      if !(HasTexts(items[0]) && Keeps(split, items[0])) {
        assert |Chosen(items, split)| < |items|;
      }
    }
  }

  /** Without a filter, a run that raises nothing has one entry per item, in item order. */
  lemma ProcessPairsNoFilter(cc: CharClass, items: seq<Item>)
    requires AllInBounds(items, None)
    ensures ProcessPairs(cc, items, None).Ok? ==> Chosen(items, None) == items
    ensures ProcessPairs(cc, items, None).Ok? ==> |ProcessPairs(cc, items, None).value.0| == |items|
  {
    if ProcessPairs(cc, items, None).Ok? {
      assert forall i :: 0 <= i < |items| ==> ItemOutcome(cc, items[i], None).Ok?;
      ChosenAll(items, None);
    }
  }

  /** Filtering twice by the same split changes nothing. */
  lemma {:induction false} ChosenIdempotent(items: seq<Item>, split: Option<string>)
    ensures Chosen(Chosen(items, split), split) == Chosen(items, split)
  {
    ChosenAll(Chosen(items, split), split);
  }

  /** Filtering distributes over concatenation of item lists. */
  lemma {:induction false} ChosenConcat(a: seq<Item>, b: seq<Item>, split: Option<string>)
    ensures Chosen(a + b, split) == Chosen(a, split) + Chosen(b, split)
  {
    if |a| > 0 {
      var it := a[0];
      assert (a + b)[1..] == a[1..] + b;
      ChosenConcat(a[1..], b, split);
      ChosenHead(a + b, it, split);
      ChosenHead(a, it, split);
      ConcatAssoc(if HasTexts(it) && Keeps(split, it) then [it] else [], Chosen(a[1..], split), Chosen(b, split));
    } else {
      assert a + b == b;
    }
  }

  lemma ConcatAssoc<T>(x: seq<T>, y: seq<T>, z: seq<T>)
    ensures x + (y + z) == (x + y) + z
  {
  }

  /** The first item of a non-empty list is chosen or not on its own merits. */
  lemma ChosenHead(x: seq<Item>, it: Item, split: Option<string>)
    requires |x| > 0 && x[0] == it
    ensures Chosen(x, split) == (if HasTexts(it) && Keeps(split, it) then [it] else []) + Chosen(x[1..], split)
  {
    if !(HasTexts(it) && Keeps(split, it)) {
      assert [] + Chosen(x[1..], split) == Chosen(x[1..], split);
    }
  }

  // ---------------------------------------------------------------- the alignment line

  /** `f"{i}-{j}"` */
  function LinkText(l: (nat, nat)): string {
    NatToString(l.0) + "-" + NatToString(l.1)
  }

  /** The links of one sample, one string each. */
  function Links(al: seq<(nat, nat)>): (r: seq<string>)
    ensures |r| == |al|
    ensures forall k :: 0 <= k < |al| ==> r[k] == LinkText(al[k])
  {
    seq(|al|, k requires 0 <= k < |al| => LinkText(al[k]))
  }

  /** `' '.join([f"{i}-{j}" for i, j in alignment])` (prepare_for_alignment.py:221). */
  function AlignmentLine(al: seq<(nat, nat)>): string {
    Join(Links(al), ' ')
  }

  /** A link splits on `-` into the decimal forms of its two indices, which read back as
      the indices. */
  lemma LinkRoundTrip(l: (nat, nat))
    ensures Split(LinkText(l), '-') == [NatToString(l.0), NatToString(l.1)]
    ensures ParseDigits(Split(LinkText(l), '-')[0]) == l.0 && ParseDigits(Split(LinkText(l), '-')[1]) == l.1
  {
    var a, b := NatToString(l.0), NatToString(l.1);
    assert '-' !in a && '-' !in b by {
      assert forall i :: 0 <= i < |a| ==> IsDigit(a[i]);
      assert forall i :: 0 <= i < |b| ==> IsDigit(b[i]);
    }
    assert Join([a, b], '-') == LinkText(l) by {
      assert [a, b][1..] == [b];
    }
    SplitJoin([a, b], '-');
    ParseNatToString(l.0);
    ParseNatToString(l.1);
  }

  /** Distinct links have distinct texts. */
  lemma LinkTextInjective(l: (nat, nat), m: (nat, nat))
    ensures LinkText(l) == LinkText(m) ==> l == m
  {
    LinkRoundTrip(l);
    LinkRoundTrip(m);
  }

  /** A link is a non-empty run of digits and `-`, so `split()` keeps it whole. */
  lemma LinkSolid(cc: CharClass, l: (nat, nat))
    requires Valid(cc)
    ensures Solid(cc, LinkText(l))
    ensures 'p' !in LinkText(l)
  {
    var a, b := NatToString(l.0), NatToString(l.1);
    assert forall i :: 0 <= i < |a| ==> IsDigit(a[i]);
    assert forall i :: 0 <= i < |b| ==> IsDigit(b[i]);
    var t := LinkText(l);
    assert forall i :: 0 <= i < |t| ==> IsDigit(t[i]) || t[i] == '-' by {
      forall i | 0 <= i < |t|
        ensures IsDigit(t[i]) || t[i] == '-'
      {
        if i < |a| {
          assert t[i] == a[i];
        } else if i > |a| {
          assert t[i] == b[i - |a| - 1];
        }
      }
    }
  }

  /** Reading an alignment line back with `split()` gives its links, in order. */
  lemma AlignmentLineWords(cc: CharClass, al: seq<(nat, nat)>)
    requires Valid(cc)
    ensures Words(cc, AlignmentLine(al)) == Links(al)
  {
    forall k | 0 <= k < |al|
      ensures Solid(cc, Links(al)[k])
    {
      LinkSolid(cc, al[k]);
    }
    WordsJoin(cc, Links(al));
  }
}

=== FILE: parts.dfy ===
/**
 * Splitting a rewritten text into placeholder parts and plain-text parts (`to_parts`) and
 * reading a placeholder's span index back (`special_to_index`).
 */
module Parts {
  import opened Results
  import opened Text
  import opened Placeholders

  // ---------------------------------------------------------------- the regex ` ?§[0-9]+ ?`

  /** Length of the run of ASCII digits at the start of `s` (the greedy `[0-9]+`). */
  function DigitRun(s: string): (n: nat)
    ensures n <= |s| && AllDigits(s[..n])
    ensures n < |s| ==> !IsDigit(s[n])
  {
    if |s| > 0 && IsDigit(s[0]) then 1 + DigitRun(s[1..]) else 0
  }

  /** A match of `§[0-9]+ ?` that begins at position `i` of `s`: its end position. */
  function MatchFrom(s: string, i: nat): (r: Option<nat>)
    ensures r.Some? ==> i + 2 <= r.value <= |s|
  {
    if i + 1 < |s| && s[i] == Section && IsDigit(s[i + 1]) then
      var d := i + 1 + DigitRun(s[i + 1..]);
      if d < |s| && s[d] == ' ' then Some(d + 1) else Some(d)
    else None
  }

  /** The length of the match of ` ?§[0-9]+ ?` anchored at the start of `s`, if there is one.
      A leading space is taken only when `§` and a digit follow it; otherwise the optional
      space cannot help, because the match must then start with `§`. */
  function MatchLen(s: string): (r: Option<nat>)
    ensures r.Some? ==> 2 <= r.value <= |s|
  {
    if |s| > 0 && s[0] == ' ' then MatchFrom(s, 1) else MatchFrom(s, 0)
  }

  /** `t` is, as a whole, a string the regex ` ?§[0-9]+ ?` matches. */
  ghost predicate IsMatch(t: string) {
    exists lead: nat, digits: string, trail: nat :: lead <= 1 && trail <= 1 &&
      |digits| > 0 && AllDigits(digits) &&
      t == Spaces(lead) + [Section] + digits + Spaces(trail)
  }

  function Spaces(n: nat): string {
    seq(n, _ => ' ')
  }

  /** What `MatchLen` finds is a match, and the longest one at the start of `s`: unless it
      took a closing space, neither a digit nor a space follows it. */
  lemma MatchLenSound(s: string)
    requires MatchLen(s).Some?
    ensures IsMatch(s[..MatchLen(s).value])
    ensures var n := MatchLen(s).value; n < |s| ==> s[n - 1] == ' ' || (!IsDigit(s[n]) && s[n] != ' ')
  {
    var lead: nat := if s[0] == ' ' then 1 else 0;
    var m := DigitRun(s[lead + 1..]);
    var d := lead + 1 + m;
    assert m > 0 by {
      assert IsDigit(s[lead + 1..][0]);
    }
    var digits := s[lead + 1..d];
    assert digits == s[lead + 1..][..m];
    var trail: nat := if d < |s| && s[d] == ' ' then 1 else 0;
    var n := MatchLen(s).value;
    assert n == d + trail;
    assert s[..lead] == Spaces(lead);
    assert s[lead..lead + 1] == [Section];
    assert s[d..n] == Spaces(trail);
    assert s[..n] == s[..lead] + s[lead..lead + 1] + s[lead + 1..d] + s[d..n];
    IsMatchOf(lead, digits, trail);
    assert d < |s| ==> s[d] == s[lead + 1..][m];
  }

  lemma IsMatchOf(lead: nat, digits: string, trail: nat)
    requires lead <= 1 && trail <= 1 && |digits| > 0 && AllDigits(digits)
    ensures IsMatch(Spaces(lead) + [Section] + digits + Spaces(trail))
  {
  }

  /** No match starts at a character other than ` ` or `§`, nor at a ` ` not followed by `§`. */
  lemma MatchLenNone(s: string)
    requires |s| > 0 && s[0] != Section && (s[0] == ' ' ==> |s| == 1 || s[1] != Section)
    ensures MatchLen(s).None?
  {
  }

  /** `re.split(r'( ?§[0-9]+ ?)', s)`, with `acc` the text gathered since the last match:
      the texts between matches alternate with the matches themselves. */
  function Scan(s: string, acc: string): (r: seq<string>)
    ensures |r| % 2 == 1
    decreases |s|
  {
    if |s| == 0 then [acc]
    else match MatchLen(s)
      case Some(n) => [acc, s[..n]] + Scan(s[n..], "")
      case None => Scan(s[1..], acc + [s[0]])
  }

  /** All strings of a list, concatenated. */
  function Concat(ps: seq<string>): string {
    if |ps| == 0 then "" else ps[0] + Concat(ps[1..])
  }

  /** `re.split` with a capturing group loses no character: the pieces spell the input. */
  lemma {:induction false} ScanSpells(s: string, acc: string)
    ensures Concat(Scan(s, acc)) == acc + s
    decreases |s|
  {
    if |s| > 0 {
      match MatchLen(s)
      case Some(n) =>
        ScanSpells(s[n..], "");
        var rest := Scan(s[n..], "");
        assert Scan(s, acc) == [acc, s[..n]] + rest;
        assert "" + s[n..] == s[n..];
        SpellsCut(acc, s, n, rest);
      case None =>
        ScanSpells(s[1..], acc + [s[0]]);
        assert Scan(s, acc) == Scan(s[1..], acc + [s[0]]);
        assert acc + [s[0]] + s[1..] == acc + s;
    }
  }

  /** A match cut from `s` after `acc`, followed by pieces spelling the rest of `s`. */
  lemma SpellsCut(acc: string, s: string, n: nat, rest: seq<string>)
    requires n <= |s| && Concat(rest) == s[n..]
    ensures Concat([acc, s[..n]] + rest) == acc + s
  {
    ConcatCons(s[..n], rest);
    assert [acc, s[..n]] + rest == [acc] + ([s[..n]] + rest);
    ConcatCons(acc, [s[..n]] + rest);
    assert s[..n] + s[n..] == s;
  }

  lemma ConcatCons(p: string, ps: seq<string>)
    ensures Concat([p] + ps) == p + Concat(ps)
  {
    assert ([p] + ps)[1..] == ps;
  }

  /** `to_parts(text)` (prepare_for_alignment.py:66-72): split around placeholders, strip
      every piece and drop the empty ones. */
  function ToParts(cc: CharClass, text: string): (r: seq<string>)
    ensures forall k :: 0 <= k < |r| ==> Trimmed(cc, r[k])
  {
    CleanTrimmed(cc, Scan(text, ""));
    Clean(cc, Scan(text, ""))
  }

  /** Non-empty, with no whitespace at either end. */
  ghost predicate Trimmed(cc: CharClass, p: string) {
    |p| > 0 && !cc.isSpace(p[0]) && !cc.isSpace(p[|p| - 1])
  }

  /** Strip every piece and drop the empty ones. */
  function Clean(cc: CharClass, xs: seq<string>): seq<string> {
    if |xs| == 0 then []
    else
      var t := Strip(cc, xs[0]);
      (if |t| == 0 then [] else [t]) + Clean(cc, xs[1..])
  }

  lemma {:induction false} CleanTrimmed(cc: CharClass, xs: seq<string>)
    ensures forall k :: 0 <= k < |Clean(cc, xs)| ==> Trimmed(cc, Clean(cc, xs)[k])
  {
    if |xs| > 0 {
      CleanTrimmed(cc, xs[1..]);
      var t := Strip(cc, xs[0]);
      var h := if |t| == 0 then [] else [t];
      var r := Clean(cc, xs[1..]);
      assert Clean(cc, xs) == h + r;
      forall k | 0 <= k < |h + r|
        ensures Trimmed(cc, (h + r)[k])
      {
        if k >= |h| {
          assert (h + r)[k] == r[k - |h|];
        }
      }
    }
  }

  /** `Clean` is the two list comprehensions of `to_parts` one after the other. */
  lemma {:induction false} CleanIsStripThenDrop(cc: CharClass, xs: seq<string>)
    ensures Clean(cc, xs) == DropEmpty(StripAll(cc, xs))
  {
    if |xs| > 0 {
      CleanIsStripThenDrop(cc, xs[1..]);
      var ys := StripAll(cc, xs);
      assert ys[0] == Strip(cc, xs[0]);
      assert ys[1..] == StripAll(cc, xs[1..]);
      DropEmptyHead(ys);
    }
  }

  lemma {:induction false} CleanConcat(cc: CharClass, a: seq<string>, b: seq<string>)
    ensures Clean(cc, a + b) == Clean(cc, a) + Clean(cc, b)
  {
    if |a| > 0 {
      assert (a + b)[1..] == a[1..] + b;
      CleanConcat(cc, a[1..], b);
    } else {
      assert a + b == b;
    }
  }

  // ---------------------------------------------------------------- placeholder parts

  /** `part.lstrip().startswith('§')`; `part.strip().startswith('§')` is the same test,
      because stripping the right end never removes a non-space first character. */
  predicate IsPlaceholderPart(cc: CharClass, part: string) {
    var t := LStrip(cc, part);
    |t| > 0 && t[0] == Section
  }

  lemma StripStartsLikeLStrip(cc: CharClass, part: string)
    ensures IsPlaceholderPart(cc, part) <==> |Strip(cc, part)| > 0 && Strip(cc, part)[0] == Section
  {
  }

  /** The stripped placeholder of span `k`: `"§" + str(k)`. */
  function SlotText(k: nat): (r: string)
    ensures |r| >= 2 && r[0] == Section && AllDigits(r[1..]) && r[1..] == NatToString(k)
  {
    [Section] + NatToString(k)
  }

  /** A decimal digit of any script. */
  predicate IsDecimal(cc: CharClass, c: char) {
    0 <= cc.decimal(c)
  }

  /** The digits of an `int()` literal: decimal digits, where a single `_` may stand between
      two of them. */
  predicate IntDigits(cc: CharClass, b: string) {
    && |b| > 0 && IsDecimal(cc, b[0]) && IsDecimal(cc, b[|b| - 1])
    && (forall i :: 0 <= i < |b| ==> IsDecimal(cc, b[i]) || b[i] == '_')
    && (forall i :: 0 < i < |b| ==> NotTwoUnderscores(b, i))
  }

  /** Positions `i - 1` and `i` do not both hold `_`. */
  predicate NotTwoUnderscores(b: string, i: int)
    requires 0 < i < |b|
  {
    b[i - 1] != '_' || b[i] != '_'
  }

  /** The value of an `IntDigits` run, read left to right; underscores are skipped. */
  function RunValue(cc: CharClass, b: string): int
    decreases |b|
  {
    if |b| == 0 then 0
    else if b[|b| - 1] == '_' then RunValue(cc, b[..|b| - 1])
    else 10 * RunValue(cc, b[..|b| - 1]) + cc.decimal(b[|b| - 1])
  }

  /** A literal without its leading `+` or `-`. */
  function Unsigned(t: string): string {
    if |t| > 0 && (t[0] == '+' || t[0] == '-') then t[1..] else t
  }

  /** `v` carrying the sign of literal `t`: negated when `t` starts with `-`. */
  function Signed(t: string, v: int): int {
    if |t| > 0 && t[0] == '-' then -v else v
  }

  /** The information separators U+001C to U+001F: `\s` and `str.strip` count them as
      whitespace, but `int()` does not skip them. */
  predicate IsInfoSeparator(c: char) {
    '\U{1C}' <= c <= '\U{1F}'
  }

  /** The whitespace `int()` skips around a literal: `cc.isSpace` without the information
      separators. */
  function IntSpaces(cc: CharClass): CharClass {
    cc.(isSpace := c => cc.isSpace(c) && !IsInfoSeparator(c))
  }

  lemma IntSpace(cc: CharClass, c: char)
    ensures IntSpaces(cc).isSpace(c) <==> cc.isSpace(c) && !IsInfoSeparator(c)
  {
  }

  /** `int(s)` on a `str`. */
  function ParseInt(cc: CharClass, s: string): (r: Result<int, PyError>)
    ensures r.Err? ==> r.error.ValueError?
  {
    var t := Strip(IntSpaces(cc), s);
    var b := Unsigned(t);
    if IntDigits(cc, b) then Ok(Signed(t, RunValue(cc, b)))
    else Err(ValueError("invalid literal for int() with base 10"))
  }

  /** `s` is an `int` literal: whitespace `p`, an optional sign `sg`, the digits `b` and
      whitespace `q`. */
  predicate IntLiteral(cc: CharClass, s: string, p: string, sg: string, b: string, q: string) {
    && s == p + sg + b + q
    && Blank(IntSpaces(cc), p) && Blank(IntSpaces(cc), q)
    && (sg == "" || sg == "+" || sg == "-")
    && IntDigits(cc, b)
  }

  /** `int` reads a literal as the value of its digits, negated after a `-`. */
  lemma ParseIntLiteral(cc: CharClass, s: string, p: string, sg: string, b: string, q: string)
    requires Valid(cc) && IntLiteral(cc, s, p, sg, b, q)
    ensures ParseInt(cc, s) == Ok(if sg == "-" then -RunValue(cc, b) else RunValue(cc, b))
  {
    LiteralStrip(cc, s, p, sg, b, q);
    SignDigits(cc, sg, b, RunValue(cc, b));
    ParseLiteral(cc, s, sg + b, b);
  }

  /** Stripping a literal leaves its sign and digits. */
  lemma LiteralStrip(cc: CharClass, s: string, p: string, sg: string, b: string, q: string)
    requires Valid(cc) && IntLiteral(cc, s, p, sg, b, q)
    ensures Strip(IntSpaces(cc), s) == sg + b
  {
    var t := sg + b;
    assert s == p + t + q;
    assert t[|t| - 1] == b[|b| - 1] && IsDecimal(cc, b[|b| - 1]);
    assert t[0] == if sg == "" then b[0] else sg[0];
    assert IsDecimal(cc, b[0]);
    StripPadding(IntSpaces(cc), p, t, q);
  }

  /** The sign of a literal is read off its first character. */
  lemma SignDigits(cc: CharClass, sg: string, b: string, v: int)
    requires Valid(cc) && (sg == "" || sg == "+" || sg == "-") && |b| > 0 && IsDecimal(cc, b[0])
    ensures Unsigned(sg + b) == b && Signed(sg + b, v) == if sg == "-" then -v else v
  {
    if sg == "" {
      assert sg + b == b;
    } else {
      assert (sg + b)[0] == sg[0] && (sg + b)[1..] == b;
    }
  }

  /** The literal an accepted string is made of. */
  lemma LiteralOfOk(cc: CharClass, s: string) returns (p: string, sg: string, b: string, q: string)
    requires ParseInt(cc, s).Ok?
    ensures IntLiteral(cc, s, p, sg, b, q)
  {
    var t := Strip(IntSpaces(cc), s);
    OkDigits(cc, s);
    sg, b := SignOf(t);
    p, q := Padding(IntSpaces(cc), s);
    LiteralOf(cc, s, p, t, sg, b, q);
  }

  lemma OkDigits(cc: CharClass, s: string)
    requires ParseInt(cc, s).Ok?
    ensures IntDigits(cc, Unsigned(Strip(IntSpaces(cc), s)))
  {
  }

  /** A literal is its sign followed by its unsigned part. */
  lemma SignOf(t: string) returns (sg: string, b: string)
    ensures (sg == "" || sg == "+" || sg == "-") && b == Unsigned(t) && t == sg + b
  {
    if |t| > 0 && (t[0] == '+' || t[0] == '-') {
      sg, b := t[..1], t[1..];
      assert sg == [t[0]];
    } else {
      sg, b := "", t;
    }
  }

  /** The whitespace `strip` removes from either side of `s`. */
  lemma Padding(cc: CharClass, s: string) returns (p: string, q: string)
    ensures s == p + Strip(cc, s) + q && Blank(cc, p) && Blank(cc, q)
  {
    var a, t := StripStart(cc, s), Strip(cc, s);
    StripSplit(cc, s);
    p, q := s[..a], s[a + |t|..];
  }

  lemma LiteralOf(cc: CharClass, s: string, p: string, t: string, sg: string, b: string, q: string)
    requires s == p + t + q && t == sg + b && Blank(IntSpaces(cc), p) && Blank(IntSpaces(cc), q)
    requires (sg == "" || sg == "+" || sg == "-") && IntDigits(cc, b)
    ensures IntLiteral(cc, s, p, sg, b, q)
  {
    assert p + (sg + b) + q == p + sg + b + q;
  }

  /** `int` succeeds exactly on the strings that are literals; the other strings raise
      `ValueError`. */
  lemma ParseIntOkIsLiteral(cc: CharClass, s: string)
    requires Valid(cc)
    ensures ParseInt(cc, s).Ok? <==> exists p, sg, b, q :: IntLiteral(cc, s, p, sg, b, q)
    ensures ParseInt(cc, s).Err? ==> ParseInt(cc, s).error.ValueError?
  {
    if ParseInt(cc, s).Ok? {
      var p, sg, b, q := LiteralOfOk(cc, s);
    } else if exists p, sg, b, q :: IntLiteral(cc, s, p, sg, b, q) {
      var p, sg, b, q :| IntLiteral(cc, s, p, sg, b, q);
      ParseIntLiteral(cc, s, p, sg, b, q);
    }
  }

  /** Read as decimal digits, a run of ASCII digits has its usual value. */
  lemma {:induction false} RunValueDigits(cc: CharClass, d: string)
    requires Valid(cc) && AllDigits(d)
    ensures RunValue(cc, d) == ParseDigits(d)
    decreases |d|
  {
    if |d| > 0 {
      RunValueDigits(cc, d[..|d| - 1]);
    }
  }

  /** `int(str(n)) == n`, `int("+" + str(n)) == n` and `int("-" + str(n)) == -n`; more
      generally `int` reads every non-empty string of ASCII digits, leading zeros included,
      as its decimal value. */
  lemma ParseIntDecimal(cc: CharClass, d: string, n: nat)
    requires Valid(cc) && |d| > 0 && AllDigits(d)
    ensures ParseInt(cc, d) == Ok(ParseDigits(d))
    ensures ParseInt(cc, NatToString(n)) == Ok(n)
    ensures ParseInt(cc, "+" + NatToString(n)) == Ok(n)
    ensures ParseInt(cc, "-" + NatToString(n)) == Ok(-(n as int))
  {
    DigitsParse(cc, d);
    var e := NatToString(n);
    ParseNatToString(n);
    DigitsParse(cc, e);
    SignedParse(cc, '+', e);
    assert "+" + e == ['+'] + e;
    assert Signed(['+'], n) == n;
    SignedParse(cc, '-', e);
    assert "-" + e == ['-'] + e;
    assert Signed(['-'], n) == -(n as int);
  }

  /** A run of ASCII digits is a digit run of `int`, with its usual value. */
  lemma DigitsRun(cc: CharClass, d: string)
    requires Valid(cc) && |d| > 0 && AllDigits(d)
    ensures IntDigits(cc, d) && RunValue(cc, d) == ParseDigits(d)
  {
    forall i | 0 <= i < |d|
      ensures IsDecimal(cc, d[i])
    {
      assert IsDigit(d[i]);
    }
    RunValueDigits(cc, d);
  }

  /** A string whose stripped literal `t` has a digit run `b` after its sign. */
  lemma ParseLiteral(cc: CharClass, s: string, t: string, b: string)
    requires Strip(IntSpaces(cc), s) == t && Unsigned(t) == b && IntDigits(cc, b)
    ensures ParseInt(cc, s) == Ok(Signed(t, RunValue(cc, b)))
  {
  }

  lemma DigitsParse(cc: CharClass, d: string)
    requires Valid(cc) && |d| > 0 && AllDigits(d)
    ensures ParseInt(cc, d) == Ok(ParseDigits(d))
  {
    assert IsDigit(d[0]) && IsDigit(d[|d| - 1]);
    StripNoop(IntSpaces(cc), d);
    assert Unsigned(d) == d && Signed(d, ParseDigits(d)) == ParseDigits(d);
    DigitsRun(cc, d);
    ParseLiteral(cc, d, d, d);
  }

  lemma SignedParse(cc: CharClass, sign: char, d: string)
    requires Valid(cc) && |d| > 0 && AllDigits(d) && (sign == '+' || sign == '-')
    ensures ParseInt(cc, [sign] + d) == Ok(Signed([sign], ParseDigits(d)))
  {
    var t := [sign] + d;
    assert IsDigit(d[|d| - 1]) && t[|t| - 1] == d[|d| - 1];
    StripNoop(IntSpaces(cc), t);
    assert Unsigned(t) == d;
    DigitsRun(cc, d);
    ParseLiteral(cc, t, t, d);
    assert Signed(t, RunValue(cc, d)) == Signed([sign], ParseDigits(d));
  }

  /** What `int` makes of a few literals `special_to_index` can meet: a sign, an underscore
      between digits and surrounding whitespace are accepted. */
  lemma ParseIntAccepts()
    ensures ParseInt(Ascii, "+0") == Ok(0)
    ensures ParseInt(Ascii, "-1") == Ok(-1)
    ensures ParseInt(Ascii, "1_0") == Ok(10)
    ensures ParseInt(Ascii, " 7 ") == Ok(7)
  {
    SignedLiterals();
    Underscored();
    Padded();
  }

  lemma SignedLiterals()
    ensures ParseInt(Ascii, "+0") == Ok(0)
    ensures ParseInt(Ascii, "-1") == Ok(-1)
  {
    PlusZero();
    MinusOne();
  }

  lemma PlusZero()
    ensures ParseInt(Ascii, "+0") == Ok(0)
  {
    AsciiValid();
    SingleDigit(Ascii, '0');
    assert IntLiteral(Ascii, "+0", "", "+", "0", "");
    ParseIntLiteral(Ascii, "+0", "", "+", "0", "");
  }

  lemma MinusOne()
    ensures ParseInt(Ascii, "-1") == Ok(-1)
  {
    AsciiValid();
    SingleDigit(Ascii, '1');
    assert IntLiteral(Ascii, "-1", "", "-", "1", "");
    ParseIntLiteral(Ascii, "-1", "", "-", "1", "");
  }

  /** A single ASCII digit is a digit run with its value. */
  lemma SingleDigit(cc: CharClass, d: char)
    requires Valid(cc) && IsDigit(d)
    ensures IntDigits(cc, [d]) && RunValue(cc, [d]) == d as int - '0' as int
  {
    assert [d][..0] == "";
  }

  lemma Padded()
    ensures ParseInt(Ascii, " 7 ") == Ok(7)
  {
    AsciiValid();
    SingleDigit(Ascii, '7');
    IntSpace(Ascii, ' ');
    assert IntLiteral(Ascii, " 7 ", " ", "", "7", " ");
    ParseIntLiteral(Ascii, " 7 ", " ", "", "7", " ");
  }

  /** An underscore at either end, two underscores, a blank after the sign, an empty
      literal and a lone sign are refused. */
  lemma ParseIntRefuses()
    ensures ParseInt(Ascii, "_1").Err? && ParseInt(Ascii, "1_").Err? && ParseInt(Ascii, "1__0").Err?
    ensures ParseInt(Ascii, "- 1").Err? && ParseInt(Ascii, "").Err? && ParseInt(Ascii, "+").Err?
  {
    RefusesUnderscores();
    RefusesSpaceAfterSign();
    RefusesBareSign();
  }

  lemma RefusesUnderscores()
    ensures ParseInt(Ascii, "_1").Err? && ParseInt(Ascii, "1_").Err? && ParseInt(Ascii, "1__0").Err?
  {
    assert !IsDecimal(Ascii, '_');
    Refused("_1");
    assert Unsigned("_1") == "_1";
    Refused("1_");
    assert Unsigned("1_") == "1_";
    Refused("1__0");
    assert Unsigned("1__0") == "1__0";
    assert !NotTwoUnderscores("1__0", 2);
  }

  lemma RefusesSpaceAfterSign()
    ensures ParseInt(Ascii, "- 1").Err?
  {
    assert !IsDecimal(Ascii, ' ');
    Refused("- 1");
    assert Unsigned("- 1") == " 1";
  }

  lemma RefusesBareSign()
    ensures ParseInt(Ascii, "").Err? && ParseInt(Ascii, "+").Err?
  {
    Refused("+");
    assert Unsigned("+") == "";
  }

  /** `int` skips non-ASCII whitespace such as U+00A0, but refuses the information separator
      U+001C as padding, although `strip()` removes it. */
  lemma ParseIntSeparators()
    ensures Strip(Ascii, "\U{1C}0") == "0"
    ensures ParseInt(Ascii, "\U{1C}0").Err?
    ensures ParseInt(Ascii, "\U{A0}0") == Ok(0)
  {
    SeparatorStripped();
    SeparatorRefused();
    NoBreakSpaceSkipped();
  }

  lemma SeparatorStripped()
    ensures Strip(Ascii, "\U{1C}0") == "0"
  {
    assert "\U{1C}0" == "\U{1C}" + "0" + "";
    StripPadding(Ascii, "\U{1C}", "0", "");
  }

  lemma SeparatorRefused()
    ensures ParseInt(Ascii, "\U{1C}0").Err?
  {
    var s := "\U{1C}0";
    IntSpace(Ascii, s[0]);
    IntSpace(Ascii, s[1]);
    StripNoop(IntSpaces(Ascii), s);
    assert Unsigned(s) == s && !IsDecimal(Ascii, s[0]);
  }

  lemma NoBreakSpaceSkipped()
    ensures ParseInt(Ascii, "\U{A0}0") == Ok(0)
  {
    AsciiValid();
    assert "0"[..0] == "" && RunValue(Ascii, "0") == 0;
    assert "\U{A0}0" == "\U{A0}" + "" + "0" + "";
    IntSpace(Ascii, '\U{A0}');
    assert IntLiteral(Ascii, "\U{A0}0", "\U{A0}", "", "0", "");
    ParseIntLiteral(Ascii, "\U{A0}0", "\U{A0}", "", "0", "");
  }

  lemma Underscored()
    ensures ParseInt(Ascii, "1_0") == Ok(10)
  {
    var b := "1_0";
    IntSpace(Ascii, b[0]);
    IntSpace(Ascii, b[2]);
    StripNoop(IntSpaces(Ascii), b);
    assert Unsigned(b) == b;
    assert b[..2] == "1_" && b[..2][..1] == "1" && b[..2][..1][..0] == "";
    assert AsciiDecimal('1') == 1 && AsciiDecimal('0') == 0;
    assert RunValue(Ascii, "1") == 1;
    assert RunValue(Ascii, "1_") == 1;
    assert RunValue(Ascii, b) == 10;
    assert IntDigits(Ascii, b) by {
      assert NotTwoUnderscores(b, 1) && NotTwoUnderscores(b, 2);
    }
    assert Signed(b, 10) == 10;
    ParseLiteral(Ascii, b, b, b);
  }

  /** A literal with no blank at either end is parsed as it stands. */
  lemma Refused(t: string)
    requires |t| > 0 && !IsAsciiSpace(t[0]) && !IsAsciiSpace(t[|t| - 1])
    ensures Strip(IntSpaces(Ascii), t) == t
  {
    StripNoop(IntSpaces(Ascii), t);
  }

  /** `special_to_index(part)`: `int(part.strip()[1:])` (prepare_for_alignment.py:74-76);
      the value may be negative, and `list[k]` then counts from the end. */
  function SpecialToIndex(cc: CharClass, part: string): Result<int, PyError> {
    var t := Strip(cc, part);
    ParseInt(cc, if |t| == 0 then "" else t[1..])
  }

  /** `special_to_index("§" + str(k)) == k`, with or without the placeholder's spaces. */
  lemma SpecialToIndexSlot(cc: CharClass, k: nat)
    requires Valid(cc)
    ensures SpecialToIndex(cc, SlotText(k)) == Ok(k)
    ensures SpecialToIndex(cc, PlaceholderText(k)) == Ok(k)
  {
    var d := NatToString(k);
    StripNoop(cc, SlotText(k));
    ParseIntDecimal(cc, d, k);
    ParseNatToString(k);
    StripPlaceholder(cc, k);
  }

  /** Stripping the placeholder ` §k ` leaves `§k`. */
  lemma StripPlaceholder(cc: CharClass, k: nat)
    requires Valid(cc)
    ensures Strip(cc, PlaceholderText(k)) == SlotText(k)
  {
    var d := NatToString(k);
    var t := [Section] + d;
    assert t == SlotText(k);
    assert PlaceholderText(k) == " " + t + " ";
    assert t[|t| - 1] == d[|d| - 1];
    assert IsDigit(d[|d| - 1]);
    StripPadded(cc, t);
  }

  /** Stripping one space from each side of a string that has no whitespace at its ends. */
  lemma StripPadded(cc: CharClass, t: string)
    requires cc.isSpace(' ') && |t| > 0 && !cc.isSpace(t[0]) && !cc.isSpace(t[|t| - 1])
    ensures Strip(cc, " " + t + " ") == t
  {
    var p := " " + t + " ";
    assert p[1..] == t + " ";
    assert LStrip(cc, t + " ") == t + " ";
    assert LStrip(cc, p) == t + " ";
    assert (t + " ")[..|t|] == t;
    assert RStrip(cc, t + " ") == RStrip(cc, t);
    assert RStrip(cc, t) == t;
  }

  // ---------------------------------------------------------------- parts of a rewritten text

  /** No copied character is the marker character. */
  predicate NoSectionChars(ps: seq<Piece>) {
    forall i :: 0 <= i < |ps| ==> ps[i].Char? ==> ps[i].c != Section
  }

  /** Reference splitting of a piece list: runs of copied characters alternate with the
      placeholder texts. */
  function RefSplit(ps: seq<Piece>, acc: string): seq<string> {
    if |ps| == 0 then [acc]
    else match ps[0]
      case Char(c) => RefSplit(ps[1..], acc + [c])
      case Marker(k) => [acc, PlaceholderText(k)] + RefSplit(ps[1..], "")
  }

  lemma RenderFirst(ps: seq<Piece>)
    requires NoSectionChars(ps) && |ps| > 0
    ensures |Render(ps)| > 0 && Render(ps)[0] != Section
    ensures Render(ps) == PieceText(ps[0]) + Render(ps[1..])
  {
  }

  lemma MatchPlaceholder(k: nat, rest: string)
    ensures MatchLen(PlaceholderText(k) + rest) == Some(|PlaceholderText(k)|)
  {
    var s := PlaceholderText(k) + rest;
    var d := NatToString(k);
    assert s[1] == Section && IsDigit(s[2]);
    assert s[2..] == d + " " + rest;
    DigitRunExact(d, " " + rest);
    assert s[2 + |d|] == ' ';
    assert s[0] == ' ';
    assert MatchFrom(s, 1) == Some(3 + |d|);
  }

  /** The digit run of `d + rest` is `d` when `rest` does not start with a digit. */
  lemma DigitRunExact(d: string, rest: string)
    requires AllDigits(d) && |rest| > 0 && !IsDigit(rest[0])
    ensures DigitRun(d + rest) == |d|
  {
    var s := d + rest;
    var n := DigitRun(s);
    assert s[|d|] == rest[0];
    assert forall j :: 0 <= j < |d| ==> s[j] == d[j];
  }

  /** Scanning a rendered piece list finds exactly the placeholders the pieces hold. */
  lemma {:induction false} ScanRender(ps: seq<Piece>, acc: string)
    requires NoSectionChars(ps)
    ensures Scan(Render(ps), acc) == RefSplit(ps, acc)
    decreases |ps|
  {
    if |ps| > 0 {
      RenderFirst(ps);
      var s := Render(ps);
      var rest := Render(ps[1..]);
      assert NoSectionChars(ps[1..]) by {
        assert forall i :: 0 <= i < |ps| - 1 ==> ps[1..][i] == ps[i + 1];
      }
      match ps[0]
      case Char(c) =>
        ScanRender(ps[1..], acc + [c]);
        assert c != Section;
        if |rest| > 0 {
          RenderFirst(ps[1..]);
          if ps[1].Marker? {
            assert rest[0] == ' ';
          }
        }
        MatchLenNone(s);
        assert s[1..] == rest;
      case Marker(k) =>
        ScanRender(ps[1..], "");
        MatchPlaceholder(k, rest);
        var n := |PlaceholderText(k)|;
        assert s[..n] == PlaceholderText(k) && s[n..] == rest;
    }
  }

  /** The placeholder parts of a part list, in order. */
  function Slots(cc: CharClass, parts: seq<string>): (r: seq<string>)
    ensures |r| <= |parts|
    ensures forall k :: 0 <= k < |r| ==> IsPlaceholderPart(cc, r[k])
  {
    if |parts| == 0 then []
    else if IsPlaceholderPart(cc, parts[0]) then [parts[0]] + Slots(cc, parts[1..])
    else Slots(cc, parts[1..])
  }

  lemma {:induction false} SlotsConcat(cc: CharClass, a: seq<string>, b: seq<string>)
    ensures Slots(cc, a + b) == Slots(cc, a) + Slots(cc, b)
  {
    if |a| > 0 {
      assert (a + b)[1..] == a[1..] + b;
      SlotsConcat(cc, a[1..], b);
    } else {
      assert a + b == b;
    }
  }

  /** The stripped placeholders of a list of span indices. */
  function SlotTexts(ms: seq<nat>): (r: seq<string>)
    ensures |r| == |ms|
    ensures forall i :: 0 <= i < |ms| ==> r[i] == SlotText(ms[i])
  {
    if |ms| == 0 then [] else [SlotText(ms[0])] + SlotTexts(ms[1..])
  }

  /** Every part holds a `§` only as a placeholder part. */
  ghost predicate PlainWithoutSection(cc: CharClass, parts: seq<string>) {
    forall k :: 0 <= k < |parts| && !IsPlaceholderPart(cc, parts[k]) ==> Section !in parts[k]
  }

  /** Stripping never introduces a character. */
  lemma StripKeepsOut(cc: CharClass, s: string, c: char)
    requires c !in s
    ensures c !in Strip(cc, s)
  {
    var t := Strip(cc, s);
    var a := StripStart(cc, s);
    assert forall i :: 0 <= i < |t| ==> t[i] == s[a + i];
  }

  lemma NoSectionNotSlot(cc: CharClass, t: string)
    requires Section !in t
    ensures !IsPlaceholderPart(cc, t)
  {
    var u := LStrip(cc, t);
    if |u| > 0 {
      assert u[0] == t[|t| - |u|];
    }
  }

  /** A plain stretch of text: its cleaned form is at most one part, and not a placeholder. */
  lemma CleanPlain(cc: CharClass, acc: string)
    requires Section !in acc
    ensures Slots(cc, Clean(cc, [acc])) == []
    ensures PlainWithoutSection(cc, Clean(cc, [acc]))
  {
    var t := Strip(cc, acc);
    StripKeepsOut(cc, acc, Section);
    NoSectionNotSlot(cc, t);
    assert Clean(cc, [acc]) == if |t| == 0 then [] else [t];
  }

  /** The cleaned placeholder ` §k ` is the single placeholder part `§k`. */
  lemma CleanPlaceholder(cc: CharClass, k: nat)
    requires Valid(cc)
    ensures Clean(cc, [PlaceholderText(k)]) == [SlotText(k)]
    ensures IsPlaceholderPart(cc, SlotText(k))
  {
    StripPlaceholder(cc, k);
    assert StripAll(cc, [PlaceholderText(k)]) == [SlotText(k)];
    StripNoop(cc, SlotText(k));
    assert LStrip(cc, SlotText(k)) == SlotText(k);
  }

  lemma {:induction false} RefSplitSlots(cc: CharClass, ps: seq<Piece>, acc: string)
    requires Valid(cc) && NoSectionChars(ps) && Section !in acc
    ensures Slots(cc, Clean(cc, RefSplit(ps, acc))) == SlotTexts(Markers(ps))
    decreases |ps|
  {
    if |ps| == 0 {
      CleanPlain(cc, acc);
    } else {
      NoSectionTail(ps);
      match ps[0]
      case Char(c) =>
        RefSplitSlots(cc, ps[1..], acc + [c]);
      case Marker(k) =>
        RefSplitSlots(cc, ps[1..], "");
        var tail := RefSplit(ps[1..], "");
        CleanMarkerStep(cc, acc, k, tail);
        CleanPlain(cc, acc);
        CleanPlaceholder(cc, k);
        SlotsMarkerStep(cc, Clean(cc, [acc]), SlotText(k), Clean(cc, tail));
        assert Markers(ps) == [k] + Markers(ps[1..]);
        assert ([k] + Markers(ps[1..]))[1..] == Markers(ps[1..]);
    }
  }

  lemma {:induction false} RefSplitPlain(cc: CharClass, ps: seq<Piece>, acc: string)
    requires Valid(cc) && NoSectionChars(ps) && Section !in acc
    ensures PlainWithoutSection(cc, Clean(cc, RefSplit(ps, acc)))
    decreases |ps|
  {
    if |ps| == 0 {
      CleanPlain(cc, acc);
    } else {
      NoSectionTail(ps);
      match ps[0]
      case Char(c) =>
        RefSplitPlain(cc, ps[1..], acc + [c]);
      case Marker(k) =>
        RefSplitPlain(cc, ps[1..], "");
        var tail := RefSplit(ps[1..], "");
        CleanMarkerStep(cc, acc, k, tail);
        CleanPlain(cc, acc);
        CleanPlaceholder(cc, k);
        var a := Clean(cc, [acc]);
        var b := Clean(cc, tail);
        PlainConcat(cc, a, [SlotText(k)]);
        PlainConcat(cc, a + [SlotText(k)], b);
    }
  }

  lemma SlotsMarkerStep(cc: CharClass, a: seq<string>, p: string, b: seq<string>)
    requires Slots(cc, a) == [] && IsPlaceholderPart(cc, p)
    ensures Slots(cc, a + [p] + b) == [p] + Slots(cc, b)
  {
    SlotsConcat(cc, a + [p], b);
    SlotsConcat(cc, a, [p]);
    assert Slots(cc, [p]) == [p];
  }

  lemma NoSectionTail(ps: seq<Piece>)
    requires NoSectionChars(ps) && |ps| > 0
    ensures NoSectionChars(ps[1..])
    ensures ps[0].Char? ==> ps[0].c != Section
  {
    assert forall i :: 0 <= i < |ps| - 1 ==> ps[1..][i] == ps[i + 1];
  }

  lemma CleanMarkerStep(cc: CharClass, acc: string, k: nat, tail: seq<string>)
    requires Valid(cc)
    ensures Clean(cc, [acc, PlaceholderText(k)] + tail) == Clean(cc, [acc]) + [SlotText(k)] + Clean(cc, tail)
  {
    assert [acc, PlaceholderText(k)] + tail == [acc] + [PlaceholderText(k)] + tail;
    CleanConcat(cc, [acc] + [PlaceholderText(k)], tail);
    CleanConcat(cc, [acc], [PlaceholderText(k)]);
    CleanPlaceholder(cc, k);
  }

  lemma PlainConcat(cc: CharClass, a: seq<string>, b: seq<string>)
    requires PlainWithoutSection(cc, a) && PlainWithoutSection(cc, b)
    ensures PlainWithoutSection(cc, a + b)
  {
    assert forall k :: 0 <= k < |b| ==> (a + b)[|a| + k] == b[k];
  }

  lemma {:induction false} RewriteNoSection(text: string, mask: seq<int>, i: nat, last: int)
    requires |mask| == |text| && i <= |text|
    requires forall j :: 0 <= j < |mask| ==> -1 <= mask[j]
    requires Section !in text
    ensures NoSectionChars(Rewrite(text, mask, i, last))
    decreases |text| - i
  {
    if i < |text| {
      if mask[i] == -1 {
        RewriteNoSection(text, mask, i + 1, last);
        assert text[i] != Section;
        NoSectionConcat([Char(text[i])], Rewrite(text, mask, i + 1, last));
      } else if mask[i] != last {
        RewriteNoSection(text, mask, i + 1, mask[i]);
        NoSectionConcat([Marker(mask[i])], Rewrite(text, mask, i + 1, mask[i]));
      } else {
        RewriteNoSection(text, mask, i + 1, last);
      }
    }
  }

  lemma NoSectionConcat(a: seq<Piece>, b: seq<Piece>)
    requires NoSectionChars(a) && NoSectionChars(b)
    ensures NoSectionChars(a + b)
  {
    assert forall j :: 0 <= j < |b| ==> (a + b)[|a| + j] == b[j];
  }

  /** The parts of a rewritten text (`to_parts(replace_tokens(text, ...)[0])`): its
      placeholder parts are `§k` for the placeholders the rewrite emitted, in order, and no
      other part holds a `§`. */
  lemma PlaceholderParts(cc: CharClass, text: string, rs: seq<Range>)
    requires Valid(cc) && AllInBounds(rs, |text|) && Section !in text
    ensures Slots(cc, ToParts(cc, Render(ReplacePieces(text, rs)))) == SlotTexts(Markers(ReplacePieces(text, rs)))
    ensures PlainWithoutSection(cc, ToParts(cc, Render(ReplacePieces(text, rs))))
  {
    var ps := ReplacePieces(text, rs);
    RewriteNoSection(text, Mask(|text|, rs), 0, -1);
    ScanRender(ps, "");
    RefSplitSlots(cc, ps, "");
    RefSplitPlain(cc, ps, "");
  }
}

=== FILE: placeholders.dfy ===
/**
 * The span masker and placeholder rewriter of the alignment builder (`replace_tokens`):
 * every span's characters are marked with the span's index, and each run of marked
 * characters is replaced by a ` §k ` placeholder.
 */
module Placeholders {
  import opened Text

  /** A half-open character range `[start, end)` as the span list stores it. */
  datatype Range = Range(start: int, end: int)

  /** One annotated span: its range in the source text and its range in the target text. */
  datatype SpanPair = SpanPair(src: Range, trg: Range)

  /** One element of the rewritten text: a character copied through, or the placeholder of span `k`. */
  datatype Piece = Char(c: char) | Marker(k: nat)

  /** Both ends lie in `[0, n]`. A reversed range (`start > end`) is allowed: Python's slice and
      `range` are then empty, so it covers nothing and its text is `""`. */
  predicate InBounds(r: Range, n: int) {
    0 <= r.start && 0 <= r.end <= n
  }

  /** `text[start:end]` for a range in bounds. */
  function SpanText(text: string, r: Range): (t: string)
    requires InBounds(r, |text|)
    ensures |t| == if r.start < r.end then r.end - r.start else 0
    ensures forall j :: 0 <= j < |t| ==> t[j] == text[r.start + j]
  {
    if r.start <= r.end then text[r.start..r.end] else ""
  }

  predicate AllInBounds(rs: seq<Range>, n: int) {
    forall k :: 0 <= k < |rs| ==> InBounds(rs[k], n)
  }

  predicate Covers(r: Range, j: int) {
    r.start <= j < r.end
  }

  /** prepare_for_alignment.py:46: the ranges of one side (`pair[0]` for the source). */
  function SideRanges(pairs: seq<SpanPair>, isSource: bool): (rs: seq<Range>)
    ensures |rs| == |pairs|
    ensures forall k :: 0 <= k < |pairs| ==> rs[k] == if isSource then pairs[k].src else pairs[k].trg
  {
    seq(|pairs|, k requires 0 <= k < |pairs| => if isSource then pairs[k].src else pairs[k].trg)
  }

  /** prepare_for_alignment.py:48-54: spans paint their index over their characters, in list
      order; `-1` marks a character outside every span. */
  function Mask(n: nat, rs: seq<Range>): (m: seq<int>)
    requires AllInBounds(rs, n)
    ensures |m| == n
    ensures forall j :: 0 <= j < n ==> -1 <= m[j] < |rs|
    ensures forall j :: 0 <= j < n ==> (m[j] == -1 <==> forall k :: 0 <= k < |rs| ==> !Covers(rs[k], j))
    ensures forall j :: 0 <= j < n && m[j] >= 0 ==>
      Covers(rs[m[j]], j) && forall k :: m[j] < k < |rs| ==> !Covers(rs[k], j)
    decreases |rs|
  {
    if |rs| == 0 then seq(n, _ => -1)
    else
      var k := |rs| - 1;
      var prev := Mask(n, rs[..k]);
      seq(n, j requires 0 <= j < n => if Covers(rs[k], j) then k else prev[j])
  }

  /** prepare_for_alignment.py:55-62: walk the mask; unmasked characters pass through, and a
      masked character emits a placeholder only when its index differs from the last one
      emitted (`last` is not reset by unmasked characters). */
  function Rewrite(text: string, mask: seq<int>, i: nat, last: int): seq<Piece>
    requires |mask| == |text| && i <= |text|
    requires forall j :: 0 <= j < |mask| ==> -1 <= mask[j]
    decreases |text| - i
  {
    if i == |text| then []
    else if mask[i] == -1 then [Char(text[i])] + Rewrite(text, mask, i + 1, last)
    else if mask[i] != last then [Marker(mask[i])] + Rewrite(text, mask, i + 1, mask[i])
    else Rewrite(text, mask, i + 1, last)
  }

  /** The placeholder string `f" §{k} "`. */
  function PlaceholderText(k: nat): string {
    " " + [Section] + NatToString(k) + " "
  }

  function PieceText(p: Piece): string {
    match p
    case Char(c) => [c]
    case Marker(k) => PlaceholderText(k)
  }

  /** `''.join(chars)` */
  function Render(ps: seq<Piece>): string {
    if |ps| == 0 then "" else PieceText(ps[0]) + Render(ps[1..])
  }

  /** The rewritten text as pieces. */
  function ReplacePieces(text: string, rs: seq<Range>): seq<Piece>
    requires AllInBounds(rs, |text|)
  {
    Rewrite(text, Mask(|text|, rs), 0, -1)
  }

  /** `replace_tokens(text, span_indexes, is_source)`: the rewritten text and, per span, its
      literal text (prepare_for_alignment.py:43-64). */
  function ReplaceTokens(text: string, pairs: seq<SpanPair>, isSource: bool): (r: (string, seq<string>))
    requires AllInBounds(SideRanges(pairs, isSource), |text|)
    ensures |r.1| == |pairs|
    ensures forall k :: 0 <= k < |pairs| ==>
      var g := if isSource then pairs[k].src else pairs[k].trg; r.1[k] == SpanText(text, g)
  {
    var rs := SideRanges(pairs, isSource);
    var spans := seq(|rs|, k requires 0 <= k < |rs| && InBounds(rs[k], |text|) => SpanText(text, rs[k]));
    (Render(ReplacePieces(text, rs)), spans)
  }

  // ---------------------------------------------------------------- characters pass through

  /** The characters of `text[i..]` that no span covers, in order. */
  function Unmasked(text: string, mask: seq<int>, i: nat): string
    requires |mask| == |text| && i <= |text|
    decreases |text| - i
  {
    if i == |text| then ""
    else if mask[i] == -1 then [text[i]] + Unmasked(text, mask, i + 1)
    else Unmasked(text, mask, i + 1)
  }

  /** The copied characters of a piece list. */
  function Chars(ps: seq<Piece>): string {
    if |ps| == 0 then ""
    else match ps[0]
      case Char(c) => [c] + Chars(ps[1..])
      case Marker(_) => Chars(ps[1..])
  }

  function Markers(ps: seq<Piece>): seq<nat> {
    if |ps| == 0 then []
    else match ps[0]
      case Char(_) => Markers(ps[1..])
      case Marker(k) => [k] + Markers(ps[1..])
  }

  lemma {:induction false} CharsConcat(a: seq<Piece>, b: seq<Piece>)
    ensures Chars(a + b) == Chars(a) + Chars(b)
    ensures Markers(a + b) == Markers(a) + Markers(b)
  {
    if |a| > 0 {
      assert (a + b)[1..] == a[1..] + b;
      CharsConcat(a[1..], b);
    } else {
      assert a + b == b;
    }
  }

  /** Deleting the placeholders leaves exactly the unmasked characters, verbatim and in order. */
  lemma {:induction false} RewriteKeepsUnmasked(text: string, mask: seq<int>, i: nat, last: int)
    requires |mask| == |text| && i <= |text|
    requires forall j :: 0 <= j < |mask| ==> -1 <= mask[j]
    ensures Chars(Rewrite(text, mask, i, last)) == Unmasked(text, mask, i)
    decreases |text| - i
  {
    if i < |text| {
      var next := if mask[i] != -1 && mask[i] != last then mask[i] else last;
      RewriteKeepsUnmasked(text, mask, i + 1, next);
      var ps := Rewrite(text, mask, i + 1, next);
      if mask[i] == -1 {
        CharsConcat([Char(text[i])], ps);
      } else if mask[i] != last {
        CharsConcat([Marker(mask[i])], ps);
      }
    }
  }

  /** Every placeholder names a mask value, and so a span of the list. */
  lemma {:induction false} RewriteMarkersInRange(text: string, mask: seq<int>, i: nat, last: int, n: nat)
    requires |mask| == |text| && i <= |text|
    requires forall j :: 0 <= j < |mask| ==> -1 <= mask[j] < n
    ensures forall a :: 0 <= a < |Markers(Rewrite(text, mask, i, last))| ==> Markers(Rewrite(text, mask, i, last))[a] < n
    decreases |text| - i
  {
    if i < |text| {
      var next := if mask[i] != -1 && mask[i] != last then mask[i] else last;
      RewriteMarkersInRange(text, mask, i + 1, next, n);
      var ps := Rewrite(text, mask, i + 1, next);
      if mask[i] != -1 && mask[i] != last {
        assert Rewrite(text, mask, i, last) == [Marker(mask[i])] + ps;
        assert ([Marker(mask[i])] + ps)[1..] == ps;
        assert Markers(Rewrite(text, mask, i, last)) == [mask[i]] + Markers(ps);
      } else if mask[i] == -1 {
        assert Rewrite(text, mask, i, last) == [Char(text[i])] + ps;
        assert ([Char(text[i])] + ps)[1..] == ps;
      }
    }
  }

  // ---------------------------------------------------------------- well-formed span lists

  /** No two spans share a character. */
  predicate Disjoint(rs: seq<Range>) {
    forall a, b :: 0 <= a < b < |rs| ==> rs[a].end <= rs[b].start || rs[b].end <= rs[a].start
  }

  predicate NonEmpty(rs: seq<Range>) {
    forall k :: 0 <= k < |rs| ==> rs[k].start < rs[k].end
  }

  /** The first span covering position `j`, or `-1`. */
  function Owner(rs: seq<Range>, j: int): (k: int)
    ensures -1 <= k < |rs|
    ensures k == -1 <==> forall x :: 0 <= x < |rs| ==> !Covers(rs[x], j)
    ensures k >= 0 ==> Covers(rs[k], j)
  {
    if |rs| == 0 then -1
    else if Covers(rs[0], j) then 0
    else var k := Owner(rs[1..], j); if k == -1 then -1 else k + 1
  }

  /** Two disjoint spans cannot both cover a position. */
  lemma DisjointCover(rs: seq<Range>, a: int, b: int, j: int)
    requires Disjoint(rs) && 0 <= a < |rs| && 0 <= b < |rs|
    requires Covers(rs[a], j) && Covers(rs[b], j)
    ensures a == b
  {
  }

  /** With disjoint spans the mask holds, at each position, the span covering it. */
  lemma MaskIsOwner(n: nat, rs: seq<Range>, j: nat)
    requires AllInBounds(rs, n) && Disjoint(rs) && j < n
    ensures Mask(n, rs)[j] == Owner(rs, j)
  {
    var m := Mask(n, rs)[j];
    var o := Owner(rs, j);
    if m >= 0 && o >= 0 {
      DisjointCover(rs, m, o, j);
    }
  }

  /** The index emitted most recently before position `i` by the walk of lines 57-62. */
  ghost function LastMasked(mask: seq<int>, i: nat): int
    requires i <= |mask|
  {
    if i == 0 then -1
    else if mask[i - 1] != -1 then mask[i - 1]
    else LastMasked(mask, i - 1)
  }

  lemma {:induction false} LastMaskedWitness(mask: seq<int>, i: nat)
    requires i <= |mask|
    ensures LastMasked(mask, i) == -1 || exists j :: 0 <= j < i && mask[j] == LastMasked(mask, i)
  {
    if i > 0 && mask[i - 1] == -1 {
      LastMaskedWitness(mask, i - 1);
    }
  }

  /** What position `i` contributes to the rewrite of a disjoint span list: an uncovered
      character is copied, the first character of span `k` becomes its placeholder, and every
      other covered character disappears. */
  function Here(text: string, rs: seq<Range>, i: nat): (r: seq<Piece>)
    requires i < |text|
    ensures forall a :: 0 <= a < |Markers(r)| ==> Markers(r)[a] < |rs| && rs[Markers(r)[a]].start == i
    ensures |Markers(r)| <= 1
  {
    var k := Owner(rs, i);
    if k == -1 then [Char(text[i])] else if i == rs[k].start then [Marker(k)] else []
  }

  /** The rewrite of a disjoint span list, described position by position. */
  function RefPieces(text: string, rs: seq<Range>, i: nat): seq<Piece>
    requires i <= |text|
    decreases |text| - i
  {
    if i == |text| then [] else Here(text, rs, i) + RefPieces(text, rs, i + 1)
  }

  /** For disjoint spans the walk of lines 57-62 is the positional description `RefPieces`. */
  lemma {:induction false} RewriteIsRef(text: string, rs: seq<Range>, i: nat, last: int)
    requires AllInBounds(rs, |text|) && Disjoint(rs) && i <= |text|
    requires last == LastMasked(Mask(|text|, rs), i)
    ensures Rewrite(text, Mask(|text|, rs), i, last) == RefPieces(text, rs, i)
    decreases |text| - i
  {
    var mask := Mask(|text|, rs);
    if i < |text| {
      MaskIsOwner(|text|, rs, i);
      var k := mask[i];
      if k == -1 {
        RewriteIsRef(text, rs, i + 1, last);
      } else {
        if i == rs[k].start {
          LastMaskedWitness(mask, i);
          if last != -1 {
            var j :| 0 <= j < i && mask[j] == last;
            MaskIsOwner(|text|, rs, j);
            assert last != k;
          }
        } else {
          MaskIsOwner(|text|, rs, i - 1);
          assert Covers(rs[k], i - 1);
          assert last == k;
        }
        RewriteIsRef(text, rs, i + 1, k);
      }
    }
  }

  /** The placeholders of `RefPieces(text, rs, i)` are spans starting at or after `i`, in
      increasing order of start. */
  lemma {:induction false} RefMarkersSorted(text: string, rs: seq<Range>, i: nat)
    requires i <= |text|
    ensures SortedFrom(rs, Markers(RefPieces(text, rs, i)), i)
    decreases |text| - i
  {
    if i < |text| {
      RefMarkersSorted(text, rs, i + 1);
      var here := Here(text, rs, i);
      var rest := RefPieces(text, rs, i + 1);
      CharsConcat(here, rest);
      SortedConcat(rs, Markers(here), Markers(rest), i);
    }
  }

  /** Span indices, all of spans starting at or after `i`, in strictly increasing order of start. */
  ghost predicate SortedFrom(rs: seq<Range>, m: seq<nat>, i: int) {
    && (forall a :: 0 <= a < |m| ==> m[a] < |rs| && rs[m[a]].start >= i)
    && (forall a, b :: 0 <= a < b < |m| ==> rs[m[a]].start < rs[m[b]].start)
  }

  lemma SortedConcat(rs: seq<Range>, h: seq<nat>, t: seq<nat>, i: nat)
    requires |h| <= 1
    requires forall a :: 0 <= a < |h| ==> h[a] < |rs| && rs[h[a]].start == i
    requires SortedFrom(rs, t, i + 1)
    ensures SortedFrom(rs, h + t, i)
  {
    var m := h + t;
    forall a, b | 0 <= a < b < |m|
      ensures rs[m[a]].start < rs[m[b]].start
    {
      if a < |h| {
        assert m[b] == t[b - |h|];
      } else {
        assert m[a] == t[a - |h|] && m[b] == t[b - |h|];
      }
    }
  }

  /** Every span starting at or after `i` has a placeholder in `RefPieces(text, rs, i)`. */
  lemma {:induction false} RefMarkersComplete(text: string, rs: seq<Range>, i: nat)
    requires AllInBounds(rs, |text|) && Disjoint(rs) && NonEmpty(rs) && i <= |text|
    ensures forall k :: 0 <= k < |rs| && rs[k].start >= i ==> k in Markers(RefPieces(text, rs, i))
    decreases |text| - i
  {
    if i < |text| {
      RefMarkersComplete(text, rs, i + 1);
      var k := Owner(rs, i);
      var here := Here(text, rs, i);
      var rest := RefPieces(text, rs, i + 1);
      CharsConcat(here, rest);
      var m := Markers(RefPieces(text, rs, i));
      assert m == Markers(here) + Markers(rest);
      forall x | 0 <= x < |rs| && rs[x].start >= i
        ensures x in m
      {
        if rs[x].start == i {
          assert Covers(rs[x], i);
          DisjointCover(rs, x, k, i);
          assert Markers(here) == [x];
        } else {
          assert x in Markers(rest);
        }
      }
    }
  }

  /** The elements of a list, as a set. */
  ghost function Elems(m: seq<nat>): set<nat> {
    set x | x in m
  }

  lemma {:induction false} DistinctCard(m: seq<nat>)
    requires forall a, b :: 0 <= a < b < |m| ==> m[a] != m[b]
    ensures |Elems(m)| == |m|
  {
    if |m| > 0 {
      DistinctCard(m[1..]);
      var tail := Elems(m[1..]);
      assert Elems(m) == tail + {m[0]};
      assert m[0] !in tail;
      assert |tail + {m[0]}| == |tail| + 1;
    } else {
      assert Elems(m) == {};
    }
  }

  /** The set `{0, ..., n-1}`. */
  function Below(n: nat): (r: set<nat>)
    ensures forall x: int :: x in r <==> 0 <= x < n
    ensures |r| == n
  {
    if n == 0 then {} else
      var p := Below(n - 1);
      assert n - 1 !in p;
      assert |p + {n - 1}| == |p| + 1;
      p + {n - 1}
  }

  /** A repetition-free list whose elements are exactly `0..n-1` has length `n`. */
  lemma DistinctCovering(m: seq<nat>, n: nat)
    requires forall a, b :: 0 <= a < b < |m| ==> m[a] != m[b]
    requires forall a :: 0 <= a < |m| ==> m[a] < n
    requires forall k :: 0 <= k < n ==> k in m
    ensures |m| == n
  {
    DistinctCard(m);
    assert Elems(m) == Below(n);
  }

  /** For in-bounds, non-empty, disjoint spans the rewritten text holds exactly one
      placeholder per span, in increasing order of the spans' starts. */
  lemma OnePlaceholderPerSpan(text: string, rs: seq<Range>)
    requires AllInBounds(rs, |text|) && Disjoint(rs) && NonEmpty(rs)
    ensures var m := Markers(ReplacePieces(text, rs));
      && |m| == |rs|
      && (forall a :: 0 <= a < |m| ==> m[a] < |rs|)
      && (forall k :: 0 <= k < |rs| ==> k in m)
      && (forall a, b :: 0 <= a < b < |m| ==> rs[m[a]].start < rs[m[b]].start)
  {
    RewriteIsRef(text, rs, 0, -1);
    RefMarkersSorted(text, rs, 0);
    RefMarkersComplete(text, rs, 0);
    var m := Markers(ReplacePieces(text, rs));
    assert SortedFrom(rs, m, 0);
    assert forall a, b :: 0 <= a < b < |m| ==> m[a] != m[b];
    DistinctCovering(m, |rs|);
  }
}

=== FILE: rawtext.dfy ===
/**
 * The text normaliser of prepare_raw_data.py (`clean_text`, lines 30-33) and its
 * evaluation-score table (`EVAL_DICT`, lines 15-22).
 */
module RawText {
  import opened Text
  import opened Dicts
  import Labels

  /** Right single quotation mark, U+2019. */
  const RightQuote: char := '\U{2019}'
  /** Left single quotation mark, U+2018. */
  const LeftQuote: char := '\U{2018}'

  /** `s.replace(a, b)` for one-character `a` and `b`. */
  function ReplaceChar(s: string, a: char, b: char): (r: string)
    ensures |r| == |s|
    ensures forall i :: 0 <= i < |s| ==> r[i] == (if s[i] == a then b else s[i])
    ensures a != b ==> a !in r
  {
    seq(|s|, i requires 0 <= i < |s| => if s[i] == a then b else s[i])
  }

  /** What `clean_text` does to one character before trimming. */
  function Straight(c: char): char {
    if c == RightQuote || c == LeftQuote then '\'' else c
  }

  predicate NoCurlyQuotes(s: string) {
    RightQuote !in s && LeftQuote !in s
  }

  predicate Trimmed(cc: CharClass, s: string) {
    |s| > 0 ==> !cc.isSpace(s[0]) && !cc.isSpace(s[|s| - 1])
  }

  /** The two `replace` calls of clean_text (prepare_raw_data.py:31-32). */
  function Straighten(text: string): (r: string)
    ensures |r| == |text|
    ensures forall i :: 0 <= i < |text| ==> r[i] == Straight(text[i])
    ensures NoCurlyQuotes(r)
  {
    ReplaceChar(ReplaceChar(text, RightQuote, '\''), LeftQuote, '\'')
  }

  /** `clean_text(text)`: both curly single quotes become `'`, then the ends are stripped. */
  function CleanText(cc: CharClass, text: string): (r: string)
    ensures Trimmed(cc, r)
    ensures |r| <= |text|
    ensures StripStart(cc, Straighten(text)) + |r| <= |text|
    ensures forall i :: 0 <= i < |r| ==> r[i] == Straight(text[StripStart(cc, Straighten(text)) + i])
  {
    Strip(cc, Straighten(text))
  }

  /** No curly single quote survives cleaning. */
  lemma CleanTextNoCurlyQuotes(cc: CharClass, text: string)
    ensures NoCurlyQuotes(CleanText(cc, text))
  {
    var r := CleanText(cc, text);
    assert forall i :: 0 <= i < |r| ==> r[i] != RightQuote && r[i] != LeftQuote;
  }

  /** What the trimming removed was whitespace, after the quotes were straightened. */
  lemma CleanTextDropsOnlySpace(cc: CharClass, text: string, i: nat)
    requires i < |text|
    requires i < StripStart(cc, Straighten(text)) || StripStart(cc, Straighten(text)) + |CleanText(cc, text)| <= i
    ensures cc.isSpace(Straight(text[i]))
  {
  }

  /** Cleaning leaves a string alone exactly when it has no curly quotes and no whitespace at
      either end. */
  lemma CleanTextFixpoint(cc: CharClass, text: string)
    ensures CleanText(cc, text) == text <==> NoCurlyQuotes(text) && Trimmed(cc, text)
  {
    if NoCurlyQuotes(text) && Trimmed(cc, text) {
      assert Straighten(text) == text;
      StripNoop(cc, text);
    }
  }

  /** `clean_text(clean_text(t)) == clean_text(t)` */
  lemma CleanTextIdempotent(cc: CharClass, text: string)
    ensures CleanText(cc, CleanText(cc, text)) == CleanText(cc, text)
  {
    CleanTextNoCurlyQuotes(cc, text);
    CleanTextFixpoint(cc, CleanText(cc, text));
  }

  /** prepare_raw_data.py:15-22. */
  const EvalDict: Dict<string, int> := [
    ("Interamente corretta o quasi", 4),
    ("Probabilmente corretta, l'avrei scritta in altro modo", 3),
    ("Parzialmente corretta", 2),
    ("Totalmente sbagliata o quasi", 1),
    ("Risposta mancante, offensiva o non pertinente", 0),
    ("Non lo so", -1)
  ]

  /** Every score lies in [-1, 4], and the table is the one the cleaning script grades with. */
  lemma EvalDictScores()
    ensures forall i :: 0 <= i < |EvalDict| ==> -1 <= EvalDict[i].1 <= 4
    ensures EvalDict == Labels.EvaluationToScore
  {
  }
}

=== FILE: results.dfy ===
/** Failure-carrying results: the model's stand-in for Python exceptions. */
module Results {

  datatype Option<+T> = None | Some(value: T)

  /** `Ok(value)` is a normal return; `Err(error)` is the exception the source would raise. */
  datatype Result<+T, +E> = Ok(value: T) | Err(error: E) {
    predicate IsFailure() {
      Err?
    }

    function PropagateFailure<U>(): Result<U, E>
      requires Err?
    {
      Err(error)
    }

    function Extract(): T
      requires Ok?
    {
      value
    }
  }

  /** The Python exceptions the modelled code can raise, with the offending key or message. */
  datatype PyError =
    | ValueError(msg: string)
    | IndexError(msg: string)
    | KeyError(key: string)
    | AssertionError(msg: string)
    | TypeError(msg: string)

  /** `xs[k]` on a Python list: a negative `k` counts from the end, and an index past
      either end raises `IndexError`. */
  function PyIndex<T>(xs: seq<T>, k: int): (r: Result<T, PyError>)
    ensures r.Ok? <==> -|xs| <= k < |xs|
    ensures r.Ok? && 0 <= k ==> r.value == xs[k]
    ensures r.Ok? && k < 0 ==> r.value == xs[|xs| + k]
    ensures r.Err? ==> r.error.IndexError?
  {
    if 0 <= k < |xs| then Ok(xs[k])
    else if -|xs| <= k < 0 then Ok(xs[|xs| + k])
    else Err(IndexError("list index out of range"))
  }
}

=== FILE: sample.dfy ===
/**
 * One sample of the alignment builder end to end (`process_sample`) and the loop over the
 * span list (`process_pairs`).
 */
module Sample {
  import opened Results
  import opened Text
  import opened Tokenizer
  import opened Placeholders
  import opened Parts
  import opened Alignment

  // ---------------------------------------------------------------- matching placeholder parts

  /** `xs.index(x)`: the first position holding `x`, or Python's `ValueError`. */
  function ListIndex(xs: seq<string>, x: string): (r: Result<nat, PyError>)
    ensures r.Ok? <==> x in xs
    ensures r.Ok? ==> r.value < |xs| && xs[r.value] == x && forall j :: 0 <= j < r.value ==> xs[j] != x
    ensures r.Err? ==> r.error.ValueError?
  {
    if |xs| == 0 then Err(ValueError("is not in list"))
    else if xs[0] == x then Ok(0)
    else
      match ListIndex(xs[1..], x)
      case Ok(j) => Ok(j + 1)
      case Err(e) => Err(e)
  }

  /** The positions `i..` of the placeholder parts of a part list, in increasing order. */
  function PlaceholderIndices(cc: CharClass, parts: seq<string>, i: nat): (r: seq<nat>)
    requires i <= |parts|
    ensures IndicesFrom(cc, parts, i, r)
    decreases |parts| - i
  {
    if i == |parts| then []
    else
      var rest := PlaceholderIndices(cc, parts, i + 1);
      var r := if IsPlaceholderPart(cc, parts[i]) then [i] + rest else rest;
      IndicesStep(cc, parts, i, rest, r);
      r
  }

  /** `r` lists, in increasing order, exactly the positions `i..` of the placeholder parts. */
  ghost predicate IndicesFrom(cc: CharClass, parts: seq<string>, i: nat, r: seq<nat>) {
    IndicesSound(cc, parts, i, r) && Increasing(r) && IndicesComplete(cc, parts, i, r)
  }

  ghost predicate IndicesSound(cc: CharClass, parts: seq<string>, i: nat, r: seq<nat>) {
    forall a :: 0 <= a < |r| ==> i <= r[a] < |parts| && IsPlaceholderPart(cc, parts[r[a]])
  }

  ghost predicate Increasing(r: seq<nat>) {
    forall a, b :: 0 <= a < b < |r| ==> r[a] < r[b]
  }

  ghost predicate IndicesComplete(cc: CharClass, parts: seq<string>, i: nat, r: seq<nat>) {
    forall j :: i <= j < |parts| && IsPlaceholderPart(cc, parts[j]) ==> j in r
  }

  lemma IndicesStep(cc: CharClass, parts: seq<string>, i: nat, rest: seq<nat>, r: seq<nat>)
    requires i < |parts|
    requires IndicesFrom(cc, parts, i + 1, rest)
    requires r == if IsPlaceholderPart(cc, parts[i]) then [i] + rest else rest
    ensures IndicesFrom(cc, parts, i, r)
  {
    var p := IsPlaceholderPart(cc, parts[i]);
    SoundStep(cc, parts, i, p, rest, r);
    IncreasingStep(i, p, rest, r);
    CompleteStep(cc, parts, i, p, rest, r);
  }

  lemma SoundStep(cc: CharClass, parts: seq<string>, i: nat, p: bool, rest: seq<nat>, r: seq<nat>)
    requires i < |parts| && p == IsPlaceholderPart(cc, parts[i])
    requires IndicesSound(cc, parts, i + 1, rest)
    requires r == if p then [i] + rest else rest
    ensures IndicesSound(cc, parts, i, r)
  {
    forall a | 0 <= a < |r|
      ensures i <= r[a] < |parts| && IsPlaceholderPart(cc, parts[r[a]])
    {
      if p && a > 0 {
        assert r[a] == rest[a - 1];
      }
    }
  }

  lemma IncreasingStep(i: nat, p: bool, rest: seq<nat>, r: seq<nat>)
    requires forall a :: 0 <= a < |rest| ==> i < rest[a]
    requires Increasing(rest)
    requires r == if p then [i] + rest else rest
    ensures Increasing(r)
  {
    forall a, b | 0 <= a < b < |r|
      ensures r[a] < r[b]
    {
      if p {
        assert r[b] == rest[b - 1];
        if a > 0 {
          assert r[a] == rest[a - 1];
        }
      }
    }
  }

  lemma CompleteStep(cc: CharClass, parts: seq<string>, i: nat, p: bool, rest: seq<nat>, r: seq<nat>)
    requires i < |parts| && p == IsPlaceholderPart(cc, parts[i])
    requires IndicesComplete(cc, parts, i + 1, rest)
    requires r == if p then [i] + rest else rest
    ensures IndicesComplete(cc, parts, i, r)
  {
    forall j | i <= j < |parts| && IsPlaceholderPart(cc, parts[j])
      ensures j in r
    {
      if j == i {
        assert r[0] == i;
      } else {
        assert j in rest;
      }
    }
  }

  /** Every placeholder part from position `i` on also occurs among the target parts. */
  ghost predicate AllMatched(cc: CharClass, src: seq<string>, trg: seq<string>, i: nat) {
    forall j :: i <= j < |src| && IsPlaceholderPart(cc, src[j]) ==> src[j] in trg
  }

  /** `r` pairs each placeholder part from position `i` on, in order, with the first target
      part identical to it. */
  ghost predicate PairsFirstMatches(cc: CharClass, src: seq<string>, trg: seq<string>, i: nat, r: seq<(nat, nat)>)
    requires i <= |src|
  {
    var ix := PlaceholderIndices(cc, src, i);
    && |r| == |ix|
    && forall a :: 0 <= a < |ix| ==>
      && r[a].0 == ix[a]
      && r[a].1 < |trg| && trg[r[a].1] == src[ix[a]]
      && forall j :: 0 <= j < r[a].1 ==> trg[j] != src[ix[a]]
  }

  /** The loop of prepare_for_alignment.py:158-162 from source part `i` on: each placeholder
      part is paired with the first identical target part, and a placeholder part with no
      identical target part raises `ValueError`. */
  function AlignFrom(cc: CharClass, src: seq<string>, trg: seq<string>, i: nat): (r: Result<seq<(nat, nat)>, PyError>)
    requires i <= |src|
    ensures r.Ok? <==> AllMatched(cc, src, trg, i)
    ensures r.Err? ==> r.error.ValueError?
    ensures r.Ok? ==> PairsFirstMatches(cc, src, trg, i, r.value)
    decreases |src| - i
  {
    if i == |src| then Ok([])
    else if IsPlaceholderPart(cc, src[i]) then
      match ListIndex(trg, src[i])
      case Err(e) => AllMatchedHead(cc, src, trg, i); Err(e)
      case Ok(j) =>
        match AlignFrom(cc, src, trg, i + 1)
        case Err(e) => AllMatchedHead(cc, src, trg, i); Err(e)
        case Ok(rest) =>
          AllMatchedHead(cc, src, trg, i);
          AlignCons(cc, src, trg, i, j, rest);
          Ok([(i, j)] + rest)
    else
      AllMatchedSkip(cc, src, trg, i);
      AlignFrom(cc, src, trg, i + 1)
  }

  lemma AllMatchedHead(cc: CharClass, src: seq<string>, trg: seq<string>, i: nat)
    requires i < |src| && IsPlaceholderPart(cc, src[i])
    ensures AllMatched(cc, src, trg, i) <==> src[i] in trg && AllMatched(cc, src, trg, i + 1)
  {
  }

  lemma AllMatchedSkip(cc: CharClass, src: seq<string>, trg: seq<string>, i: nat)
    requires i < |src| && !IsPlaceholderPart(cc, src[i])
    ensures AllMatched(cc, src, trg, i) <==> AllMatched(cc, src, trg, i + 1)
    ensures PlaceholderIndices(cc, src, i) == PlaceholderIndices(cc, src, i + 1)
  {
  }

  lemma AlignCons(cc: CharClass, src: seq<string>, trg: seq<string>, i: nat, j: nat, rest: seq<(nat, nat)>)
    requires i < |src| && IsPlaceholderPart(cc, src[i])
    requires j < |trg| && trg[j] == src[i] && forall k :: 0 <= k < j ==> trg[k] != src[i]
    requires PairsFirstMatches(cc, src, trg, i + 1, rest)
    ensures PairsFirstMatches(cc, src, trg, i, [(i, j)] + rest)
  {
    var ix := PlaceholderIndices(cc, src, i);
    var tail := PlaceholderIndices(cc, src, i + 1);
    assert ix == [i] + tail;
    var r := [(i, j)] + rest;
    forall a | 0 <= a < |ix|
      ensures r[a].0 == ix[a] && r[a].1 < |trg| && trg[r[a].1] == src[ix[a]]
      ensures forall k :: 0 <= k < r[a].1 ==> trg[k] != src[ix[a]]
    {
      if a > 0 {
        assert r[a] == rest[a - 1] && ix[a] == tail[a - 1];
      }
    }
  }

  /** `aligned_part_indexes` (prepare_for_alignment.py:157-162). */
  function AlignParts(cc: CharClass, src: seq<string>, trg: seq<string>): Result<seq<(nat, nat)>, PyError> {
    AlignFrom(cc, src, trg, 0)
  }

  // ---------------------------------------------------------------- tokenizing parts and spans

  /** Line 168: a placeholder part stays a one-element list, any other part is tokenized. */
  function TokenizePart(cc: CharClass, part: string): seq<string> {
    if IsPlaceholderPart(cc, part) then [part] else Tokenize(cc, part)
  }

  function TokenizeParts(cc: CharClass, parts: seq<string>): (r: seq<seq<string>>)
    ensures |r| == |parts|
    ensures forall i :: 0 <= i < |parts| ==> r[i] == TokenizePart(cc, parts[i])
  {
    seq(|parts|, i requires 0 <= i < |parts| => TokenizePart(cc, parts[i]))
  }

  /** Lines 166-167: every span's text is tokenized. */
  function TokenizeSpans(cc: CharClass, spans: seq<string>): (r: seq<seq<string>>)
    ensures |r| == |spans|
    ensures forall k :: 0 <= k < |spans| ==> r[k] == Tokenize(cc, spans[k])
  {
    seq(|spans|, k requires 0 <= k < |spans| => Tokenize(cc, spans[k]))
  }

  // ---------------------------------------------------------------- process_sample

  /** Every end of every span lies in `[0, len]` of its text; a reversed span is allowed.
      Negative ends and ends past the text are excluded inputs: Python counts a negative
      index from the end, and a non-empty range past the text raises `IndexError` at line 54. */
  predicate SpansInBounds(srcText: string, trgText: string, pairs: seq<SpanPair>) {
    AllInBounds(SideRanges(pairs, true), |srcText|) && AllInBounds(SideRanges(pairs, false), |trgText|)
  }

  /** The alignment pairs and the two tokenized lines of one sample. */
  type SampleOut = (seq<(nat, nat)>, string, string)

  /** `process_sample(src_text, trg_text, span_indexes)` (prepare_for_alignment.py:147-181),
      with each `raise` and failed `assert` as an `Err` in the order Python reaches them. */
  function ProcessSample(cc: CharClass, srcText: string, trgText: string, pairs: seq<SpanPair>): Result<SampleOut, PyError>
    requires SpansInBounds(srcText, trgText, pairs)
  {
    var (srcReplace, srcSpans) := ReplaceTokens(srcText, pairs, true);
    var (trgReplace, trgSpans) := ReplaceTokens(trgText, pairs, false);
    // The assertion of line 151 holds: `ReplaceTokens` returns one span per pair on both sides.
    var srcParts := ToParts(cc, srcReplace);
    var trgParts := ToParts(cc, trgReplace);
    var aligned :- AlignParts(cc, srcParts, trgParts);
    if |srcSpans| != |aligned| then Err(AssertionError("Missing aligned tokens"))
    else
      var srcTok := TokenizeSpans(cc, srcSpans);
      var trgTok := TokenizeSpans(cc, trgSpans);
      var srcP := TokenizeParts(cc, srcParts);
      var trgP := TokenizeParts(cc, trgParts);
      var srcOffs :- TokenOffset(cc, srcP, srcTok);
      var trgOffs :- TokenOffset(cc, trgP, trgTok);
      var alignments :- MakeAlignments(cc, aligned, Side(srcOffs, srcP, srcTok), Side(trgOffs, trgP, trgTok));
      var s :- CombineTokens(cc, srcP, srcTok);
      var t :- CombineTokens(cc, trgP, trgTok);
      Ok((alignments, s, t))
  }

  // ---------------------------------------------------------------- the parts of one side

  lemma {:induction false} SlotsAtIndices(cc: CharClass, parts: seq<string>, i: nat)
    requires i <= |parts|
    ensures var ix := PlaceholderIndices(cc, parts, i);
      && |ix| == |Slots(cc, parts[i..])|
      && forall a :: 0 <= a < |ix| ==> parts[ix[a]] == Slots(cc, parts[i..])[a]
    decreases |parts| - i
  {
    if i < |parts| {
      SlotsAtIndices(cc, parts, i + 1);
      assert parts[i..][1..] == parts[i + 1..];
      assert parts[i..][0] == parts[i];
      var p := IsPlaceholderPart(cc, parts[i]);
      SlotsStep(parts, i, p, PlaceholderIndices(cc, parts, i + 1), Slots(cc, parts[i + 1..]),
        PlaceholderIndices(cc, parts, i), Slots(cc, parts[i..]));
    }
  }

  lemma SlotsStep(parts: seq<string>, i: nat, p: bool, tail: seq<nat>, st: seq<string>, ix: seq<nat>, sl: seq<string>)
    requires i < |parts|
    requires |tail| == |st| && forall a :: 0 <= a < |tail| ==> tail[a] < |parts| && parts[tail[a]] == st[a]
    requires ix == if p then [i] + tail else tail
    requires sl == if p then [parts[i]] + st else st
    ensures |ix| == |sl| && forall a :: 0 <= a < |ix| ==> parts[ix[a]] == sl[a]
  {
    if p {
      forall a | 0 <= a < |ix|
        ensures parts[ix[a]] == sl[a]
      {
        if a > 0 {
          assert ix[a] == tail[a - 1] && sl[a] == st[a - 1];
        }
      }
    }
  }

  /** The shape of one side's part list for span list of length `n`: the placeholder parts
      are `§m[0]`, `§m[1]`, ... with `m` a repetition-free list of all span indices, and no
      other part holds a `§`. */
  ghost predicate SideShape(cc: CharClass, parts: seq<string>, m: seq<nat>, n: nat) {
    var ix := PlaceholderIndices(cc, parts, 0);
    && |ix| == |m| == n
    && (forall a :: 0 <= a < |m| ==> m[a] < n && parts[ix[a]] == SlotText(m[a]))
    && (forall a, b :: 0 <= a < b < |m| ==> m[a] != m[b])
    && (forall k :: 0 <= k < n ==> k in m)
    && PlainWithoutSection(cc, parts)
  }

  lemma SideShapeOf(cc: CharClass, text: string, rs: seq<Range>)
    requires Valid(cc) && Section !in text
    requires AllInBounds(rs, |text|) && Disjoint(rs) && NonEmpty(rs)
    ensures SideShape(cc, ToParts(cc, Render(ReplacePieces(text, rs))), Markers(ReplacePieces(text, rs)), |rs|)
  {
    var parts := ToParts(cc, Render(ReplacePieces(text, rs)));
    var m := Markers(ReplacePieces(text, rs));
    OnePlaceholderPerSpan(text, rs);
    PlaceholderParts(cc, text, rs);
    SlotsAtIndices(cc, parts, 0);
    assert parts[0..] == parts;
    MarkersDistinct(rs, m);
    ShapeOfSlots(cc, parts, m, |rs|);
  }

  /** Markers whose spans start in increasing order are distinct. */
  lemma MarkersDistinct(rs: seq<Range>, m: seq<nat>)
    requires forall a :: 0 <= a < |m| ==> m[a] < |rs|
    requires forall a, b :: 0 <= a < b < |m| ==> rs[m[a]].start < rs[m[b]].start
    ensures forall a, b :: 0 <= a < b < |m| ==> m[a] != m[b]
  {
  }

  /** A side whose placeholder parts spell the slots of `m` in order, with `m` a permutation
      of the span indices, has the shape of a rewritten text. */
  lemma ShapeOfSlots(cc: CharClass, parts: seq<string>, m: seq<nat>, n: nat)
    requires var ix := PlaceholderIndices(cc, parts, 0);
      && |ix| == |Slots(cc, parts)|
      && forall a :: 0 <= a < |ix| ==> parts[ix[a]] == Slots(cc, parts)[a]
    requires Slots(cc, parts) == SlotTexts(m) && PlainWithoutSection(cc, parts)
    requires |m| == n && (forall a :: 0 <= a < |m| ==> m[a] < n) && (forall k :: 0 <= k < n ==> k in m)
    requires forall a, b :: 0 <= a < b < |m| ==> m[a] != m[b]
    ensures SideShape(cc, parts, m, n)
  {
  }

  // ---------------------------------------------------------------- matching the two sides

  /** With both sides shaped by the same span list, every source placeholder part finds its
      twin among the target parts, and the pairs follow the source placeholders in order. */
  lemma MatchedSides(cc: CharClass, src: seq<string>, ms: seq<nat>, trg: seq<string>, mt: seq<nat>, n: nat)
    requires SideShape(cc, src, ms, n) && SideShape(cc, trg, mt, n)
    ensures AlignParts(cc, src, trg).Ok?
    ensures var al := AlignParts(cc, src, trg).value;
      var ix := PlaceholderIndices(cc, src, 0);
      && |al| == n
      && forall a :: 0 <= a < n ==> al[a].0 == ix[a] && al[a].1 < |trg| && trg[al[a].1] == SlotText(ms[a])
  {
    SidesMatch(cc, src, ms, trg, mt, n);
  }

  lemma SidesMatch(cc: CharClass, src: seq<string>, ms: seq<nat>, trg: seq<string>, mt: seq<nat>, n: nat)
    requires SideShape(cc, src, ms, n) && SideShape(cc, trg, mt, n)
    ensures AllMatched(cc, src, trg, 0)
  {
    var ixs := PlaceholderIndices(cc, src, 0);
    var ixt := PlaceholderIndices(cc, trg, 0);
    forall j | 0 <= j < |src| && IsPlaceholderPart(cc, src[j])
      ensures src[j] in trg
    {
      var a := Position(ixs, j);
      var k := ms[a];
      assert k in mt;
      var b := Position(mt, k);
      assert trg[ixt[b]] == src[j];
    }
  }

  // ---------------------------------------------------------------- what each part stands for

  lemma TokenizeSolid(cc: CharClass, part: string)
    requires Valid(cc)
    ensures forall t :: t in Tokenize(cc, part) ==> Solid(cc, t)
    ensures Section !in part ==> forall t :: t in Tokenize(cc, part) ==> Section !in t
  {
    TokenizeTokens(cc, part);
  }

  /** A placeholder part `§k` stands for the tokens of span `k`. */
  lemma SlotContribution(cc: CharClass, k: nat, tok: seq<seq<string>>)
    requires Valid(cc) && k < |tok|
    ensures Contribution(cc, TokenizePart(cc, SlotText(k)), tok) == Ok(tok[k])
  {
    CleanPlaceholder(cc, k);
    assert TokenizePart(cc, SlotText(k)) == [SlotText(k)];
    SlotSpanTokens(cc, k, tok);
  }

  /** A plain part stands for its own tokens, none of which looks like a placeholder. */
  lemma PlainContribution(cc: CharClass, part: string, tok: seq<seq<string>>)
    requires Valid(cc) && !IsPlaceholderPart(cc, part) && Section !in part
    ensures Contribution(cc, TokenizePart(cc, part), tok) == Ok(Tokenize(cc, part))
  {
    var toks := Tokenize(cc, part);
    TokenizeSolid(cc, part);
    if |toks| > 0 {
      assert toks[0] in toks;
      NoSectionNotSlot(cc, toks[0]);
    }
  }

  /** Every token of every span is solid. */
  ghost predicate SolidLists(cc: CharClass, tok: seq<seq<string>>) {
    forall k, t :: 0 <= k < |tok| && t in tok[k] ==> Solid(cc, t)
  }

  lemma TokenizeSpansSolid(cc: CharClass, spans: seq<string>)
    requires Valid(cc)
    ensures SolidLists(cc, TokenizeSpans(cc, spans))
  {
    forall k | 0 <= k < |spans| {
      TokenizeSolid(cc, spans[k]);
    }
  }

  lemma PartContribution(cc: CharClass, parts: seq<string>, m: seq<nat>, n: nat, tok: seq<seq<string>>, i: nat)
    requires Valid(cc) && SideShape(cc, parts, m, n) && |tok| == n && SolidLists(cc, tok) && i < |parts|
    ensures var c := Contributions(cc, TokenizeParts(cc, parts), tok)[i];
      c.Ok? && forall t :: t in c.value ==> Solid(cc, t)
  {
    var ps := TokenizeParts(cc, parts);
    ContributionsAt(cc, ps, tok, i);
    if IsPlaceholderPart(cc, parts[i]) {
      SlotPartContribution(cc, parts, m, n, tok, i);
    } else {
      PlainContribution(cc, parts[i], tok);
      TokenizeSolid(cc, parts[i]);
    }
  }

  /** Placeholder part `i` of a well-shaped side stands for the tokens of a span. */
  lemma SlotPartContribution(cc: CharClass, parts: seq<string>, m: seq<nat>, n: nat, tok: seq<seq<string>>, i: nat)
    requires Valid(cc) && SideShape(cc, parts, m, n) && |tok| == n && SolidLists(cc, tok)
    requires i < |parts| && IsPlaceholderPart(cc, parts[i])
    ensures var c := Contribution(cc, TokenizePart(cc, parts[i]), tok);
      c.Ok? && forall t :: t in c.value ==> Solid(cc, t)
  {
    var ix := PlaceholderIndices(cc, parts, 0);
    assert IndicesComplete(cc, parts, 0, ix);
    var a := Position(ix, i);
    SlotContribution(cc, m[a], tok);
  }

  /** On a well-shaped side every part's contribution is defined: the offsets and the token
      stream exist, placeholder part `ix[a]` stands for the tokens of span `m[a]`, and every
      token of the stream is solid. */
  lemma SideContributions(cc: CharClass, parts: seq<string>, m: seq<nat>, n: nat, tok: seq<seq<string>>)
    requires Valid(cc) && SideShape(cc, parts, m, n) && |tok| == n && SolidLists(cc, tok)
    ensures TokenOffset(cc, TokenizeParts(cc, parts), tok).Ok?
    ensures var ix := PlaceholderIndices(cc, parts, 0);
      forall a :: 0 <= a < n ==> Contributions(cc, TokenizeParts(cc, parts), tok)[ix[a]] == Ok(tok[m[a]])
    ensures forall t :: t in Flatten(cc, TokenizeParts(cc, parts), tok).value ==> Solid(cc, t)
  {
    var cs := Contributions(cc, TokenizeParts(cc, parts), tok);
    PartContributions(cc, parts, m, n, tok);
    SlotContributions(cc, parts, m, n, tok);
    forall t | t in Chain(cs).value
      ensures Solid(cc, t)
    {
      ChainMembers(cs, t);
    }
  }

  lemma PartContributions(cc: CharClass, parts: seq<string>, m: seq<nat>, n: nat, tok: seq<seq<string>>)
    requires Valid(cc) && SideShape(cc, parts, m, n) && |tok| == n && SolidLists(cc, tok)
    ensures var cs := Contributions(cc, TokenizeParts(cc, parts), tok);
      AllOk(cs) && forall i :: 0 <= i < |cs| ==> forall t :: t in cs[i].value ==> Solid(cc, t)
  {
    forall i | 0 <= i < |parts|
      ensures var c := Contributions(cc, TokenizeParts(cc, parts), tok)[i];
        c.Ok? && forall t :: t in c.value ==> Solid(cc, t)
    {
      PartContribution(cc, parts, m, n, tok, i);
    }
  }

  lemma SlotContributions(cc: CharClass, parts: seq<string>, m: seq<nat>, n: nat, tok: seq<seq<string>>)
    requires Valid(cc) && SideShape(cc, parts, m, n) && |tok| == n
    ensures var ix := PlaceholderIndices(cc, parts, 0);
      forall a :: 0 <= a < n ==> Contributions(cc, TokenizeParts(cc, parts), tok)[ix[a]] == Ok(tok[m[a]])
  {
    var ps := TokenizeParts(cc, parts);
    var ix := PlaceholderIndices(cc, parts, 0);
    forall a | 0 <= a < n
      ensures Contributions(cc, ps, tok)[ix[a]] == Ok(tok[m[a]])
    {
      ContributionsAt(cc, ps, tok, ix[a]);
      SlotContribution(cc, m[a], tok);
    }
  }

  // ---------------------------------------------------------------- one matched span pair

  /** A matched pair of placeholder parts `§k` yields the full product of span `k`'s token
      positions on both sides. */
  lemma PairProduct(cc: CharClass, src: seq<string>, trg: seq<string>, st: seq<seq<string>>, tt: seq<seq<string>>,
                    so: seq<nat>, to: seq<nat>, i: nat, j: nat, k: nat)
    requires Valid(cc) && k < |st| && k < |tt|
    requires i < |src| == |so| && j < |trg| == |to|
    requires src[i] == SlotText(k) && trg[j] == SlotText(k)
    ensures AlignSpan(cc, (i, j), Side(so, TokenizeParts(cc, src), st), Side(to, TokenizeParts(cc, trg), tt))
      == Ok(Product(so[i], |st[k]|, to[j], |tt[k]|))
  {
    SlotPart(cc, k);
    SlotSpanTokens(cc, k, st);
    SlotSpanTokens(cc, k, tt);
  }

  lemma SlotPart(cc: CharClass, k: nat)
    requires Valid(cc)
    ensures IsPlaceholderPart(cc, SlotText(k)) && TokenizePart(cc, SlotText(k)) == [SlotText(k)]
  {
    CleanPlaceholder(cc, k);
  }

  lemma SlotSpanTokens(cc: CharClass, k: nat, tok: seq<seq<string>>)
    requires Valid(cc) && k < |tok|
    ensures SpanTokens(cc, SlotText(k), tok) == Ok(tok[k])
  {
    SpecialToIndexSlot(cc, k);
    var r := SpecialToIndex(cc, SlotText(k));
    assert r.Ok? && r.value == k;
  }

  // ---------------------------------------------------------------- the success theorem

  /** The first position of `k` in `m`, or `|m|`. */
  function Pos(m: seq<nat>, k: nat): (a: nat)
    ensures a <= |m|
    ensures a < |m| ==> m[a] == k
    ensures forall b :: 0 <= b < a ==> m[b] != k
  {
    if |m| == 0 || m[0] == k then 0 else 1 + Pos(m[1..], k)
  }

  /** A sample the builder is meant for: texts free of `§`, and on each side in-bounds,
      non-empty, pairwise disjoint spans. */
  ghost predicate WellFormedSample(cc: CharClass, srcText: string, trgText: string, pairs: seq<SpanPair>) {
    && Valid(cc) && Section !in srcText && Section !in trgText
    && SpansInBounds(srcText, trgText, pairs)
    && Disjoint(SideRanges(pairs, true)) && NonEmpty(SideRanges(pairs, true))
    && Disjoint(SideRanges(pairs, false)) && NonEmpty(SideRanges(pairs, false))
  }

  /** The tokens of every span of one side (lines 166-167). */
  function SpanTokenLists(cc: CharClass, text: string, pairs: seq<SpanPair>, isSource: bool): seq<seq<string>>
    requires AllInBounds(SideRanges(pairs, isSource), |text|)
  {
    TokenizeSpans(cc, ReplaceTokens(text, pairs, isSource).1)
  }

  /** Span `k`'s tokens sit in `words` as one block starting at `start[k]`. */
  ghost predicate InPlace(words: seq<string>, tok: seq<seq<string>>, start: seq<nat>) {
    && |start| == |tok|
    && forall k :: 0 <= k < |tok| ==>
         start[k] + |tok[k]| <= |words| && words[start[k]..start[k] + |tok[k]|] == tok[k]
  }

  /** The alignment pairs are exactly the pairs of token positions of the same span. */
  ghost predicate SpanProducts(al: seq<(nat, nat)>, st: seq<seq<string>>, tt: seq<seq<string>>, ss: seq<nat>, ts: seq<nat>)
    requires |ss| == |st| && |ts| == |tt| && |st| == |tt|
  {
    forall x: nat, y: nat :: (x, y) in al <==>
      exists k :: 0 <= k < |st| && ss[k] <= x < ss[k] + |st[k]| && ts[k] <= y < ts[k] + |tt[k]|
  }

  /** One side's parts: `to_parts(replace_tokens(text, ...)[0])` (lines 149-150 and 154-155). */
  function PartsOf(cc: CharClass, text: string, pairs: seq<SpanPair>, isSource: bool): seq<string>
    requires AllInBounds(SideRanges(pairs, isSource), |text|)
  {
    ToParts(cc, ReplaceTokens(text, pairs, isSource).0)
  }

  /** The span indices of one side's placeholders, in text order. */
  ghost function MarkersOf(text: string, pairs: seq<SpanPair>, isSource: bool): seq<nat>
    requires AllInBounds(SideRanges(pairs, isSource), |text|)
  {
    Markers(ReplacePieces(text, SideRanges(pairs, isSource)))
  }

  /** Everything one side of a well-formed sample guarantees. */
  lemma SideShaped(cc: CharClass, text: string, pairs: seq<SpanPair>, isSource: bool)
    requires Valid(cc) && Section !in text && AllInBounds(SideRanges(pairs, isSource), |text|)
    requires Disjoint(SideRanges(pairs, isSource)) && NonEmpty(SideRanges(pairs, isSource))
    ensures SideShape(cc, PartsOf(cc, text, pairs, isSource), MarkersOf(text, pairs, isSource), |pairs|)
  {
    SideShapeOf(cc, text, SideRanges(pairs, isSource));
  }

  lemma SideFacts(cc: CharClass, text: string, pairs: seq<SpanPair>, isSource: bool)
    requires Valid(cc) && Section !in text && AllInBounds(SideRanges(pairs, isSource), |text|)
    requires Disjoint(SideRanges(pairs, isSource)) && NonEmpty(SideRanges(pairs, isSource))
    ensures var parts := PartsOf(cc, text, pairs, isSource);
      var tok := SpanTokenLists(cc, text, pairs, isSource);
      && SideShape(cc, parts, MarkersOf(text, pairs, isSource), |pairs|)
      && |tok| == |pairs| && SolidLists(cc, tok)
      && TokenOffset(cc, TokenizeParts(cc, parts), tok).Ok?
      && Words(cc, CombineTokens(cc, TokenizeParts(cc, parts), tok).value) == Flatten(cc, TokenizeParts(cc, parts), tok).value
  {
    var rs := SideRanges(pairs, isSource);
    var parts := PartsOf(cc, text, pairs, isSource);
    var tok := SpanTokenLists(cc, text, pairs, isSource);
    SideShapeOf(cc, text, rs);
    TokenizeSpansSolid(cc, ReplaceTokens(text, pairs, isSource).1);
    SideContributions(cc, parts, MarkersOf(text, pairs, isSource), |pairs|, tok);
    var toks := Flatten(cc, TokenizeParts(cc, parts), tok).value;
    forall k | 0 <= k < |toks|
      ensures Solid(cc, toks[k])
    {
      assert toks[k] in toks;
    }
    RebuiltWords(cc, toks);
  }

  /** When every step of `process_sample` succeeds, its result is the three computed values. */
  lemma ProcessSampleOk(cc: CharClass, srcText: string, trgText: string, pairs: seq<SpanPair>)
    requires SpansInBounds(srcText, trgText, pairs)
    requires var src := PartsOf(cc, srcText, pairs, true);
      var trg := PartsOf(cc, trgText, pairs, false);
      var st := SpanTokenLists(cc, srcText, pairs, true);
      var tt := SpanTokenLists(cc, trgText, pairs, false);
      && AlignParts(cc, src, trg).Ok? && |AlignParts(cc, src, trg).value| == |pairs|
      && TokenOffset(cc, TokenizeParts(cc, src), st).Ok?
      && TokenOffset(cc, TokenizeParts(cc, trg), tt).Ok?
      && MakeAlignments(cc, AlignParts(cc, src, trg).value,
           Side(TokenOffset(cc, TokenizeParts(cc, src), st).value, TokenizeParts(cc, src), st),
           Side(TokenOffset(cc, TokenizeParts(cc, trg), tt).value, TokenizeParts(cc, trg), tt)).Ok?
    ensures var src := PartsOf(cc, srcText, pairs, true);
      var trg := PartsOf(cc, trgText, pairs, false);
      var st := SpanTokenLists(cc, srcText, pairs, true);
      var tt := SpanTokenLists(cc, trgText, pairs, false);
      ProcessSample(cc, srcText, trgText, pairs) == Ok((
        MakeAlignments(cc, AlignParts(cc, src, trg).value,
           Side(TokenOffset(cc, TokenizeParts(cc, src), st).value, TokenizeParts(cc, src), st),
           Side(TokenOffset(cc, TokenizeParts(cc, trg), tt).value, TokenizeParts(cc, trg), tt)).value,
        CombineTokens(cc, TokenizeParts(cc, src), st).value,
        CombineTokens(cc, TokenizeParts(cc, trg), tt).value))
  {
  }

  /** `ms` lists every number below `n` exactly once. */
  ghost predicate Enumerates(ms: seq<nat>, n: nat) {
    && |ms| == n
    && (forall a :: 0 <= a < n ==> ms[a] < n)
    && (forall a, b :: 0 <= a < b < n ==> ms[a] != ms[b])
    && (forall k :: 0 <= k < n ==> k in ms)
  }

  lemma PosOf(ms: seq<nat>, n: nat, a: nat)
    requires Enumerates(ms, n) && a < n
    ensures Pos(ms, ms[a]) == a
  {
  }

  lemma PosIn(ms: seq<nat>, n: nat, k: nat)
    requires Enumerates(ms, n) && k < n
    ensures Pos(ms, k) < n && ms[Pos(ms, k)] == k
  {
    assert k in ms;
    var a := Position(ms, k);
    assert Pos(ms, k) <= a;
  }

  /** `xs` re-indexed from positions in `ms` to the numbers `ms` lists. */
  ghost function Permute(xs: seq<nat>, ms: seq<nat>): (r: seq<nat>)
    ensures |r| == |xs|
  {
    seq(|xs|, k requires 0 <= k < |xs| => if Pos(ms, k) < |xs| then xs[Pos(ms, k)] else 0)
  }

  /** The entries of `offs` at the positions `ps`. */
  ghost function At(offs: seq<nat>, ps: seq<nat>): (r: seq<nat>)
    ensures |r| == |ps|
    ensures forall a :: 0 <= a < |ps| && ps[a] < |offs| ==> r[a] == offs[ps[a]]
  {
    seq(|ps|, a requires 0 <= a < |ps| => if ps[a] < |offs| then offs[ps[a]] else 0)
  }

  /** If item `ps[a]` is span `ms[a]`'s token list, those tokens form the block of the
      chained list that starts at the item's offset. */
  lemma ChainSlots(cs: seq<Result<seq<string>, PyError>>, words: seq<string>, offs: seq<nat>,
                   tok: seq<seq<string>>, ms: seq<nat>, ps: seq<nat>)
    requires AllOk(cs) && words == Chain(cs).value && offs == OffsetsFrom(cs, 0).value && |ms| == |ps|
    requires forall a :: 0 <= a < |ps| ==> ps[a] < |cs|
    requires forall a :: 0 <= a < |ps| ==> ms[a] < |tok|
    requires forall a :: 0 <= a < |ps| ==> cs[ps[a]] == Ok(tok[ms[a]])
    ensures forall a :: 0 <= a < |ps| ==> ps[a] < |offs|
    ensures forall a :: 0 <= a < |ps| ==> offs[ps[a]] + |tok[ms[a]]| <= |words|
    ensures forall a :: 0 <= a < |ps| ==> words[offs[ps[a]]..offs[ps[a]] + |tok[ms[a]]|] == tok[ms[a]]
  {
    forall a | 0 <= a < |ps|
      ensures offs[ps[a]] + |tok[ms[a]]| <= |words| && words[offs[ps[a]]..offs[ps[a]] + |tok[ms[a]]|] == tok[ms[a]]
    {
      ChainSlice(cs, ps[a]);
    }
  }

  /** Blocks found by position `a` in `ms`, re-indexed by span number. */
  lemma InPlaceOf(words: seq<string>, offs: seq<nat>, tok: seq<seq<string>>, ms: seq<nat>, ps: seq<nat>)
    requires Enumerates(ms, |tok|) && |ps| == |tok|
    requires forall a :: 0 <= a < |ps| ==> ps[a] < |offs|
    requires forall a :: 0 <= a < |ps| ==> offs[ps[a]] + |tok[ms[a]]| <= |words|
    requires forall a :: 0 <= a < |ps| ==> words[offs[ps[a]]..offs[ps[a]] + |tok[ms[a]]|] == tok[ms[a]]
    ensures InPlace(words, tok, Permute(At(offs, ps), ms))
  {
    var start := Permute(At(offs, ps), ms);
    forall k | 0 <= k < |tok|
      ensures start[k] + |tok[k]| <= |words| && words[start[k]..start[k] + |tok[k]|] == tok[k]
    {
      PosIn(ms, |tok|, k);
      var a := Pos(ms, k);
      assert start[k] == offs[ps[a]];
    }
  }

  /** The tokens of every span lie in place in one side's flattened stream, given the part
      `ps[a]` that stands for span `ms[a]`. */
  lemma SideInPlace(cc: CharClass, tp: seq<seq<string>>, tok: seq<seq<string>>, ms: seq<nat>, ps: seq<nat>)
    requires TokenOffset(cc, tp, tok).Ok?
    requires Enumerates(ms, |tok|) && |ps| == |tok|
    requires forall a :: 0 <= a < |ps| ==> ps[a] < |tp|
    requires forall a :: 0 <= a < |ps| ==> Contributions(cc, tp, tok)[ps[a]] == Ok(tok[ms[a]])
    ensures Flatten(cc, tp, tok).Ok?
    ensures InPlace(Flatten(cc, tp, tok).value, tok, Permute(At(TokenOffset(cc, tp, tok).value, ps), ms))
  {
    var cs := Contributions(cc, tp, tok);
    ChainSlots(cs, Chain(cs).value, OffsetsFrom(cs, 0).value, tok, ms, ps);
    InPlaceOf(Chain(cs).value, OffsetsFrom(cs, 0).value, tok, ms, ps);
  }

  lemma SlotsAt(cc: CharClass, parts: seq<string>, tok: seq<seq<string>>, ms: seq<nat>, ps: seq<nat>)
    requires Valid(cc) && |ms| == |ps|
    requires forall a :: 0 <= a < |ps| ==> ps[a] < |parts|
    requires forall a :: 0 <= a < |ps| ==> ms[a] < |tok|
    requires forall a :: 0 <= a < |ps| ==> parts[ps[a]] == SlotText(ms[a])
    ensures |Contributions(cc, TokenizeParts(cc, parts), tok)| == |parts|
    ensures TokenOffset(cc, TokenizeParts(cc, parts), tok).Ok? ==> AllOk(Contributions(cc, TokenizeParts(cc, parts), tok))
    ensures forall a :: 0 <= a < |ps| ==> Contributions(cc, TokenizeParts(cc, parts), tok)[ps[a]] == Ok(tok[ms[a]])
  {
    var cs := Contributions(cc, TokenizeParts(cc, parts), tok);
    forall a | 0 <= a < |ps|
      ensures cs[ps[a]] == Ok(tok[ms[a]])
    {
      SlotAt(cc, parts, tok, ps[a], ms[a]);
    }
  }

  /** The part that is the placeholder of span `k` stands for span `k`'s tokens. */
  lemma SlotAt(cc: CharClass, parts: seq<string>, tok: seq<seq<string>>, p: nat, k: nat)
    requires Valid(cc) && p < |parts| && parts[p] == SlotText(k) && k < |tok|
    ensures Contributions(cc, TokenizeParts(cc, parts), tok)[p] == Ok(tok[k])
  {
    var tp := TokenizeParts(cc, parts);
    ContributionsAt(cc, tp, tok, p);
    assert tp[p] == TokenizePart(cc, SlotText(k));
    SlotContribution(cc, k, tok);
  }

  /** Re-indexing a union of per-position blocks by span number. */
  lemma Reindex(al: seq<(nat, nat)>, ms: seq<nat>, st: seq<seq<string>>, tt: seq<seq<string>>, xs: seq<nat>, ys: seq<nat>)
    requires Enumerates(ms, |st|) && |tt| == |st| == |xs| == |ys|
    requires forall x: nat, y: nat :: (x, y) in al <==>
      exists a :: 0 <= a < |ms| && xs[a] <= x < xs[a] + |st[ms[a]]| && ys[a] <= y < ys[a] + |tt[ms[a]]|
    ensures SpanProducts(al, st, tt, Permute(xs, ms), Permute(ys, ms))
  {
    var n := |st|;
    var ss := Permute(xs, ms);
    var ts := Permute(ys, ms);
    forall x: nat, y: nat
      ensures (x, y) in al <==> exists k :: 0 <= k < n && ss[k] <= x < ss[k] + |st[k]| && ts[k] <= y < ts[k] + |tt[k]|
    {
      if (x, y) in al {
        ReindexInto(al, ms, st, tt, xs, ys, x, y);
      }
      if exists k :: 0 <= k < n && ss[k] <= x < ss[k] + |st[k]| && ts[k] <= y < ts[k] + |tt[k]| {
        var k :| 0 <= k < n && ss[k] <= x < ss[k] + |st[k]| && ts[k] <= y < ts[k] + |tt[k]|;
        ReindexFrom(al, ms, st, tt, xs, ys, x, y, k);
      }
    }
  }

  /** A pair in the rectangle at position `a` lies in the rectangle of span `ms[a]`. */
  lemma ReindexInto(al: seq<(nat, nat)>, ms: seq<nat>, st: seq<seq<string>>, tt: seq<seq<string>>, xs: seq<nat>, ys: seq<nat>, x: nat, y: nat)
    requires Enumerates(ms, |st|) && |tt| == |st| == |xs| == |ys|
    requires exists a :: 0 <= a < |ms| && xs[a] <= x < xs[a] + |st[ms[a]]| && ys[a] <= y < ys[a] + |tt[ms[a]]|
    ensures var ss, ts := Permute(xs, ms), Permute(ys, ms);
      exists k :: 0 <= k < |st| && ss[k] <= x < ss[k] + |st[k]| && ts[k] <= y < ts[k] + |tt[k]|
  {
    var a :| 0 <= a < |ms| && xs[a] <= x < xs[a] + |st[ms[a]]| && ys[a] <= y < ys[a] + |tt[ms[a]]|;
    PosOf(ms, |st|, a);
    var k := ms[a];
    assert Permute(xs, ms)[k] == xs[a] && Permute(ys, ms)[k] == ys[a];
  }

  /** A pair in the rectangle of span `k` lies in the rectangle at its position in `ms`. */
  lemma ReindexFrom(al: seq<(nat, nat)>, ms: seq<nat>, st: seq<seq<string>>, tt: seq<seq<string>>, xs: seq<nat>, ys: seq<nat>, x: nat, y: nat, k: nat)
    requires Enumerates(ms, |st|) && |tt| == |st| == |xs| == |ys|
    requires var ss, ts := Permute(xs, ms), Permute(ys, ms);
      k < |st| && ss[k] <= x < ss[k] + |st[k]| && ts[k] <= y < ts[k] + |tt[k]|
    ensures exists a :: 0 <= a < |ms| && xs[a] <= x < xs[a] + |st[ms[a]]| && ys[a] <= y < ys[a] + |tt[ms[a]]|
  {
    PosIn(ms, |st|, k);
    var a := Pos(ms, k);
    assert xs[a] <= x < xs[a] + |st[ms[a]]| && ys[a] <= y < ys[a] + |tt[ms[a]]|;
  }

  /** The second components of the matched pairs: the target part of each. */
  function Seconds(al: seq<(nat, nat)>): (r: seq<nat>)
    ensures |r| == |al|
    ensures forall a :: 0 <= a < |al| ==> r[a] == al[a].1
  {
    seq(|al|, a requires 0 <= a < |al| => al[a].1)
  }

  /** A list of successful rectangles chains into their union. */
  lemma RectanglesCover(rs: seq<Result<seq<(nat, nat)>, PyError>>, xs: seq<nat>, ys: seq<nat>,
                        st: seq<seq<string>>, tt: seq<seq<string>>, ms: seq<nat>)
    requires |xs| == |ys| == |rs| == |ms|
    requires forall a :: 0 <= a < |ms| ==> ms[a] < |st|
    requires forall a :: 0 <= a < |ms| ==> ms[a] < |tt|
    requires forall p :: 0 <= p < |rs| ==> rs[p] == Ok(Product(xs[p], |st[ms[p]]|, ys[p], |tt[ms[p]]|))
    ensures Chain(rs).Ok?
    ensures forall x: nat, y: nat :: (x, y) in Chain(rs).value <==>
      exists a :: 0 <= a < |ms| && xs[a] <= x < xs[a] + |st[ms[a]]| && ys[a] <= y < ys[a] + |tt[ms[a]]|
  {
    assert AllOk(rs);
    forall x: nat, y: nat
      ensures (x, y) in Chain(rs).value <==>
        exists a :: 0 <= a < |ms| && xs[a] <= x < xs[a] + |st[ms[a]]| && ys[a] <= y < ys[a] + |tt[ms[a]]|
    {
      ChainMembers(rs, (x, y));
      forall p | 0 <= p < |rs|
        ensures (x, y) in rs[p].value <==> xs[p] <= x < xs[p] + |st[ms[p]]| && ys[p] <= y < ys[p] + |tt[ms[p]]|
      {
        ProductMembers(xs[p], |st[ms[p]]|, ys[p], |tt[ms[p]]|, x, y);
      }
    }
  }

  /** When matched pair `p` yields the rectangle at `(xs[p], ys[p])` of span `ms[p]`'s sizes,
      `make_alignments` succeeds with the union of those rectangles. */
  lemma ProductsCover(cc: CharClass, al: seq<(nat, nat)>, src: Side, trg: Side, xs: seq<nat>, ys: seq<nat>,
                      st: seq<seq<string>>, tt: seq<seq<string>>, ms: seq<nat>)
    requires |xs| == |ys| == |al| == |ms|
    requires forall a :: 0 <= a < |ms| ==> ms[a] < |st|
    requires forall a :: 0 <= a < |ms| ==> ms[a] < |tt|
    requires forall p :: 0 <= p < |al| ==>
      AlignSpan(cc, al[p], src, trg) == Ok(Product(xs[p], |st[ms[p]]|, ys[p], |tt[ms[p]]|))
    ensures MakeAlignments(cc, al, src, trg).Ok?
    ensures forall x: nat, y: nat :: (x, y) in MakeAlignments(cc, al, src, trg).value <==>
      exists a :: 0 <= a < |ms| && xs[a] <= x < xs[a] + |st[ms[a]]| && ys[a] <= y < ys[a] + |tt[ms[a]]|
  {
    RectanglesCover(PairProducts(cc, al, src, trg), xs, ys, st, tt, ms);
  }

  /** Every matched pair of a well-shaped sample yields its span's rectangle. */
  lemma PairsYieldProducts(cc: CharClass, src: seq<string>, trg: seq<string>, st: seq<seq<string>>, tt: seq<seq<string>>,
                           so: seq<nat>, to: seq<nat>, ms: seq<nat>, ix: seq<nat>, al: seq<(nat, nat)>)
    requires Valid(cc) && |ms| == |ix| == |al|
    requires |so| == |src| && |to| == |trg|
    requires forall a :: 0 <= a < |ms| ==> ms[a] < |st|
    requires forall a :: 0 <= a < |ms| ==> ms[a] < |tt|
    requires forall a :: 0 <= a < |ms| ==> ix[a] < |src|
    requires forall a :: 0 <= a < |ms| ==> src[ix[a]] == SlotText(ms[a])
    requires forall a :: 0 <= a < |ms| ==> al[a].0 == ix[a]
    requires forall a :: 0 <= a < |ms| ==> al[a].1 < |trg|
    requires forall a :: 0 <= a < |ms| ==> trg[al[a].1] == SlotText(ms[a])
    ensures forall p :: 0 <= p < |al| ==>
      AlignSpan(cc, al[p], Side(so, TokenizeParts(cc, src), st), Side(to, TokenizeParts(cc, trg), tt))
        == Ok(Product(At(so, ix)[p], |st[ms[p]]|, At(to, Seconds(al))[p], |tt[ms[p]]|))
  {
    forall p | 0 <= p < |al|
      ensures AlignSpan(cc, al[p], Side(so, TokenizeParts(cc, src), st), Side(to, TokenizeParts(cc, trg), tt))
        == Ok(Product(At(so, ix)[p], |st[ms[p]]|, At(to, Seconds(al))[p], |tt[ms[p]]|))
    {
      var i, j, k := ix[p], al[p].1, ms[p];
      assert al[p] == (i, j);
      assert At(so, ix)[p] == so[i] && At(to, Seconds(al))[p] == to[j];
      PairProduct(cc, src, trg, st, tt, so, to, i, j, k);
    }
  }

  /** The outcome `process_sample` is meant to have: the rebuilt source and target token
      streams hold every span's tokens as one block, and the alignment pairs are exactly the
      pairs of a source token and a target token of the same span. */
  ghost predicate AlignsSpans(out: SampleOut, st: seq<seq<string>>, tt: seq<seq<string>>, ss: seq<nat>, ts: seq<nat>, words: CharClass) {
    && |ss| == |st| && |ts| == |tt| && |st| == |tt|
    && InPlace(Words(words, out.1), st, ss)
    && InPlace(Words(words, out.2), tt, ts)
    && SpanProducts(out.0, st, tt, ss, ts)
  }

  /** Matched placeholder parts: position `a` of the source's placeholders is part `ix[a]`,
      the placeholder of span `ms[a]`, and it is matched to target part `al[a].1`, the
      placeholder of the same span. */
  ghost predicate Matched(src: seq<string>, trg: seq<string>, n: nat, ms: seq<nat>, ix: seq<nat>, al: seq<(nat, nat)>) {
    && |ix| == |al| == n && Enumerates(ms, n)
    && (forall a :: 0 <= a < n ==> ix[a] < |src|)
    && (forall a :: 0 <= a < n ==> src[ix[a]] == SlotText(ms[a]))
    && (forall a :: 0 <= a < n ==> al[a].0 == ix[a])
    && (forall a :: 0 <= a < n ==> al[a].1 < |trg|)
    && (forall a :: 0 <= a < n ==> trg[al[a].1] == SlotText(ms[a]))
  }

  /** Matched parts place the slot of span `ms[a]` at source part `ix[a]` and at target part
      `al[a].1`. */
  lemma MatchedLaid(src: seq<string>, trg: seq<string>, n: nat, ms: seq<nat>, ix: seq<nat>, al: seq<(nat, nat)>)
    requires Matched(src, trg, n, ms, ix, al)
    ensures |ix| == n && forall a :: 0 <= a < |ix| ==> ix[a] < |src| && src[ix[a]] == SlotText(ms[a])
    ensures var ps := Seconds(al);
      |ps| == n && forall a :: 0 <= a < |ps| ==> ps[a] < |trg| && trg[ps[a]] == SlotText(ms[a])
  {
  }

  /** One side's rebuilt text holds every span's tokens as a block. */
  lemma SideLaid(cc: CharClass, parts: seq<string>, tok: seq<seq<string>>, ms: seq<nat>, ps: seq<nat>)
    requires Valid(cc) && TokenOffset(cc, TokenizeParts(cc, parts), tok).Ok?
    requires Enumerates(ms, |tok|) && |ps| == |tok|
    requires forall a :: 0 <= a < |ps| ==> ps[a] < |parts|
    requires forall a :: 0 <= a < |ps| ==> parts[ps[a]] == SlotText(ms[a])
    requires CombineTokens(cc, TokenizeParts(cc, parts), tok).Ok?
    requires Words(cc, CombineTokens(cc, TokenizeParts(cc, parts), tok).value) == Flatten(cc, TokenizeParts(cc, parts), tok).value
    ensures InPlace(Words(cc, CombineTokens(cc, TokenizeParts(cc, parts), tok).value), tok,
                    Permute(At(TokenOffset(cc, TokenizeParts(cc, parts), tok).value, ps), ms))
  {
    SlotsAt(cc, parts, tok, ms, ps);
    SideInPlace(cc, TokenizeParts(cc, parts), tok, ms, ps);
  }

  /** The alignment pairs of matched parts are the same-span token pairs. */
  lemma AlignedRectangles(cc: CharClass, src: seq<string>, trg: seq<string>, st: seq<seq<string>>, tt: seq<seq<string>>,
                          ms: seq<nat>, ix: seq<nat>, al: seq<(nat, nat)>)
    requires Valid(cc) && |st| == |tt| && Matched(src, trg, |st|, ms, ix, al)
    requires TokenOffset(cc, TokenizeParts(cc, src), st).Ok? && TokenOffset(cc, TokenizeParts(cc, trg), tt).Ok?
    ensures var so := TokenOffset(cc, TokenizeParts(cc, src), st).value;
      var to := TokenOffset(cc, TokenizeParts(cc, trg), tt).value;
      var r := MakeAlignments(cc, al, Side(so, TokenizeParts(cc, src), st), Side(to, TokenizeParts(cc, trg), tt));
      && r.Ok?
      && SpanProducts(r.value, st, tt, Permute(At(so, ix), ms), Permute(At(to, Seconds(al)), ms))
  {
    var tpS := TokenizeParts(cc, src);
    var tpT := TokenizeParts(cc, trg);
    FlattenOk(cc, tpS, st);
    FlattenOk(cc, tpT, tt);
    var so := TokenOffset(cc, tpS, st).value;
    var to := TokenOffset(cc, tpT, tt).value;
    PairsYieldProducts(cc, src, trg, st, tt, so, to, ms, ix, al);
    var xs := At(so, ix);
    var ys := At(to, Seconds(al));
    ProductsCover(cc, al, Side(so, tpS, st), Side(to, tpT, tt), xs, ys, st, tt, ms);
    Reindex(MakeAlignments(cc, al, Side(so, tpS, st), Side(to, tpT, tt)).value, ms, st, tt, xs, ys);
  }

  /** On a well-formed sample, the placeholder parts of the two sides match up. */
  lemma SampleMatched(cc: CharClass, srcText: string, trgText: string, pairs: seq<SpanPair>)
    requires WellFormedSample(cc, srcText, trgText, pairs)
    ensures var src := PartsOf(cc, srcText, pairs, true);
      var trg := PartsOf(cc, trgText, pairs, false);
      && AlignParts(cc, src, trg).Ok?
      && Matched(src, trg, |pairs|, MarkersOf(srcText, pairs, true), PlaceholderIndices(cc, src, 0), AlignParts(cc, src, trg).value)
  {
    var src := PartsOf(cc, srcText, pairs, true);
    var trg := PartsOf(cc, trgText, pairs, false);
    var ms := MarkersOf(srcText, pairs, true);
    SideShaped(cc, srcText, pairs, true);
    SideShaped(cc, trgText, pairs, false);
    MatchedSides(cc, src, ms, trg, MarkersOf(trgText, pairs, false), |pairs|);
    assert Enumerates(ms, |pairs|);
  }

  /** The steps of `process_sample` on a well-formed sample all succeed, and the alignment
      they build pairs exactly the tokens of the same span. */
  lemma Assembled(cc: CharClass, srcText: string, trgText: string, pairs: seq<SpanPair>)
    requires WellFormedSample(cc, srcText, trgText, pairs)
    ensures var src := PartsOf(cc, srcText, pairs, true);
      var trg := PartsOf(cc, trgText, pairs, false);
      var st := SpanTokenLists(cc, srcText, pairs, true);
      var tt := SpanTokenLists(cc, trgText, pairs, false);
      && AlignParts(cc, src, trg).Ok? && |AlignParts(cc, src, trg).value| == |pairs|
      && TokenOffset(cc, TokenizeParts(cc, src), st).Ok?
      && TokenOffset(cc, TokenizeParts(cc, trg), tt).Ok?
      && var alignments := MakeAlignments(cc, AlignParts(cc, src, trg).value,
           Side(TokenOffset(cc, TokenizeParts(cc, src), st).value, TokenizeParts(cc, src), st),
           Side(TokenOffset(cc, TokenizeParts(cc, trg), tt).value, TokenizeParts(cc, trg), tt));
      && alignments.Ok?
      && exists ss: seq<nat>, ts: seq<nat> :: AlignsSpans((alignments.value,
           CombineTokens(cc, TokenizeParts(cc, src), st).value, CombineTokens(cc, TokenizeParts(cc, trg), tt).value),
           st, tt, ss, ts, cc)
  {
    var src := PartsOf(cc, srcText, pairs, true);
    var trg := PartsOf(cc, trgText, pairs, false);
    var st := SpanTokenLists(cc, srcText, pairs, true);
    var tt := SpanTokenLists(cc, trgText, pairs, false);
    SideFacts(cc, srcText, pairs, true);
    SideFacts(cc, trgText, pairs, false);
    SampleMatched(cc, srcText, trgText, pairs);
    Outcome(cc, src, trg, st, tt, MarkersOf(srcText, pairs, true), PlaceholderIndices(cc, src, 0), AlignParts(cc, src, trg).value);
  }

  /** Matched parts whose offsets resolve give the intended outcome. */
  lemma Outcome(cc: CharClass, src: seq<string>, trg: seq<string>, st: seq<seq<string>>, tt: seq<seq<string>>,
                ms: seq<nat>, ix: seq<nat>, al: seq<(nat, nat)>)
    requires Valid(cc) && |st| == |tt| && Matched(src, trg, |st|, ms, ix, al)
    requires TokenOffset(cc, TokenizeParts(cc, src), st).Ok? && TokenOffset(cc, TokenizeParts(cc, trg), tt).Ok?
    requires Words(cc, CombineTokens(cc, TokenizeParts(cc, src), st).value) == Flatten(cc, TokenizeParts(cc, src), st).value
    requires Words(cc, CombineTokens(cc, TokenizeParts(cc, trg), tt).value) == Flatten(cc, TokenizeParts(cc, trg), tt).value
    ensures var alignments := MakeAlignments(cc, al,
           Side(TokenOffset(cc, TokenizeParts(cc, src), st).value, TokenizeParts(cc, src), st),
           Side(TokenOffset(cc, TokenizeParts(cc, trg), tt).value, TokenizeParts(cc, trg), tt));
      && alignments.Ok?
      && exists ss: seq<nat>, ts: seq<nat> :: AlignsSpans((alignments.value,
           CombineTokens(cc, TokenizeParts(cc, src), st).value, CombineTokens(cc, TokenizeParts(cc, trg), tt).value),
           st, tt, ss, ts, cc)
  {
    MatchedLaid(src, trg, |st|, ms, ix, al);
    SideLaid(cc, src, st, ms, ix);
    SideLaid(cc, trg, tt, ms, Seconds(al));
    AlignedRectangles(cc, src, trg, st, tt, ms, ix, al);
    var so := TokenOffset(cc, TokenizeParts(cc, src), st).value;
    var to := TokenOffset(cc, TokenizeParts(cc, trg), tt).value;
    var alignments := MakeAlignments(cc, al, Side(so, TokenizeParts(cc, src), st), Side(to, TokenizeParts(cc, trg), tt)).value;
    var out := (alignments, CombineTokens(cc, TokenizeParts(cc, src), st).value, CombineTokens(cc, TokenizeParts(cc, trg), tt).value);
    assert AlignsSpans(out, st, tt, Permute(At(so, ix), ms), Permute(At(to, Seconds(al)), ms), cc);
  }

  /** `process_sample` on a sample with `§`-free texts and in-bounds, non-empty, pairwise
      disjoint spans on each side succeeds; the rebuilt source and target texts hold every
      span's tokens as one block, and the alignment pairs are exactly the pairs of a source
      token and a target token of the same span. */
  lemma SampleAlignsSpans(cc: CharClass, srcText: string, trgText: string, pairs: seq<SpanPair>)
    requires WellFormedSample(cc, srcText, trgText, pairs)
    ensures ProcessSample(cc, srcText, trgText, pairs).Ok?
    ensures exists ss: seq<nat>, ts: seq<nat> :: AlignsSpans(ProcessSample(cc, srcText, trgText, pairs).value,
      SpanTokenLists(cc, srcText, pairs, true), SpanTokenLists(cc, trgText, pairs, false), ss, ts, cc)
  {
    Assembled(cc, srcText, trgText, pairs);
    ProcessSampleOk(cc, srcText, trgText, pairs);
  }

  // ---------------------------------------------------------------- the error paths

  /** One side's placeholder parts are `§m[0]`, `§m[1]`, ... for the placeholders `m` the
      rewrite emitted, in order. */
  lemma SideSlotParts(cc: CharClass, text: string, pairs: seq<SpanPair>, isSource: bool)
    requires Valid(cc) && Section !in text && AllInBounds(SideRanges(pairs, isSource), |text|)
    ensures var parts := PartsOf(cc, text, pairs, isSource);
      var ix := PlaceholderIndices(cc, parts, 0);
      var m := MarkersOf(text, pairs, isSource);
      && |ix| == |m|
      && forall a :: 0 <= a < |ix| ==> parts[ix[a]] == SlotText(m[a])
  {
    var parts := PartsOf(cc, text, pairs, isSource);
    PlaceholderParts(cc, text, SideRanges(pairs, isSource));
    SlotsAtIndices(cc, parts, 0);
    assert parts[0..] == parts;
  }

  lemma SlotTextInjective(cc: CharClass, j: nat, k: nat)
    requires Valid(cc) && SlotText(j) == SlotText(k)
    ensures j == k
  {
    SpecialToIndexSlot(cc, j);
    SpecialToIndexSlot(cc, k);
  }

  /** Every source placeholder part finds an identical target part exactly when every span
      index with a source placeholder also has a target placeholder. */
  lemma MatchedIffMarkers(cc: CharClass, srcText: string, trgText: string, pairs: seq<SpanPair>)
    requires Valid(cc) && Section !in srcText && Section !in trgText && SpansInBounds(srcText, trgText, pairs)
    ensures AllMatched(cc, PartsOf(cc, srcText, pairs, true), PartsOf(cc, trgText, pairs, false), 0) <==>
      forall k :: k in MarkersOf(srcText, pairs, true) ==> k in MarkersOf(trgText, pairs, false)
  {
    SideSlotParts(cc, srcText, pairs, true);
    SideSlotParts(cc, trgText, pairs, false);
    MatchedIffSlots(cc, PartsOf(cc, srcText, pairs, true), MarkersOf(srcText, pairs, true),
                    PartsOf(cc, trgText, pairs, false), MarkersOf(trgText, pairs, false));
  }

  /** Part lists whose placeholder parts are the slots of `ms` and `mt` match exactly when
      every index of `ms` occurs in `mt`. */
  lemma MatchedIffSlots(cc: CharClass, src: seq<string>, ms: seq<nat>, trg: seq<string>, mt: seq<nat>)
    requires Valid(cc)
    requires |PlaceholderIndices(cc, src, 0)| == |ms|
    requires forall a :: 0 <= a < |ms| ==> src[PlaceholderIndices(cc, src, 0)[a]] == SlotText(ms[a])
    requires |PlaceholderIndices(cc, trg, 0)| == |mt|
    requires forall b :: 0 <= b < |mt| ==> trg[PlaceholderIndices(cc, trg, 0)[b]] == SlotText(mt[b])
    ensures AllMatched(cc, src, trg, 0) <==> forall k :: k in ms ==> k in mt
  {
    if AllMatched(cc, src, trg, 0) {
      MatchedSlotsCovered(cc, src, ms, trg, mt);
    }
    if forall k :: k in ms ==> k in mt {
      CoveredSlotsMatched(cc, src, ms, trg, mt);
    }
  }

  lemma MatchedSlotsCovered(cc: CharClass, src: seq<string>, ms: seq<nat>, trg: seq<string>, mt: seq<nat>)
    requires Valid(cc)
    requires |PlaceholderIndices(cc, src, 0)| == |ms|
    requires forall a :: 0 <= a < |ms| ==> src[PlaceholderIndices(cc, src, 0)[a]] == SlotText(ms[a])
    requires |PlaceholderIndices(cc, trg, 0)| == |mt|
    requires forall b :: 0 <= b < |mt| ==> trg[PlaceholderIndices(cc, trg, 0)[b]] == SlotText(mt[b])
    requires AllMatched(cc, src, trg, 0)
    ensures forall k :: k in ms ==> k in mt
  {
    forall k | k in ms
      ensures k in mt
    {
      var a := Position(ms, k);
      MatchedSlot(cc, src, ms, trg, mt, a);
    }
  }

  lemma MatchedSlot(cc: CharClass, src: seq<string>, ms: seq<nat>, trg: seq<string>, mt: seq<nat>, a: nat)
    requires Valid(cc)
    requires |PlaceholderIndices(cc, src, 0)| == |ms|
    requires forall a :: 0 <= a < |ms| ==> src[PlaceholderIndices(cc, src, 0)[a]] == SlotText(ms[a])
    requires |PlaceholderIndices(cc, trg, 0)| == |mt|
    requires forall b :: 0 <= b < |mt| ==> trg[PlaceholderIndices(cc, trg, 0)[b]] == SlotText(mt[b])
    requires AllMatched(cc, src, trg, 0) && a < |ms|
    ensures ms[a] in mt
  {
    var ixS := PlaceholderIndices(cc, src, 0);
    var ixT := PlaceholderIndices(cc, trg, 0);
    var p := src[ixS[a]];
    SlotPart(cc, ms[a]);
    var j := Position(trg, p);
    var b := Position(ixT, j);
    SlotTextInjective(cc, ms[a], mt[b]);
  }

  /** A position at which `x` occurs in `s`. */
  lemma Position<T>(s: seq<T>, x: T) returns (j: nat)
    requires x in s
    ensures j < |s| && s[j] == x
  {
    j :| 0 <= j < |s| && s[j] == x;
  }

  lemma CoveredSlotsMatched(cc: CharClass, src: seq<string>, ms: seq<nat>, trg: seq<string>, mt: seq<nat>)
    requires Valid(cc)
    requires |PlaceholderIndices(cc, src, 0)| == |ms|
    requires forall a :: 0 <= a < |ms| ==> src[PlaceholderIndices(cc, src, 0)[a]] == SlotText(ms[a])
    requires |PlaceholderIndices(cc, trg, 0)| == |mt|
    requires forall b :: 0 <= b < |mt| ==> trg[PlaceholderIndices(cc, trg, 0)[b]] == SlotText(mt[b])
    requires forall k :: k in ms ==> k in mt
    ensures AllMatched(cc, src, trg, 0)
  {
    forall j | 0 <= j < |src| && IsPlaceholderPart(cc, src[j])
      ensures src[j] in trg
    {
      CoveredSlot(cc, src, ms, trg, mt, j);
    }
  }

  lemma CoveredSlot(cc: CharClass, src: seq<string>, ms: seq<nat>, trg: seq<string>, mt: seq<nat>, j: nat)
    requires Valid(cc)
    requires |PlaceholderIndices(cc, src, 0)| == |ms|
    requires forall a :: 0 <= a < |ms| ==> src[PlaceholderIndices(cc, src, 0)[a]] == SlotText(ms[a])
    requires |PlaceholderIndices(cc, trg, 0)| == |mt|
    requires forall b :: 0 <= b < |mt| ==> trg[PlaceholderIndices(cc, trg, 0)[b]] == SlotText(mt[b])
    requires forall k :: k in ms ==> k in mt
    requires j < |src| && IsPlaceholderPart(cc, src[j])
    ensures src[j] in trg
  {
    var ixS := PlaceholderIndices(cc, src, 0);
    var ixT := PlaceholderIndices(cc, trg, 0);
    var a := Position(ixS, j);
    assert ms[a] in ms;
    var b := Position(mt, ms[a]);
    assert trg[ixT[b]] == src[j];
  }

  /** `process_sample` raises `ValueError` when some span index has a source placeholder but
      no target placeholder (line 161), and otherwise fails its assertion when the number of
      source placeholders differs from the number of spans (line 163). */
  lemma ProcessSampleFails(cc: CharClass, srcText: string, trgText: string, pairs: seq<SpanPair>)
    requires Valid(cc) && Section !in srcText && Section !in trgText && SpansInBounds(srcText, trgText, pairs)
    ensures (exists k :: k in MarkersOf(srcText, pairs, true) && k !in MarkersOf(trgText, pairs, false)) ==>
      ProcessSample(cc, srcText, trgText, pairs).Err? && ProcessSample(cc, srcText, trgText, pairs).error.ValueError?
    ensures ((forall k :: k in MarkersOf(srcText, pairs, true) ==> k in MarkersOf(trgText, pairs, false)) &&
             |MarkersOf(srcText, pairs, true)| != |pairs|) ==>
      ProcessSample(cc, srcText, trgText, pairs) == Err(AssertionError("Missing aligned tokens"))
  {
    MatchedIffMarkers(cc, srcText, trgText, pairs);
    SideSlotParts(cc, srcText, pairs, true);
  }
}

=== FILE: text.dfy ===
/**
 * Python string primitives the repository relies on: `str.strip`, `str.split(sep)`,
 * `str.split()`, `sep.join`, `str(int)`, substring `in` and `str.lower`. The Unicode
 * tables behind `\s`, `\w`, `lower()` and the decimal digits `int()` reads are not
 * modelled: they are the fields of a `CharClass`, and `Valid` lists the facts about them
 * that the proofs rely on.
 */
module Text {

  /** Python's whitespace test (`\s`, `str.isspace`), word-character test (`\w`),
      lower-casing of one character to one character, and the value of a decimal digit of
      any script (`unicodedata.decimal`, negative for a character that is none), left
      abstract. */
  datatype CharClass = CharClass(isSpace: char -> bool, isWord: char -> bool, lower: char -> char, decimal: char -> int)

  /** The placeholder marker character. */
  const Section: char := '§'

  predicate IsDigit(c: char) {
    '0' <= c <= '9'
  }

  /** The characters of the regex class `[.,;:!?]`. */
  predicate IsPunct(c: char) {
    c == '.' || c == ',' || c == ';' || c == ':' || c == '!' || c == '?'
  }

  /** What the proofs assume about the abstract character tables. Each fact holds of
      Python's Unicode tables wherever they map one character to one character (see
      `Ascii` for a concrete instance). */
  ghost predicate Valid(cc: CharClass) {
    && cc.isSpace(' ')
    && !cc.isSpace('-') && !cc.isSpace('+') && !cc.isSpace('\'') && !cc.isSpace(Section)
    && !cc.isWord('-') && !cc.isWord('\'')
    && (forall c :: IsDigit(c) ==> !cc.isSpace(c))
    && (forall c :: cc.isWord(c) ==> !cc.isSpace(c))
    && (forall c :: cc.lower(cc.lower(c)) == cc.lower(c))
    && (forall c :: cc.lower(c) == '-' <==> c == '-')
    && (forall c :: cc.lower(c) == Section <==> c == Section)
    && (forall c :: cc.isSpace(cc.lower(c)) <==> cc.isSpace(c))
    && (forall c :: IsPunct(cc.lower(c)) ==> IsPunct(c))
    && (forall c :: IsDigit(c) ==> cc.decimal(c) == c as int - '0' as int)
    && (forall c :: cc.decimal(c) < 10)
    && (forall c :: 0 <= cc.decimal(c) ==> !cc.isSpace(c))
    && cc.decimal('+') < 0 && cc.decimal('-') < 0 && cc.decimal('_') < 0
  }

  predicate IsAsciiSpace(c: char) {
    c == ' ' || '\t' <= c <= '\r' || '\U{1C}' <= c <= '\U{1F}' || c == '\U{85}' || c == '\U{A0}'
  }

  predicate IsLatin1Upper(c: char) {
    'A' <= c <= 'Z' || ('À' <= c <= 'Þ' && c != '×')
  }

  predicate IsLatin1Word(c: char) {
    || 'a' <= c <= 'z' || 'A' <= c <= 'Z' || IsDigit(c) || c == '_'
    || c == 'ª' || c == 'µ' || c == 'º'
    || c == '²' || c == '³' || c == '¹' || ('¼' <= c <= '¾')
    || ('À' <= c <= 'ÿ' && c != '×' && c != '÷')
  }

  function Latin1Lower(c: char): char {
    if IsLatin1Upper(c) then (c as int + 32) as char else c
  }

  /** The ASCII digits are the only decimal digits of the Latin-1 range. */
  function AsciiDecimal(c: char): int {
    if IsDigit(c) then c as int - '0' as int else -1
  }

  /** Python's tables restricted to the Latin-1 range (every other character is treated as
      neither space, word character nor digit, and is left unchanged by `lower`). */
  const Ascii: CharClass := CharClass(IsAsciiSpace, IsLatin1Word, Latin1Lower, AsciiDecimal)

  lemma AsciiValid()
    ensures Valid(Ascii)
  {
  }

  /** `s.lower()`, one character at a time. */
  function Lower(cc: CharClass, s: string): (r: string)
    ensures |r| == |s|
    ensures forall i :: 0 <= i < |s| ==> r[i] == cc.lower(s[i])
  {
    seq(|s|, i requires 0 <= i < |s| => cc.lower(s[i]))
  }

  /** Lower-casing a second time changes nothing, and every `-`, `§` and whitespace
      character stays one, in place. */
  lemma LowerIdempotent(cc: CharClass, s: string)
    requires Valid(cc)
    ensures Lower(cc, Lower(cc, s)) == Lower(cc, s)
    ensures forall i :: 0 <= i < |s| ==> (Lower(cc, s)[i] == '-' <==> s[i] == '-')
    ensures forall i :: 0 <= i < |s| ==> (Lower(cc, s)[i] == Section <==> s[i] == Section)
    ensures forall i :: 0 <= i < |s| ==> (cc.isSpace(Lower(cc, s)[i]) <==> cc.isSpace(s[i]))
  {
  }

  /** `t` occurs as a contiguous piece of `s`. */
  ghost predicate IsSlice(t: string, s: string) {
    exists a, b :: 0 <= a <= b <= |s| && t == s[a..b]
  }

  lemma SliceOfSlice(u: string, t: string, s: string)
    requires IsSlice(u, t) && IsSlice(t, s)
    ensures IsSlice(u, s)
  {
    var a, b :| 0 <= a <= b <= |t| && u == t[a..b];
    var c, d :| 0 <= c <= d <= |s| && t == s[c..d];
    assert forall i :: 0 <= i < b - a ==> u[i] == t[a + i] == s[c + a + i];
    assert u == s[c + a..c + b];
  }

  // ---------------------------------------------------------------- strip

  /** `s.lstrip()` */
  function LStrip(cc: CharClass, s: string): (r: string)
    ensures |r| <= |s| && r == s[|s| - |r|..]
    ensures |r| > 0 ==> !cc.isSpace(r[0])
    ensures forall i :: 0 <= i < |s| - |r| ==> cc.isSpace(s[i])
    decreases |s|
  {
    if |s| > 0 && cc.isSpace(s[0]) then LStrip(cc, s[1..]) else s
  }

  /** `s.rstrip()` */
  function RStrip(cc: CharClass, s: string): (r: string)
    ensures |r| <= |s| && r == s[..|r|]
    ensures |r| > 0 ==> !cc.isSpace(r[|r| - 1])
    ensures forall i :: |r| <= i < |s| ==> cc.isSpace(s[i])
    decreases |s|
  {
    if |s| > 0 && cc.isSpace(s[|s| - 1]) then RStrip(cc, s[..|s| - 1]) else s
  }

  /** Number of leading whitespace characters `s.strip()` removes. */
  function StripStart(cc: CharClass, s: string): nat {
    |s| - |LStrip(cc, s)|
  }

  /** `s.strip()`: the slice `s[a..a + |r|]` left after removing whitespace on both ends. */
  function Strip(cc: CharClass, s: string): (r: string)
    ensures StripStart(cc, s) + |r| <= |s|
    ensures r == s[StripStart(cc, s)..StripStart(cc, s) + |r|]
    ensures forall i :: 0 <= i < StripStart(cc, s) ==> cc.isSpace(s[i])
    ensures forall i :: StripStart(cc, s) + |r| <= i < |s| ==> cc.isSpace(s[i])
    ensures |r| > 0 ==> !cc.isSpace(r[0]) && !cc.isSpace(r[|r| - 1])
  {
    RStrip(cc, LStrip(cc, s))
  }

  lemma StripIsSlice(cc: CharClass, s: string)
    ensures IsSlice(Strip(cc, s), s)
  {
    var a := StripStart(cc, s);
    SliceAt(Strip(cc, s), s, a, a + |Strip(cc, s)|);
  }

  lemma SliceAt(t: string, s: string, a: nat, b: nat)
    requires a <= b <= |s| && t == s[a..b]
    ensures IsSlice(t, s)
  {
  }

  /** Every character of `p` is whitespace. */
  predicate Blank(cc: CharClass, p: string) {
    forall i :: 0 <= i < |p| ==> cc.isSpace(p[i])
  }

  lemma {:induction false} LStripBlank(cc: CharClass, p: string, u: string)
    requires Blank(cc, p) && (|u| > 0 ==> !cc.isSpace(u[0]))
    ensures LStrip(cc, p + u) == u
    decreases |p|
  {
    if |p| == 0 {
      assert p + u == u;
    } else {
      assert (p + u)[1..] == p[1..] + u;
      LStripBlank(cc, p[1..], u);
    }
  }

  lemma {:induction false} RStripBlank(cc: CharClass, u: string, q: string)
    requires Blank(cc, q) && (|u| > 0 ==> !cc.isSpace(u[|u| - 1]))
    ensures RStrip(cc, u + q) == u
    decreases |q|
  {
    if |q| == 0 {
      assert u + q == u;
    } else {
      var n := |u + q|;
      assert (u + q)[n - 1] == q[|q| - 1];
      assert (u + q)[..n - 1] == u + q[..|q| - 1];
      RStripBlank(cc, u, q[..|q| - 1]);
    }
  }

  /** Stripping removes exactly the whitespace padding around a string that neither starts
      nor ends with whitespace. */
  lemma StripPadding(cc: CharClass, p: string, t: string, q: string)
    requires Blank(cc, p) && Blank(cc, q)
    requires |t| > 0 && !cc.isSpace(t[0]) && !cc.isSpace(t[|t| - 1])
    ensures Strip(cc, p + t + q) == t
  {
    assert p + t + q == p + (t + q);
    assert (t + q)[0] == t[0];
    LStripBlank(cc, p, t + q);
    RStripBlank(cc, t, q);
  }

  /** A string is its stripped form between the whitespace `strip()` removed. */
  lemma StripSplit(cc: CharClass, s: string)
    ensures var a, t := StripStart(cc, s), Strip(cc, s);
      s == s[..a] + t + s[a + |t|..] && Blank(cc, s[..a]) && Blank(cc, s[a + |t|..])
  {
    var a, t := StripStart(cc, s), Strip(cc, s);
    assert s == s[..a] + s[a..a + |t|] + s[a + |t|..];
  }

  /** Stripping a string that has no whitespace at either end changes nothing. */
  lemma StripNoop(cc: CharClass, s: string)
    requires |s| > 0 ==> !cc.isSpace(s[0]) && !cc.isSpace(s[|s| - 1])
    ensures Strip(cc, s) == s
  {
    assert LStrip(cc, s) == s;
  }

  lemma StripIdempotent(cc: CharClass, s: string)
    ensures Strip(cc, Strip(cc, s)) == Strip(cc, s)
  {
    StripNoop(cc, Strip(cc, s));
  }

  /** `map(lambda x: x.strip(), ps)` */
  function StripAll(cc: CharClass, ps: seq<string>): (r: seq<string>)
    ensures |r| == |ps|
    ensures forall k :: 0 <= k < |ps| ==> r[k] == Strip(cc, ps[k])
  {
    seq(|ps|, k requires 0 <= k < |ps| => Strip(cc, ps[k]))
  }

  /** `[p for p in ps if p != '']` */
  function DropEmpty(ps: seq<string>): (r: seq<string>)
    ensures |r| <= |ps|
    ensures forall k :: 0 <= k < |r| ==> |r[k]| > 0 && r[k] in ps
    ensures forall k :: 0 <= k < |ps| && |ps[k]| > 0 ==> ps[k] in r
    ensures multiset(r) == multiset(ps)["" := 0]
    ensures (forall k :: 0 <= k < |ps| ==> ps[k] != "") ==> r == ps
  {
    if |ps| == 0 then []
    else
      assert ps == [ps[0]] + ps[1..];
      if ps[0] == "" then DropEmpty(ps[1..])
      else [ps[0]] + DropEmpty(ps[1..])
  }

  /** The first string is kept exactly when it is non-empty. */
  lemma DropEmptyHead(ps: seq<string>)
    requires |ps| > 0
    ensures DropEmpty(ps) == (if ps[0] == "" then [] else [ps[0]]) + DropEmpty(ps[1..])
  {
    if ps[0] == "" {
      assert [] + DropEmpty(ps[1..]) == DropEmpty(ps[1..]);
    }
  }

  /** Dropping the empty strings of two lists one after the other is dropping them from
      each list: the kept strings stay in their order. */
  lemma {:induction false} DropEmptyConcat(a: seq<string>, b: seq<string>)
    ensures DropEmpty(a + b) == DropEmpty(a) + DropEmpty(b)
  {
    if |a| > 0 {
      assert (a + b)[1..] == a[1..] + b;
      DropEmptyConcat(a[1..], b);
    } else {
      assert a + b == b;
    }
  }

  // ---------------------------------------------------------------- split / join

  /** Position of the first `c` in `s`, or `|s|` when there is none. */
  function IndexOf(s: string, c: char): (i: nat)
    ensures i <= |s|
    ensures i < |s| ==> s[i] == c
    ensures forall j :: 0 <= j < i ==> s[j] != c
  {
    if |s| == 0 || s[0] == c then 0 else 1 + IndexOf(s[1..], c)
  }

  /** `s.split(sep)` for a one-character separator: never empty, and no piece holds `sep`. */
  function Split(s: string, sep: char): (r: seq<string>)
    ensures |r| > 0
    ensures forall k :: 0 <= k < |r| ==> sep !in r[k]
    decreases |s|
  {
    var i := IndexOf(s, sep);
    if i == |s| then [s] else [s[..i]] + Split(s[i + 1..], sep)
  }

  /** `sep.join(parts)` */
  function Join(parts: seq<string>, sep: char): string {
    if |parts| == 0 then ""
    else if |parts| == 1 then parts[0]
    else parts[0] + [sep] + Join(parts[1..], sep)
  }

  lemma {:induction false} SplitPiecesAreSlices(s: string, sep: char)
    ensures forall k :: 0 <= k < |Split(s, sep)| ==> IsSlice(Split(s, sep)[k], s)
    decreases |s|
  {
    var i := IndexOf(s, sep);
    if i < |s| {
      var rest := s[i + 1..];
      SplitPiecesAreSlices(rest, sep);
      var r := Split(rest, sep);
      assert Split(s, sep) == [s[..i]] + r;
      SliceAt(rest, s, i + 1, |s|);
      forall k | 0 <= k < |Split(s, sep)|
        ensures IsSlice(Split(s, sep)[k], s)
      {
        if k == 0 {
          SliceAt(s[..i], s, 0, i);
        } else {
          assert Split(s, sep)[k] == r[k - 1];
          SliceOfSlice(r[k - 1], rest, s);
        }
      }
    } else {
      SliceAt(s, s, 0, |s|);
    }
  }

  /** Splitting a joined list on the separator gives the list back, provided no part holds the separator. */
  lemma {:induction false} SplitJoin(parts: seq<string>, sep: char)
    requires |parts| > 0
    requires forall k :: 0 <= k < |parts| ==> sep !in parts[k]
    ensures Split(Join(parts, sep), sep) == parts
  {
    var s := Join(parts, sep);
    if |parts| == 1 {
      assert IndexOf(s, sep) == |s|;
    } else {
      var p := parts[0];
      assert s == p + [sep] + Join(parts[1..], sep);
      IndexOfPrefix(p, sep, Join(parts[1..], sep));
      assert s[..|p|] == p;
      assert s[|p| + 1..] == Join(parts[1..], sep);
      SplitJoin(parts[1..], sep);
    }
  }

  lemma {:induction false} IndexOfPrefix(p: string, sep: char, rest: string)
    requires sep !in p
    ensures IndexOf(p + [sep] + rest, sep) == |p|
  {
    if |p| > 0 {
      assert (p + [sep] + rest)[1..] == p[1..] + [sep] + rest;
      IndexOfPrefix(p[1..], sep, rest);
    }
  }

  /** Joining the pieces of a split gives the original string back. */
  lemma {:induction false} JoinSplit(s: string, sep: char)
    ensures Join(Split(s, sep), sep) == s
    decreases |s|
  {
    var i := IndexOf(s, sep);
    if i < |s| {
      var head := s[..i];
      var tail := s[i + 1..];
      JoinSplit(tail, sep);
      var r := Split(tail, sep);
      assert Split(s, sep) == [head] + r;
      JoinCons(head, r, sep);
      assert s == head + [sep] + tail;
    }
  }

  /** Joining a prefix of the pieces gives a prefix of the joined string. */
  lemma {:induction false} JoinPrefix(ps: seq<string>, m: nat, sep: char)
    requires 1 <= m <= |ps|
    ensures IsPrefix(Join(ps[..m], sep), Join(ps, sep))
  {
    if m > 1 {
      JoinPrefix(ps[1..], m - 1, sep);
      assert ps[..m][1..] == ps[1..][..m - 1];
      assert ps[..m][0] == ps[0];
    }
  }

  /** A single-space join of non-empty, whitespace-free words neither starts nor ends with
      whitespace. */
  lemma {:induction false} JoinSolidEnds(cc: CharClass, ws: seq<string>)
    requires |ws| > 0
    requires forall k :: 0 <= k < |ws| ==> Solid(cc, ws[k])
    ensures |Join(ws, ' ')| > 0
    ensures !cc.isSpace(Join(ws, ' ')[0]) && !cc.isSpace(Join(ws, ' ')[|Join(ws, ' ')| - 1])
  {
    if |ws| > 1 {
      JoinSolidEnds(cc, ws[1..]);
      var t := Join(ws[1..], ' ');
      assert Join(ws, ' ') == ws[0] + [' '] + t;
      assert Solid(cc, ws[0]);
      assert Join(ws, ' ')[0] == ws[0][0];
    } else {
      assert Solid(cc, ws[0]);
    }
  }

  lemma JoinCons(p: string, ps: seq<string>, sep: char)
    requires |ps| > 0
    ensures Join([p] + ps, sep) == p + [sep] + Join(ps, sep)
  {
    assert ([p] + ps)[0] == p;
    assert ([p] + ps)[1..] == ps;
  }

  // ---------------------------------------------------------------- split()

  /** Length of the leading run of non-whitespace characters. */
  function WordLen(cc: CharClass, s: string): (n: nat)
    ensures n <= |s|
    ensures forall j :: 0 <= j < n ==> !cc.isSpace(s[j])
    ensures n < |s| ==> cc.isSpace(s[n])
  {
    if |s| == 0 || cc.isSpace(s[0]) then 0 else 1 + WordLen(cc, s[1..])
  }

  /** A non-empty string without whitespace. */
  ghost predicate Solid(cc: CharClass, w: string) {
    |w| > 0 && forall j :: 0 <= j < |w| ==> !cc.isSpace(w[j])
  }

  /** `s.split()` with no argument: the maximal runs of non-whitespace characters. */
  function Words(cc: CharClass, s: string): (r: seq<string>)
    ensures forall k :: 0 <= k < |r| ==> Solid(cc, r[k])
    decreases |s|
  {
    if |s| == 0 then []
    else if cc.isSpace(s[0]) then Words(cc, s[1..])
    else
      var n := WordLen(cc, s);
      [s[..n]] + Words(cc, s[n..])
  }

  /** `split()` undoes a single-space `join` of non-empty, whitespace-free words. */
  lemma {:induction false} WordsJoin(cc: CharClass, ws: seq<string>)
    requires cc.isSpace(' ')
    requires forall k :: 0 <= k < |ws| ==> Solid(cc, ws[k])
    ensures Words(cc, Join(ws, ' ')) == ws
  {
    if |ws| == 1 {
      WordLenAll(cc, ws[0], "");
      assert ws[0] + "" == ws[0];
      assert ws[0][|ws[0]|..] == "";
    } else if |ws| > 1 {
      var w := ws[0];
      assert Solid(cc, w);
      var rest := Join(ws[1..], ' ');
      var s := w + [' '] + rest;
      JoinCons(w, ws[1..], ' ');
      assert ws == [w] + ws[1..];
      WordLenAll(cc, w, [' '] + rest);
      assert s == w + ([' '] + rest);
      assert s[..|w|] == w;
      assert s[|w|..] == [' '] + rest;
      assert Words(cc, [' '] + rest) == Words(cc, rest) by {
        assert ([' '] + rest)[1..] == rest;
      }
      assert forall k :: 0 <= k < |ws| - 1 ==> ws[1..][k] == ws[k + 1];
      WordsJoin(cc, ws[1..]);
    }
  }

  /** `split()` cuts at every whitespace character: the words around one are the words
      before it followed by the words after it. */
  lemma {:induction false} WordsCut(cc: CharClass, a: string, c: char, b: string)
    requires cc.isSpace(c)
    ensures Words(cc, a + [c] + b) == Words(cc, a) + Words(cc, b)
    decreases |a|, 1
  {
    var s := a + [c] + b;
    if |a| == 0 {
      assert s == [c] + b;
      WordsSkip(cc, s);
      assert s[1..] == b;
    } else if cc.isSpace(a[0]) {
      assert s[0] == a[0];
      WordsSkip(cc, s);
      WordsSkip(cc, a);
      assert s[1..] == a[1..] + [c] + b;
      WordsCut(cc, a[1..], c, b);
    } else {
      WordsCutWord(cc, a, c, b);
    }
  }

  /** `WordsCut` when `a` starts with a word: that word comes first on both sides. */
  lemma {:induction false} WordsCutWord(cc: CharClass, a: string, c: char, b: string)
    requires cc.isSpace(c) && |a| > 0 && !cc.isSpace(a[0])
    ensures Words(cc, a + [c] + b) == Words(cc, a) + Words(cc, b)
    decreases |a|, 0
  {
    var s := a + [c] + b;
    var m := WordLen(cc, a);
    WordLenCut(cc, a, [c] + b);
    assert s == a + ([c] + b);
    assert s[0] == a[0];
    WordsTake(cc, s);
    WordsTake(cc, a);
    assert s[..m] == a[..m];
    assert s[m..] == a[m..] + [c] + b;
    WordsCut(cc, a[m..], c, b);
    ConsAppend(a[..m], Words(cc, a[m..]), Words(cc, b));
  }

  lemma ConsAppend<T>(x: T, ys: seq<T>, zs: seq<T>)
    ensures [x] + (ys + zs) == [x] + ys + zs
  {
  }

  /** A leading whitespace character yields no word. */
  lemma WordsSkip(cc: CharClass, s: string)
    requires |s| > 0 && cc.isSpace(s[0])
    ensures Words(cc, s) == Words(cc, s[1..])
  {
  }

  /** A leading non-whitespace character starts the first word, which runs to the next
      whitespace character. */
  lemma WordsTake(cc: CharClass, s: string)
    requires |s| > 0 && !cc.isSpace(s[0])
    ensures Words(cc, s) == [s[..WordLen(cc, s)]] + Words(cc, s[WordLen(cc, s)..])
  {
  }

  /** A non-empty string without whitespace is one word; a string of whitespace has none.
      With `WordsCut` this fixes `Words` on every string. */
  lemma WordsOfRun(cc: CharClass, w: string)
    ensures Solid(cc, w) ==> Words(cc, w) == [w]
    ensures (forall i :: 0 <= i < |w| ==> cc.isSpace(w[i])) ==> Words(cc, w) == []
  {
    if Solid(cc, w) {
      WordLenAll(cc, w, "");
      assert w + "" == w;
      assert w[|w|..] == "";
    } else if forall i :: 0 <= i < |w| ==> cc.isSpace(w[i]) {
      WordsBlank(cc, w);
    }
  }

  lemma {:induction false} WordsBlank(cc: CharClass, w: string)
    requires forall i :: 0 <= i < |w| ==> cc.isSpace(w[i])
    ensures Words(cc, w) == []
    decreases |w|
  {
    if |w| > 0 {
      WordsBlank(cc, w[1..]);
    }
  }

  /** The leading run of non-whitespace is not lengthened by what follows, when the run ends
      inside the string or what follows starts with whitespace. */
  lemma {:induction false} WordLenCut(cc: CharClass, a: string, t: string)
    requires WordLen(cc, a) < |a| || (|t| > 0 && cc.isSpace(t[0]))
    ensures WordLen(cc, a + t) == WordLen(cc, a)
    decreases |a|
  {
    if |a| == 0 {
      assert a + t == t;
    } else if !cc.isSpace(a[0]) {
      assert (a + t)[1..] == a[1..] + t;
      WordLenCut(cc, a[1..], t);
    }
  }

  lemma {:induction false} WordLenAll(cc: CharClass, w: string, rest: string)
    requires forall j :: 0 <= j < |w| ==> !cc.isSpace(w[j])
    requires |rest| > 0 ==> cc.isSpace(rest[0])
    ensures WordLen(cc, w + rest) == |w|
    decreases |w|
  {
    if |w| > 0 {
      assert (w + rest)[1..] == w[1..] + rest;
      WordLenAll(cc, w[1..], rest);
    } else {
      assert w + rest == rest;
    }
  }

  // ---------------------------------------------------------------- decimal digits

  predicate AllDigits(s: string) {
    forall i :: 0 <= i < |s| ==> IsDigit(s[i])
  }

  function DigitChar(d: nat): (c: char)
    requires d < 10
    ensures IsDigit(c)
  {
    ('0' as int + d) as char
  }

  function DigitValue(c: char): (d: nat)
    requires IsDigit(c)
    ensures d < 10
  {
    c as int - '0' as int
  }

  /** `str(n)` for a non-negative integer. */
  function NatToString(n: nat): (r: string)
    ensures |r| > 0 && AllDigits(r)
  {
    if n < 10 then [DigitChar(n)] else NatToString(n / 10) + [DigitChar(n % 10)]
  }

  /** `int(s)` for a non-empty string of ASCII digits. */
  function ParseDigits(s: string): nat
    requires AllDigits(s)
  {
    if |s| == 0 then 0 else 10 * ParseDigits(s[..|s| - 1]) + DigitValue(s[|s| - 1])
  }

  /** `int(str(n)) == n` */
  lemma {:induction false} ParseNatToString(n: nat)
    ensures ParseDigits(NatToString(n)) == n
  {
    var s := NatToString(n);
    if n >= 10 {
      assert s[..|s| - 1] == NatToString(n / 10);
      ParseNatToString(n / 10);
    }
  }

  // ---------------------------------------------------------------- substrings

  predicate IsPrefix(p: string, s: string) {
    |p| <= |s| && s[..|p|] == p
  }

  /** Python's `k in s` on strings. */
  predicate Contains(s: string, k: string)
    decreases |s|
  {
    IsPrefix(k, s) || (|s| > 0 && Contains(s[1..], k))
  }

  /** `k` occurs in `s` starting at position `i`. */
  ghost predicate OccursAt(s: string, k: string, i: int) {
    0 <= i <= |s| - |k| && s[i..i + |k|] == k
  }

  /** `Contains` holds exactly when `k` occurs at some position of `s`. */
  lemma {:induction false} ContainsIff(s: string, k: string)
    ensures Contains(s, k) <==> exists i :: OccursAt(s, k, i)
    decreases |s|
  {
    if IsPrefix(k, s) {
      assert OccursAt(s, k, 0);
    }
    if |s| > 0 {
      ContainsIff(s[1..], k);
      if exists i :: OccursAt(s, k, i) {
        var i :| OccursAt(s, k, i);
        if i > 0 {
          assert s[1..][i - 1..i - 1 + |k|] == s[i..i + |k|];
          assert OccursAt(s[1..], k, i - 1);
        } else {
          assert IsPrefix(k, s);
        }
      }
      if Contains(s[1..], k) {
        var i :| OccursAt(s[1..], k, i);
        assert s[1..][i..i + |k|] == s[i + 1..i + 1 + |k|];
        assert OccursAt(s, k, i + 1);
      }
    } else if exists i :: OccursAt(s, k, i) {
      var i :| OccursAt(s, k, i);
      assert IsPrefix(k, s);
    }
  }
}

=== FILE: tokenizer.dfy ===
/**
 * The part tokenizer of the alignment builder (`tokenize`): six regex/str passes modelled
 * as character scanners, then `split(' ')`, per-token `strip()` and dropping empty tokens.
 */
module Tokenizer {
  import opened Text

  /** Every character of `s` satisfies `P`. */
  ghost predicate AllChars(s: string, P: char -> bool) {
    forall i :: 0 <= i < |s| ==> P(s[i])
  }

  /** Every `-` has whitespace (or the end of the string) on both sides. */
  ghost predicate Isolated(cc: CharClass, s: string) {
    forall i :: 0 <= i < |s| && s[i] == '-' ==>
      (i == 0 || cc.isSpace(s[i - 1])) && (i + 1 == |s| || cc.isSpace(s[i + 1]))
  }

  /** Every apostrophe that follows a word character is followed by whitespace or the end. */
  ghost predicate ApostropheCloses(cc: CharClass, s: string) {
    forall k :: 0 < k < |s| && s[k] == '\'' && cc.isWord(s[k - 1]) ==>
      k + 1 == |s| || cc.isSpace(s[k + 1])
  }

  // ---------------------------------------------------------------- the passes

  /** `re.sub(r'[.,;:!?]', '', s)` */
  function RemovePunct(s: string): (r: string)
    ensures |r| <= |s|
    ensures forall i :: 0 <= i < |r| ==> !IsPunct(r[i])
    ensures (forall i :: 0 <= i < |s| ==> !IsPunct(s[i])) ==> r == s
    ensures forall c :: !IsPunct(c) ==> multiset(r)[c] == multiset(s)[c]
  {
    if |s| == 0 then ""
    else
      assert s == [s[0]] + s[1..];
      if IsPunct(s[0]) then RemovePunct(s[1..])
      else [s[0]] + RemovePunct(s[1..])
  }

  /** Removing the punctuation of two texts one after the other is removing it from each:
      the other characters keep their order. */
  lemma {:induction false} RemovePunctConcat(a: string, b: string)
    ensures RemovePunct(a + b) == RemovePunct(a) + RemovePunct(b)
  {
    if |a| > 0 {
      assert (a + b)[1..] == a[1..] + b;
      RemovePunctConcat(a[1..], b);
    } else {
      assert a + b == b;
    }
  }

  /** Length of the leading whitespace run. */
  function SpaceLen(cc: CharClass, s: string): (n: nat)
    ensures n <= |s|
    ensures forall j :: 0 <= j < n ==> cc.isSpace(s[j])
    ensures n < |s| ==> !cc.isSpace(s[n])
  {
    if |s| == 0 || !cc.isSpace(s[0]) then 0 else 1 + SpaceLen(cc, s[1..])
  }

  /** `re.sub(r'\s*-\s*', ' - ', s)`: leftmost, non-overlapping matches; a whitespace run
      that does not end in `-` is no match, so the scan moves on one character. */
  function SpaceHyphens(cc: CharClass, s: string): (r: string)
    decreases |s|
  {
    if |s| == 0 then ""
    else
      var w := SpaceLen(cc, s);
      if w < |s| && s[w] == '-' then
        var rest := s[w + 1..];
        " - " + SpaceHyphens(cc, rest[SpaceLen(cc, rest)..])
      else [s[0]] + SpaceHyphens(cc, s[1..])
  }

  /** `re.sub(r"(\w)'", r"\1' ", s)` */
  function SpaceApostrophes(cc: CharClass, s: string): (r: string)
    ensures |s| > 0 ==> |r| > 0 && r[0] == s[0]
    decreases |s|
  {
    if |s| == 0 then ""
    else if |s| >= 2 && cc.isWord(s[0]) && s[1] == '\'' then
      [s[0], '\'', ' '] + SpaceApostrophes(cc, s[2..])
    else [s[0]] + SpaceApostrophes(cc, s[1..])
  }

  /** `re.sub(r'\s+', ' ', s)` */
  function CollapseSpaces(cc: CharClass, s: string): (r: string)
    ensures |s| > 0 ==> |r| > 0 && r[0] == (if cc.isSpace(s[0]) then ' ' else s[0])
    decreases |s|
  {
    if |s| == 0 then ""
    else if cc.isSpace(s[0]) then " " + CollapseSpaces(cc, s[SpaceLen(cc, s)..])
    else [s[0]] + CollapseSpaces(cc, s[1..])
  }

  /** The passes of lines 81-89, in order. */
  function Spaced(cc: CharClass, part: string): string {
    CollapseSpaces(cc, SpaceApostrophes(cc, Lower(cc, SpaceHyphens(cc, RemovePunct(part)))))
  }

  /** The normalised part of line 90, before it is cut into tokens. */
  function Normalize(cc: CharClass, part: string): string {
    Strip(cc, Spaced(cc, part))
  }

  /** `tokenize(part)` */
  function Tokenize(cc: CharClass, part: string): seq<string> {
    DropEmpty(StripAll(cc, Split(Normalize(cc, part), ' ')))
  }

  // ---------------------------------------------------------------- slices keep the invariants

  lemma SliceKeeps(cc: CharClass, t: string, s: string, P: char -> bool)
    requires IsSlice(t, s)
    ensures AllChars(s, P) ==> AllChars(t, P)
    ensures Isolated(cc, s) ==> Isolated(cc, t)
    ensures ApostropheCloses(cc, s) ==> ApostropheCloses(cc, t)
  {
    var a, b :| 0 <= a <= b <= |s| && t == s[a..b];
    assert forall i :: 0 <= i < |t| ==> t[i] == s[a + i];
  }

  lemma SuffixKeeps(cc: CharClass, s: string, n: nat, P: char -> bool)
    requires n <= |s|
    ensures AllChars(s, P) ==> AllChars(s[n..], P)
    ensures Isolated(cc, s) ==> Isolated(cc, s[n..])
    ensures ApostropheCloses(cc, s) ==> ApostropheCloses(cc, s[n..])
  {
    assert s[n..] == s[n..|s|];
    SliceKeeps(cc, s[n..], s, P);
  }

  lemma AllCharsSuffix(s: string, n: nat, P: char -> bool)
    requires n <= |s| && AllChars(s, P)
    ensures AllChars(s[n..], P)
  {
    assert forall i :: 0 <= i < |s| - n ==> s[n..][i] == s[n + i];
  }

  lemma AllCharsConcat(a: string, b: string, P: char -> bool)
    requires AllChars(a, P) && AllChars(b, P)
    ensures AllChars(a + b, P)
  {
    assert forall i :: |a| <= i < |a + b| ==> (a + b)[i] == b[i - |a|];
  }

  lemma IsolatedConcat(cc: CharClass, a: string, b: string)
    requires Isolated(cc, a) && Isolated(cc, b)
    requires |a| > 0 && |b| > 0 && a[|a| - 1] == '-' ==> cc.isSpace(b[0])
    requires |a| > 0 && |b| > 0 && b[0] == '-' ==> cc.isSpace(a[|a| - 1])
    ensures Isolated(cc, a + b)
  {
    var s := a + b;
    forall i | 0 <= i < |s| && s[i] == '-'
      ensures (i == 0 || cc.isSpace(s[i - 1])) && (i + 1 == |s| || cc.isSpace(s[i + 1]))
    {
      if i < |a| {
        assert a[i] == '-';
      } else {
        assert b[i - |a|] == '-';
      }
    }
  }

  lemma ApostropheConcat(cc: CharClass, a: string, b: string)
    requires ApostropheCloses(cc, a) && ApostropheCloses(cc, b)
    requires |a| > 0 && |b| > 0 && b[0] == '\'' && cc.isWord(a[|a| - 1]) ==> |b| == 1 || cc.isSpace(b[1])
    requires |a| >= 2 && |b| > 0 && a[|a| - 1] == '\'' && cc.isWord(a[|a| - 2]) ==> cc.isSpace(b[0])
    ensures ApostropheCloses(cc, a + b)
  {
    var s := a + b;
    forall k | 0 < k < |s| && s[k] == '\'' && cc.isWord(s[k - 1])
      ensures k + 1 == |s| || cc.isSpace(s[k + 1])
    {
      if k < |a| {
        assert a[k] == '\'' && cc.isWord(a[k - 1]);
      } else if k > |a| {
        assert b[k - |a|] == '\'' && cc.isWord(b[k - |a| - 1]);
      }
    }
  }

  // ---------------------------------------------------------------- per-pass lemmas

  /** The hyphen pass never starts its output with a bare `-`. */
  lemma SpaceHyphensFirst(cc: CharClass, s: string)
    requires !cc.isSpace('-')
    ensures |SpaceHyphens(cc, s)| > 0 ==> SpaceHyphens(cc, s)[0] != '-'
  {
  }

  /** After the hyphen pass every `-` stands between whitespace. */
  lemma {:induction false} SpaceHyphensIsolate(cc: CharClass, s: string)
    requires Valid(cc)
    ensures Isolated(cc, SpaceHyphens(cc, s))
    decreases |s|
  {
    if |s| > 0 {
      var w := SpaceLen(cc, s);
      if w < |s| && s[w] == '-' {
        var rest := s[w + 1..];
        var tail := rest[SpaceLen(cc, rest)..];
        SpaceHyphensIsolate(cc, tail);
        IsolatedConcat(cc, " - ", SpaceHyphens(cc, tail));
      } else {
        SpaceHyphensIsolate(cc, s[1..]);
        SpaceHyphensFirst(cc, s[1..]);
        IsolatedConcat(cc, [s[0]], SpaceHyphens(cc, s[1..]));
      }
    }
  }

  lemma {:induction false} SpaceHyphensKeep(cc: CharClass, s: string, P: char -> bool)
    requires P(' ') && P('-') && AllChars(s, P)
    ensures AllChars(SpaceHyphens(cc, s), P)
    decreases |s|
  {
    if |s| > 0 {
      var w := SpaceLen(cc, s);
      if w < |s| && s[w] == '-' {
        var rest := s[w + 1..];
        AllCharsSuffix(s, w + 1, P);
        var tail := rest[SpaceLen(cc, rest)..];
        AllCharsSuffix(rest, SpaceLen(cc, rest), P);
        SpaceHyphensKeep(cc, tail, P);
        AllCharsConcat(" - ", SpaceHyphens(cc, tail), P);
      } else {
        AllCharsSuffix(s, 1, P);
        SpaceHyphensKeep(cc, s[1..], P);
        AllCharsConcat([s[0]], SpaceHyphens(cc, s[1..]), P);
      }
    }
  }

  lemma LowerIsolated(cc: CharClass, s: string)
    requires Valid(cc) && Isolated(cc, s)
    ensures Isolated(cc, Lower(cc, s))
  {
    var r := Lower(cc, s);
    forall i | 0 <= i < |r| && r[i] == '-'
      ensures (i == 0 || cc.isSpace(r[i - 1])) && (i + 1 == |r| || cc.isSpace(r[i + 1]))
    {
      assert s[i] == '-';
    }
  }

  lemma {:induction false} SpaceApostrophesClose(cc: CharClass, s: string)
    requires Valid(cc)
    ensures ApostropheCloses(cc, SpaceApostrophes(cc, s))
    decreases |s|
  {
    if |s| >= 2 && cc.isWord(s[0]) && s[1] == '\'' {
      SpaceApostrophesClose(cc, s[2..]);
      ApostropheConcat(cc, [s[0], '\'', ' '], SpaceApostrophes(cc, s[2..]));
    } else if |s| > 0 {
      SpaceApostrophesClose(cc, s[1..]);
      ApostropheConcat(cc, [s[0]], SpaceApostrophes(cc, s[1..]));
    }
  }

  lemma {:induction false} SpaceApostrophesIsolated(cc: CharClass, s: string)
    requires Valid(cc) && Isolated(cc, s)
    ensures Isolated(cc, SpaceApostrophes(cc, s))
    decreases |s|
  {
    if |s| >= 2 && cc.isWord(s[0]) && s[1] == '\'' {
      SuffixKeeps(cc, s, 2, _ => true);
      SpaceApostrophesIsolated(cc, s[2..]);
      IsolatedConcat(cc, [s[0], '\'', ' '], SpaceApostrophes(cc, s[2..]));
    } else if |s| > 0 {
      SuffixKeeps(cc, s, 1, _ => true);
      SpaceApostrophesIsolated(cc, s[1..]);
      IsolatedConcat(cc, [s[0]], SpaceApostrophes(cc, s[1..]));
    }
  }

  lemma {:induction false} SpaceApostrophesKeep(cc: CharClass, s: string, P: char -> bool)
    requires P(' ') && AllChars(s, P)
    ensures AllChars(SpaceApostrophes(cc, s), P)
    decreases |s|
  {
    if |s| >= 2 && cc.isWord(s[0]) && s[1] == '\'' {
      SuffixKeeps(cc, s, 2, P);
      SpaceApostrophesKeep(cc, s[2..], P);
    } else if |s| > 0 {
      SuffixKeeps(cc, s, 1, P);
      SpaceApostrophesKeep(cc, s[1..], P);
    }
  }

  lemma {:induction false} CollapseIsolated(cc: CharClass, s: string)
    requires Valid(cc) && Isolated(cc, s)
    ensures Isolated(cc, CollapseSpaces(cc, s))
    decreases |s|
  {
    if |s| > 0 {
      if cc.isSpace(s[0]) {
        var n := SpaceLen(cc, s);
        SuffixKeeps(cc, s, n, _ => true);
        CollapseIsolated(cc, s[n..]);
        IsolatedConcat(cc, " ", CollapseSpaces(cc, s[n..]));
      } else {
        SuffixKeeps(cc, s, 1, _ => true);
        CollapseIsolated(cc, s[1..]);
        IsolatedConcat(cc, [s[0]], CollapseSpaces(cc, s[1..]));
      }
    }
  }

  lemma {:induction false} CollapseCloses(cc: CharClass, s: string)
    requires Valid(cc) && ApostropheCloses(cc, s)
    ensures ApostropheCloses(cc, CollapseSpaces(cc, s))
    decreases |s|
  {
    if |s| > 0 {
      if cc.isSpace(s[0]) {
        var n := SpaceLen(cc, s);
        SuffixKeeps(cc, s, n, _ => true);
        CollapseCloses(cc, s[n..]);
        ApostropheConcat(cc, " ", CollapseSpaces(cc, s[n..]));
      } else {
        SuffixKeeps(cc, s, 1, _ => true);
        CollapseCloses(cc, s[1..]);
        if |s| >= 2 && s[1] == '\'' && cc.isWord(s[0]) {
          assert s[1..][1..] == s[2..];
          var b := CollapseSpaces(cc, s[1..]);
          assert b == [s[1]] + CollapseSpaces(cc, s[2..]);
          assert |s| == 2 || cc.isSpace(s[2]);
          assert |b| == 1 || cc.isSpace(b[1]);
        }
        ApostropheConcat(cc, [s[0]], CollapseSpaces(cc, s[1..]));
      }
    }
  }

  lemma {:induction false} CollapseKeep(cc: CharClass, s: string, P: char -> bool)
    requires P(' ') && AllChars(s, P)
    ensures AllChars(CollapseSpaces(cc, s), P)
    decreases |s|
  {
    if |s| > 0 {
      var n := if cc.isSpace(s[0]) then SpaceLen(cc, s) else 1;
      SuffixKeeps(cc, s, n, P);
      CollapseKeep(cc, s[n..], P);
    }
  }

  /** After collapsing, the only whitespace character left is the plain space. */
  lemma {:induction false} CollapseBlanks(cc: CharClass, s: string)
    ensures AllChars(CollapseSpaces(cc, s), c => cc.isSpace(c) ==> c == ' ')
    decreases |s|
  {
    if |s| > 0 {
      var n := if cc.isSpace(s[0]) then SpaceLen(cc, s) else 1;
      CollapseBlanks(cc, s[n..]);
    }
  }

  lemma {:induction false} RemovePunctKeep(s: string, P: char -> bool)
    requires AllChars(s, P)
    ensures AllChars(RemovePunct(s), P)
  {
    if |s| > 0 {
      AllCharsSuffix(s, 1, P);
      RemovePunctKeep(s[1..], P);
    }
  }

  // ---------------------------------------------------------------- the token theorem

  /** Facts about the normalised text that every token inherits. */
  lemma SpacedFacts(cc: CharClass, part: string)
    requires Valid(cc)
    ensures var e := Spaced(cc, part);
      && AllChars(e, c => !IsPunct(c))
      && AllChars(e, c => cc.isSpace(c) || cc.lower(c) == c)
      && AllChars(e, c => cc.isSpace(c) ==> c == ' ')
      && (Section !in part ==> AllChars(e, c => c != Section))
      && Isolated(cc, e)
      && ApostropheCloses(cc, e)
  {
    var a := RemovePunct(part);
    var b := SpaceHyphens(cc, a);
    var c := Lower(cc, b);
    var d := SpaceApostrophes(cc, c);
    var e := CollapseSpaces(cc, d);
    var P1 := (x: char) => !IsPunct(x);
    var P2 := (x: char) => x != Section;
    var P3 := (x: char) => cc.isSpace(x) || cc.lower(x) == x;
    SpaceHyphensKeep(cc, a, P1);
    assert AllChars(c, P1);
    SpaceApostrophesKeep(cc, c, P1);
    CollapseKeep(cc, d, P1);
    assert AllChars(c, P3);
    SpaceApostrophesKeep(cc, c, P3);
    CollapseKeep(cc, d, P3);
    CollapseBlanks(cc, d);
    if Section !in part {
      assert AllChars(part, P2);
      RemovePunctKeep(part, P2);
      SpaceHyphensKeep(cc, a, P2);
      assert AllChars(c, P2);
      SpaceApostrophesKeep(cc, c, P2);
      CollapseKeep(cc, d, P2);
    }
    SpaceHyphensIsolate(cc, a);
    LowerIsolated(cc, b);
    SpaceApostrophesIsolated(cc, c);
    CollapseIsolated(cc, d);
    SpaceApostrophesClose(cc, c);
    CollapseCloses(cc, d);
  }

  /** Every token is a space-free slice of the normalised text. */
  lemma TokenIsSlice(cc: CharClass, part: string, t: string)
    requires t in Tokenize(cc, part)
    ensures IsSlice(t, Spaced(cc, part)) && ' ' !in t
  {
    var e := Spaced(cc, part);
    var f := Normalize(cc, part);
    StripIsSlice(cc, e);
    PieceIsSlice(cc, f, t);
    SliceOfSlice(t, f, e);
  }

  /** A non-empty stripped piece of `f.split(' ')` is a space-free slice of `f`. */
  lemma PieceIsSlice(cc: CharClass, f: string, t: string)
    requires t in DropEmpty(StripAll(cc, Split(f, ' ')))
    ensures IsSlice(t, f) && ' ' !in t
  {
    var ps := Split(f, ' ');
    var qs := StripAll(cc, ps);
    assert t in qs;
    var j :| 0 <= j < |qs| && qs[j] == t;
    StripIsSlice(cc, ps[j]);
    SplitPiecesAreSlices(f, ' ');
    SliceOfSlice(t, ps[j], f);
    SliceKeeps(cc, t, ps[j], c => c != ' ');
    assert AllChars(ps[j], c => c != ' ');
  }

  /** The properties every token of `tokenize` has (prepare_for_alignment.py:78-95). */
  ghost predicate GoodToken(cc: CharClass, t: string) {
    && |t| > 0
    && (forall i :: 0 <= i < |t| ==> !cc.isSpace(t[i]) && !IsPunct(t[i]) && cc.lower(t[i]) == t[i])
    && ('-' in t ==> t == "-")
    && (forall i :: 0 < i < |t| && t[i] == '\'' && cc.isWord(t[i - 1]) ==> i == |t| - 1)
  }

  lemma HyphenNeighbours(cc: CharClass, t: string, i: int)
    requires Isolated(cc, t) && 0 <= i < |t| && t[i] == '-'
    ensures i > 0 ==> cc.isSpace(t[i - 1])
    ensures i + 1 < |t| ==> cc.isSpace(t[i + 1])
  {
  }

  lemma ApostropheNeighbour(cc: CharClass, t: string, i: int)
    requires ApostropheCloses(cc, t) && 0 < i < |t| && t[i] == '\'' && cc.isWord(t[i - 1])
    ensures i + 1 < |t| ==> cc.isSpace(t[i + 1])
  {
  }

  /** A space-free slice of a text with the normalised-text invariants is a good token. */
  lemma SliceIsGoodToken(cc: CharClass, t: string, e: string)
    requires IsSlice(t, e) && ' ' !in t && |t| > 0
    requires AllChars(e, c => !IsPunct(c))
    requires AllChars(e, c => cc.isSpace(c) || cc.lower(c) == c)
    requires AllChars(e, c => cc.isSpace(c) ==> c == ' ')
    requires Isolated(cc, e) && ApostropheCloses(cc, e)
    ensures GoodToken(cc, t)
  {
    SliceKeeps(cc, t, e, c => !IsPunct(c));
    SliceKeeps(cc, t, e, c => cc.isSpace(c) || cc.lower(c) == c);
    SliceKeeps(cc, t, e, c => cc.isSpace(c) ==> c == ' ');
    assert forall i :: 0 <= i < |t| ==> t[i] != ' ';
    assert forall i :: 0 <= i < |t| ==> !cc.isSpace(t[i]);
    if '-' in t {
      var i :| 0 <= i < |t| && t[i] == '-';
      HyphenNeighbours(cc, t, i);
      assert i == 0 && i + 1 == |t|;
      assert t == "-";
    }
    assert forall i :: 0 <= i < |t| ==> !IsPunct(t[i]);
    assert forall i :: 0 <= i < |t| ==> cc.lower(t[i]) == t[i];
    assert ApostropheCloses(cc, t);
    forall i | 0 < i < |t| && t[i] == '\'' && cc.isWord(t[i - 1])
      ensures i == |t| - 1
    {
      ApostropheNeighbour(cc, t, i);
    }
  }

  lemma TokenFacts(cc: CharClass, part: string, t: string)
    requires Valid(cc) && t in Tokenize(cc, part)
    ensures GoodToken(cc, t)
    ensures Section !in part ==> Section !in t
  {
    var e := Spaced(cc, part);
    SpacedFacts(cc, part);
    TokenIsSlice(cc, part, t);
    SliceIsGoodToken(cc, t, e);
    SliceKeeps(cc, t, e, c => c != Section);
    if Section !in part {
      assert AllChars(t, c => c != Section);
    }
  }

  /** Every token of `tokenize` is non-empty, free of whitespace and of `. , ; : ! ?`,
      lower-cased, exactly `-` if it holds a `-`, ends at any apostrophe that follows a word
      character, and holds no placeholder marker unless the part did. */
  lemma TokenizeTokens(cc: CharClass, part: string)
    requires Valid(cc)
    ensures forall t :: t in Tokenize(cc, part) ==> GoodToken(cc, t)
    ensures Section !in part ==> forall t :: t in Tokenize(cc, part) ==> Section !in t
  {
    forall t | t in Tokenize(cc, part)
      ensures GoodToken(cc, t) && (Section !in part ==> Section !in t)
    {
      TokenFacts(cc, part, t);
    }
  }
}
